=== FILE: README.md ===
# make-it-shorter, modelled in Dafny

make-it-shorter is a URL shortener built from three services and one Redis instance:

- The URL service keeps an in-process index from short code to record. Each record is copied
  durably under `urldata:<code>` and cached for 24 hours under `url:<code>`. On start-up the
  index is rebuilt from the durable copies.
- The analytics service counts clicks in Redis. It keeps total and per-day/per-hour counters,
  a set of visitor addresses, and sorted sets ranking referrers and codes.
- An HTTP gateway sits in front of both. It has a fixed-window rate limiter and the request
  handlers that decide, in a fixed order, what to refuse before calling a service.

The model describes Redis as an immutable value: a keyspace of strings, counters, sets and
scored sorted sets, plus the expiry attached to each key. Every service operation is a pure
function from the old state to the new state and its reply. Whether a Redis round trip goes
through is a parameter of the operation that issues it: a flag per write or per lookup in the
URL service and the rate limiter, and a predicate on the key for the analytics reads. The clock,
random bytes, URL parsing, DNS answers, the JSON decoder of the start-up restore and the other
services' replies are parameters too. The one Redis read that has no failure parameter is the
GET of the restore loop; see "Left out".

Modules, one file each:

- `Results`: `Option` and `Result`.
- `Text`: the Go `strings` operations the code uses, plus decimal printing and parsing.
- `KVStore`: the Redis commands and the ranking order of `ZREVRANGE`.
- `Http`: status codes and the `X-Forwarded-For` rule.
- `Validator`: `pkg/validator/url.go`.
- `Base64`: the URL-safe alphabet of section 5 of RFC 4648, with padding, as Go's
  `base64.URLEncoding` writes it.
- `UrlData`: the JSON text `encoding/json` produces for a stored record, and a decoder for it.
- `UrlService`: `services/urlservice/main.go`.
- `Analytics`: `services/analytics/main.go`.
- `RateLimit`: `pkg/middleware/ratelimit.go`.
- `Gateway`: `services/gateway/main.go`.

## Model

| member | source | states |
|---|---|---|
| Text.TrimSpace | pkg/validator/url.go:123 | The result is a slice of the input with only white space cut from either end, and it neither starts nor ends with white space. |
| Text.TrimSpaceOfTrimmed | pkg/validator/url.go:123 | Trimming text that has no white space at either end gives back the same text. |
| Text.RemoveAll | pkg/validator/url.go:119-122 | `strings.ReplaceAll(s, c, "")` leaves no `c` and keeps every other character, with its multiplicity. |
| Text.RemoveAbsent | pkg/validator/url.go:119-122 | Removing a character that does not occur changes nothing. |
| Text.IndexOf | pkg/middleware/ratelimit.go:62 | `strings.Index` gives -1 exactly when the character is absent; otherwise it gives the position of its first occurrence. |
| Text.LastIndexOf | services/gateway/main.go:396 | `strings.LastIndex` gives -1 exactly when the character is absent; otherwise it gives the position of its last occurrence. |
| Text.TrimPrefix | services/gateway/main.go:263 | `strings.TrimPrefix` removes the prefix when it is there and otherwise returns the input unchanged. |
| Text.ToLower | pkg/validator/url.go:48 | Lower-casing keeps the length and maps each character on its own. |
| Text.Utf8Size | services/gateway/main.go:166 | A character takes 1 to 4 bytes in UTF-8, and exactly 1 when it is ASCII. |
| Text.Utf8Len | services/gateway/main.go:160-169 | Go's `len` on a string counts UTF-8 bytes: at least one and at most four per character. |
| Text.Utf8LenAscii | services/gateway/main.go:160-169 | On ASCII text the byte count equals the character count. |
| Text.Utf8LenAccented | services/gateway/main.go:166 | "ééé" is 3 characters but 6 bytes, so it meets the 6-byte password rule. |
| Text.Truncate | services/analytics/main.go:42-44 | `s[:min(len(s), n)]` is a prefix of `s` of at most `n` characters, and all of `s` when `s` is short enough. |
| Text.DecimalRoundTrip | pkg/middleware/ratelimit.go:45-52 | A number printed with `%d` reads back as the same number. |
| Text.ParseGoInt | services/analytics/main.go:108 | `strconv.ParseInt` reads everything the plain decimal reader does, and also a leading `+`. Leading zeros and `-0` are accepted. |
| Text.ParseCanonical | pkg/middleware/ratelimit.go:33 | Redis's strict integer reading accepts a string only when it is exactly the canonical spelling of its value. |
| Text.CanonicalRoundTrip | pkg/middleware/ratelimit.go:33 | Every canonical spelling is accepted, so the strict reading is exactly the inverse of printing. |
| Text.ParseJsonInt | services/urlservice/main.go:65 | A JSON integer has no leading zero and no `+`, and `-0` reads as 0. |
| Text.IntegerSpellings | services/analytics/main.go:108 | `+5`, `007` and `-0` are integers to Go but not to Redis's INCR; JSON takes `-0` and refuses `007`. |
| Text.ZeroPadValue | services/analytics/main.go:61-62 | A zero-padded date or hour field reads back as the number that was printed. |
| Text.ZeroPadInjective | services/analytics/main.go:61-62 | Distinct numbers give distinct padded fields. |
| KVStore.Get | services/urlservice/main.go:159 | GET answers a missing key with the nil error and a string key with its text. |
| KVStore.GetInt | services/analytics/main.go:108 | GET followed by `Int64()` gives the counter's value, reads a string in any spelling `strconv.ParseInt` accepts, fails on other text as not an integer, fails on a set or sorted set as the wrong type, and gives the nil error for a missing key. |
| KVStore.IncrBase | pkg/middleware/ratelimit.go:33 | INCR starts from 0 for a missing key, from the value of a counter, and from a string only in its canonical spelling. Other text is not an integer, and a set or sorted set is the wrong type. |
| KVStore.IncrBaseRead | services/analytics/main.go:69-108 | Whatever INCR accepts as an integer, the `Int64()` read gives as the same integer. |
| KVStore.IntOrZero | services/analytics/main.go:108-114 | A missing or unreadable counter counts as 0. |
| KVStore.Set | services/urlservice/main.go:131 | SET stores the text under the key and gives it the requested expiry, or none for 0; nothing else changes. |
| KVStore.Del | services/urlservice/main.go:139 | The expiry of a key removes it and its expiry, and nothing else. |
| KVStore.Incr | pkg/middleware/ratelimit.go:33 | INCR creates a missing counter at 1 and otherwise adds 1 to what INCR accepts. On text that is not a canonical integer it fails as not an integer, and on a set it fails as the wrong type; a failure changes nothing. It never touches an expiry. |
| KVStore.Expire | services/analytics/main.go:83-88 | EXPIRE with a positive timeout attaches it to an existing key and leaves the data alone. A zero timeout deletes the key and its expiry. On a missing key it does nothing. |
| KVStore.SAdd | services/analytics/main.go:70 | SADD adds the member to the set, creating the set if it is missing; on a key of another type it changes nothing. |
| KVStore.SCard | services/analytics/main.go:116 | SCARD gives the set's size, 0 for a missing key, and the wrong-type error on a key of another type. |
| KVStore.ZIncrBy | services/analytics/main.go:75 | ZINCRBY adds the increment to the member's score, starting from 0, and creates the sorted set if it is missing. |
| KVStore.ZIncrByRanking | services/analytics/main.go:79-81 | After ZINCRBY the ranking is the old one with only that member's score raised. |
| KVStore.TopEntries | services/analytics/main.go:173 | Gives the first `count` members in `ZREVRANGE` order: highest score first, equal scores in descending member order, no member twice. |
| KVStore.TopDetermined | services/analytics/main.go:173 | That order has exactly one answer, so any two correct top-`count` lists are equal. |
| KVStore.ZRevRangeWithScores | services/analytics/main.go:173 | The range is empty for a missing key, fails exactly on a key of another type, and is otherwise the top `count` entries. |
| KVStore.AgreeReads | services/analytics/main.go:108-122 | Two stores that agree on a key give the same answers to every read of that key. |
| KVStore.IncrThenExpire | services/analytics/main.go:69 | INCR then a positive EXPIRE raises a usable counter by one and sets its expiry, and leaves an unusable key's value alone. A zero EXPIRE deletes the key. |
| KVStore.SAddThenExpire | services/analytics/main.go:70 | SADD then a positive EXPIRE adds the member, so the cardinality counts the old members plus this one, and sets the expiry. A zero EXPIRE leaves no set. |
| KVStore.ZIncrByThenExpire | services/analytics/main.go:75-76 | ZINCRBY then a positive EXPIRE bumps the member's score and sets the key's expiry. A zero EXPIRE deletes the ranking. |
| KVStore.IncrFrame | services/analytics/main.go:69-72 | INCR leaves every other key as it was. |
| KVStore.IncrLocal | services/analytics/main.go:69-72 | What INCR does to a key depends on nothing but that key. |
| Http.FirstForwarded | pkg/middleware/ratelimit.go:60-66 | The client named by `X-Forwarded-For` has no comma and no surrounding white space, and without a comma it is the whole header trimmed. |
| Http.FirstForwardedOfList | services/gateway/main.go:386-391 | A list of addresses gives its first element trimmed, whatever proxies were appended after it. |
| Validator.ClassRun | pkg/validator/url.go:12 | Gives the length of the longest leading run of `[a-zA-Z0-9_-]` characters. |
| Validator.ValidateShortCode | pkg/validator/url.go:105-115 | A code is accepted exactly when it has 3 to 10 characters, all in `[a-zA-Z0-9_-]`; the empty code gets the error of its own. |
| Validator.StripUnsafe | pkg/validator/url.go:119-122 | Removes every `<`, `>`, `"` and `'` and keeps all other characters. |
| Validator.SanitizeInput | pkg/validator/url.go:117-125 | The output has none of `<`, `>`, `"`, `'`, no white space at either end, and is never longer than the input. |
| Validator.SanitizeIsTrimmedStrip | pkg/validator/url.go:117-125 | The output is a slice of the stripped input with only white space cut from each end. |
| Validator.SanitizeIdempotent | pkg/validator/url.go:117-125 | Sanitising twice gives the same as sanitising once. |
| Validator.IsPrivateIP | pkg/validator/url.go:76-103 | An address passes exactly when it is in none of the five refused classes, and the first class that matches names the error. |
| Validator.CheckResolved | pkg/validator/url.go:63-68 | The resolved addresses pass exactly when each one does; otherwise the error is the one of an address that failed. |
| Validator.CheckSSRF | pkg/validator/url.go:46-73 | A localhost name is refused in any letter case. Otherwise an address literal is judged on its own, an unresolvable name passes, and a resolved name gets exactly the verdict of the check over all its addresses. |
| Validator.ValidateURL | pkg/validator/url.go:15-43 | The checks come in source order: empty, longer than 2048, unparsable, wrong scheme, no host. A URL that passes all five gets exactly the SSRF check's verdict on its host name. |
| Validator.LocalhostAnyCase | pkg/validator/url.go:48-51 | `LocalHost` is refused as localhost. |
| Validator.LocalhostSubdomain | pkg/validator/url.go:49 | Any name ending in `.LOCALHOST`, in any case, is refused as localhost. |
| Base64.ReadSpell | services/urlservice/main.go:221 | Reading back the spelled alphabet characters gives the same symbols. |
| Base64.JoinSymbols | services/urlservice/main.go:221 | Regrouping the 6-bit symbols of any byte string gives the bytes back. |
| Base64.DecodeEncode | services/urlservice/main.go:221 | Decoding the URL-safe encoding of any byte string gives the bytes back. |
| Base64.GenerateShortCode | services/urlservice/main.go:218-225 | The first six characters of the encoding of six random bytes form a code of length 6 that passes `ValidateShortCode`. |
| Base64.GeneratedCodeUses36Bits | services/urlservice/main.go:223 | The code depends only on the first 36 bits of the random bytes. |
| UrlData.HexRoundTrip | services/urlservice/main.go:126 | A `\uXXXX` escape reads back as the code unit that was written. |
| UrlData.ParseEscape | services/urlservice/main.go:126 | A JSON string written with the escapes of `encoding/json` reads back as the original text, with the rest of the input left over. |
| UrlData.Marshal | services/urlservice/main.go:126 | The durable form is a JSON object that opens with the `ShortCode` field and ends with a closing brace. |
| UrlData.Unmarshal | services/urlservice/main.go:64-68 | A payload decodes only if it opens with the `ShortCode` field, and the decoded code is that field's string. |
| UrlData.UnmarshalMarshal | services/urlservice/main.go:64-68 | Decoding the JSON written for a record gives the record back. |
| UrlService.BaseURL | services/urlservice/main.go:37-43 | A non-empty domain other than `localhost` gives `https://` plus the domain; otherwise the base is `http://localhost:8080`. |
| UrlService.DurableKeyInjective | services/urlservice/main.go:130 | Distinct codes have distinct durable keys. |
| UrlService.CacheKeyInjective | services/urlservice/main.go:138 | Distinct codes have distinct cache keys. |
| UrlService.CacheKeyNotDurable | services/urlservice/main.go:130-138 | No cache key is a durable key. |
| UrlService.StrictDecoderInverts | services/urlservice/main.go:64-68 | The decoder of the `UrlData` module reads back every record `Marshal` writes, so the restore's hypothesis on its decoder can be met. |
| UrlService.Loaded | services/urlservice/main.go:58-68 | A key whose GET fails yields no record. Otherwise it yields what the decoder makes of the payload. |
| UrlService.Restore | services/urlservice/main.go:56-72 | Every code already indexed stays indexed and every readable, decodable key's code is indexed; each entry sits under its own code and holds a record from the starting index or from a scanned key; a key that fails is skipped without stopping the loop. |
| UrlService.RestoreAppend | services/urlservice/main.go:56-72 | The loop carries its index from key to key, so restoring two runs of keys in turn is restoring their concatenation. |
| UrlService.RestoreLaterKeyWins | services/urlservice/main.go:70 | The assignment overwrites: the last key read holds its code's entry, replacing whatever record the index or an earlier key with the same code put there. |
| UrlService.NewServer | services/urlservice/main.go:36-81 | The new server has the base URL chosen from the domain and an index whose every entry sits under its own code. |
| UrlService.RestoreComplete | services/urlservice/main.go:51-72 | Over a complete scan of well-formed durable records, the rebuilt index holds exactly the stored codes with their stored records. |
| UrlService.StartCoherent | services/urlservice/main.go:51-81 | A freshly started server's cache agrees with its index exactly when every `url:` entry left in the store holds the target of its code's durable record. A store without cache entries qualifies. |
| UrlService.CreateShortURL | services/urlservice/main.go:83-152 | A bad URL, a bad custom alias or a taken alias is refused in that order and changes nothing. Otherwise the code maps to the new record, the durable and cache writes happen when they go through, and the reply carries `baseURL + "/s/" + code`. |
| UrlService.GetOriginalURL | services/urlservice/main.go:154-189 | A cache hit is answered without the index. A miss with no index entry gives Found=false and writes nothing. A miss with an index entry answers from the index and puts the URL back in the cache. |
| UrlService.LookupAnswersFromIndex | services/urlservice/main.go:157-188 | While every cache entry holds its code's indexed URL, every lookup answers as the index does, and the cache stays that way. |
| UrlService.CacheRepopulated | services/urlservice/main.go:180-188 | Self-healing: after a miss answered by the index, a cache-only read gives the same URL. |
| UrlService.ExpiryKeepsCoherence | services/urlservice/main.go:139 | The expiry of a cache entry keeps the cache consistent with the index. |
| UrlService.WritesKeepCoherence | services/urlservice/main.go:120-142 | The index update and the two store writes of a create keep the cache consistent, except when the cache write fails over an existing code. |
| UrlService.CreateKeepsCoherence | services/urlservice/main.go:83-152 | A create keeps the cache consistent with the index, except when a generated code collides and the cache write fails. |
| UrlService.CreateThenLookup | services/urlservice/main.go:120-188 | After a successful create, a lookup of the code returns the original URL, whether or not the cache entry has expired or the cache can be read. |
| UrlService.GeneratedCollisionOverwrites | services/urlservice/main.go:107-122 | A generated code that is already in the index replaces the earlier record, and the index does not grow. |
| UrlService.StaleTargetAfterCollision | services/urlservice/main.go:107-142 | After such a collision with a failed cache write, a lookup returns the old cached URL although the index holds the new one. |
| UrlService.DurableWriteKeepsWellFormed | services/urlservice/main.go:125-135 | Writing a record under its own durable key keeps every durable record under its own code's key. |
| UrlService.CacheWriteKeepsWellFormed | services/urlservice/main.go:138-139 | A cache write does not disturb the durable records. |
| UrlService.CreateKeepsDurableWellFormed | services/urlservice/main.go:83-152 | A create keeps every durable record under its own code's key. |
| UrlService.RestartRecoversCreated | services/urlservice/main.go:51-72 | After a create whose durable write went through, a server rebuilt from a full scan holds the same record, and a lookup returns the URL even without the cache entry. This holds for any decoder that reads back what `Marshal` writes. |
| UrlService.OwnedStep | services/urlservice/main.go:198-199 | Visiting one more index entry adds its code to those met exactly when the user owns it. |
| UrlService.OwnedCodes | services/urlservice/main.go:198-208 | The walk meets every code the user owns, once each, and no other code. |
| UrlService.GetUserURLs | services/urlservice/main.go:191-216 | Gives exactly one entry per record the user owns, with the record's code, short URL, target and time and 0 clicks; the list is empty, not absent, when the user owns none. |
| Analytics.WeekBucketIsMonth | services/analytics/main.go:65 | Two dates share a "week" key exactly when they share year and month. |
| Analytics.DateStampInjective | services/analytics/main.go:61 | Distinct valid dates give distinct 10-character stamps. |
| Analytics.HourlyKeysDistinct | services/analytics/main.go:62 | Distinct hours of a day give distinct hourly keys. |
| Analytics.DailyKeysDistinct | services/analytics/main.go:61 | Distinct days give distinct daily keys. |
| Analytics.Tags | services/analytics/main.go:59-66 | The eight key families are told apart by a character at a fixed place, so keys of different families never coincide. |
| Analytics.ClickOf | services/analytics/main.go:41-53 | The stored address, user agent and referrer are prefixes of the request's of at most 45, 500 and 500 characters, and equal to them when short enough. |
| Analytics.Remember | services/analytics/main.go:55-57 | The click is appended to its code's buffer and no other code's buffer changes. |
| Analytics.RecordClick | services/analytics/main.go:38-100 | Always reports success. The click is buffered. An undelivered pipeline leaves Redis as it was, and a delivered one applies the counter, ranking and expiry updates. |
| Analytics.PipelineFrame | services/analytics/main.go:68-88 | The pipeline touches only the eight keys of the click. |
| Analytics.PipelineOnTotal | services/analytics/main.go:69-83 | On the total key the pipeline is one INCR then a 30-day expiry. |
| Analytics.PipelineOnUnique | services/analytics/main.go:70-84 | On the visitor set the pipeline is one SADD of the untruncated address then a 30-day expiry. |
| Analytics.PipelineOnDaily | services/analytics/main.go:71-85 | On the day's key the pipeline is one INCR then a 30-day expiry. |
| Analytics.PipelineOnHourly | services/analytics/main.go:72-86 | On the hour's key the pipeline is one INCR then a 30-day expiry. |
| Analytics.PipelineOnReferers | services/analytics/main.go:74-77 | On the referrer ranking the pipeline bumps the referrer and sets a 30-day expiry only when the truncated referrer is non-empty. |
| Analytics.PipelineOnGlobal | services/analytics/main.go:79 | On the all-time ranking the pipeline bumps the code and sets no expiry. |
| Analytics.PipelineOnWeek | services/analytics/main.go:80-87 | On the "week" ranking the pipeline bumps the code then sets a 90-day expiry. |
| Analytics.PipelineOnMonth | services/analytics/main.go:81-88 | On the month ranking the pipeline bumps the code then sets a 180-day expiry. |
| Analytics.ClickCountsTotal | services/analytics/main.go:69-83 | A delivered click adds exactly 1 to the code's total and sets the total's 30-day expiry. |
| Analytics.ClickCountsDay | services/analytics/main.go:71-85 | A delivered click adds exactly 1 to the counter of the click's day. |
| Analytics.ClickSparesOtherDays | services/analytics/main.go:61 | A click leaves the counters of every other day alone. |
| Analytics.ClickCountsHour | services/analytics/main.go:72-86 | A delivered click adds exactly 1 to the counter of the click's hour. |
| Analytics.ClickSparesOtherHours | services/analytics/main.go:62 | A click leaves the counters of the day's other hours alone. |
| Analytics.ClickAddsVisitor | services/analytics/main.go:70-84 | A delivered click adds the request's untruncated address to the visitor set. |
| Analytics.ClickRanksReferer | services/analytics/main.go:74-77 | The referrer ranking rises by 1 for the truncated referrer when it is non-empty, and is unchanged otherwise. |
| Analytics.ClickRanksAllTime | services/analytics/main.go:79 | The all-time ranking rises by 1 for the code, with no expiry set. |
| Analytics.ClickRanksWeek | services/analytics/main.go:80-87 | The "week" ranking rises by 1 for the code and expires after 90 days. |
| Analytics.ClickRanksMonth | services/analytics/main.go:81-88 | The month ranking rises by 1 for the code and expires after 180 days. |
| Analytics.ReadInt | services/analytics/main.go:108-114 | An integer read that does not reach Redis counts as 0. One that does reach Redis counts as the key's integer, or 0 for a missing or unreadable key. |
| Analytics.GetClickStats | services/analytics/main.go:102-149 | A total or visitor read that fails, for the network, a missing key or a wrong type, counts as 0; otherwise it is the counter or the set's size. There are exactly seven daily entries, entry `i` being the read of the counter of today minus `i` days. |
| Analytics.ReportDate | services/analytics/main.go:224-227 | An empty date means today. |
| Analytics.GetHourlyDistribution | services/analytics/main.go:221-245 | Gives exactly 24 entries, entry `h` being the read of hour `h`'s counter, where a failed read or a missing bucket gives 0. |
| Analytics.ClampLimit | services/analytics/main.go:168-171 | A limit is kept exactly when it is 1 to 100; anything else becomes 100. |
| Analytics.PeriodKey | services/analytics/main.go:157-166 | `week` and `month` pick their rankings and any other period picks the all-time one. |
| Analytics.GetTopURLs | services/analytics/main.go:151-190 | A read that reaches Redis gives the top entries of the chosen ranking, at most the clamped limit, in descending score. A read that does not reach Redis, or a key of another type, gives the empty list. |
| Analytics.GetTopReferers | services/analytics/main.go:192-219 | A read that reaches Redis gives the top entries of the code's referrer ranking, at most the clamped limit, in descending score. A failed read or a key of another type gives the empty list. |
| Analytics.ClickMovesOneDay | services/analytics/main.go:61-71 | A click raises the daily count of its own day by 1 and of no other day. |
| Analytics.ClickShowsInStats | services/analytics/main.go:69-136 | A delivered click raises the reported total by exactly 1 and the daily entry of its own day by 1, and leaves the other days' entries unchanged, wherever the reads reach Redis. |
| Analytics.ClickShowsInDays | services/analytics/main.go:124-136 | A delivered click raises by 1 each daily entry that reports its day, and leaves the others unchanged, for every entry whose read reaches Redis. |
| Analytics.ClickShowsInHourly | services/analytics/main.go:61-62 | A delivered click raises by 1 the hourly entry of its hour for its date, and leaves the other hours unchanged, for every entry whose read reaches Redis. |
| Analytics.ClickTally | services/analytics/main.go:69-70 | A click keeps the count equal to the clicks seen so far and the visitor set equal to their addresses. |
| Analytics.ReplayTally | services/analytics/main.go:69-70 | After any sequence of clicks on one code, the total counts them and the visitor set holds their addresses. |
| Analytics.StatsOfTally | services/analytics/main.go:108-122 | The reported counts are the tallied count and the number of distinct visitors, whenever their reads reach Redis. |
| Analytics.ReplayStats | services/analytics/main.go:69-122 | From fresh counters, the reported total is the number of clicks and the unique count is the number of distinct addresses, whenever their reads reach Redis. |
| Analytics.RepeatVisitorCountsOnce | services/analytics/main.go:69-122 | Clicks from A, A, B give total 3 and unique 2, whenever the reads reach Redis. |
| RateLimit.ClientIP | pkg/middleware/ratelimit.go:58-73 | The client is the first `X-Forwarded-For` entry when that header is set, else `X-Real-IP` when set, else the peer address verbatim, port included. |
| RateLimit.RateLimitKey | pkg/middleware/ratelimit.go:30 | The counter key is `rate_limit:` followed by the client address. |
| RateLimit.RateLimitKeyInjective | pkg/middleware/ratelimit.go:30 | Distinct clients count against distinct counters. |
| RateLimit.StatusOf | pkg/middleware/ratelimit.go:36-54 | The limiter answers 500 on a counter failure and 429 on a refusal, and otherwise leaves the status to the wrapped handler. |
| RateLimit.Admit | pkg/middleware/ratelimit.go:27-56 | Fails closed: a failed INCR gives 500 and writes nothing. Otherwise the request goes through exactly when the new count is at most the ceiling, and the headers are the ceiling and the remaining room (or `0`). The expiry is armed exactly by the request that brings the count to 1; a zero window deletes the counter instead. |
| RateLimit.AdmitFrame | pkg/middleware/ratelimit.go:29-41 | A request touches only its own client's counter. |
| RateLimit.RemainingInRange | pkg/middleware/ratelimit.go:52 | On a request that goes through, `X-RateLimit-Remaining` reads as a number from 0 to the ceiling minus 1. |
| RateLimit.Room | pkg/middleware/ratelimit.go:44 | The room left above a counter is what separates it from the ceiling, or 0 once the counter has reached the ceiling. |
| RateLimit.WindowBound | pkg/middleware/ratelimit.go:33-54 | Within one unexpired window, however the round trips fare, at most the room left above the counter's starting value is let through. |
| RateLimit.FreshWindowBound | pkg/middleware/ratelimit.go:33-54 | A fresh window lets through at most `maxRequests` requests. |
| RateLimit.WindowExact | pkg/middleware/ratelimit.go:33-54 | When every INCR succeeds, exactly the first requests up to the room left go through. |
| RateLimit.ExpiryResetsWindow | pkg/middleware/ratelimit.go:40-42 | After the window's key expires, the next request goes through with count 1 and re-arms the window; with a zero window that request deletes the counter again. |
| RateLimit.ZeroWindowNeverLimits | pkg/middleware/ratelimit.go:19-42 | With a zero window and a ceiling of at least 1, a client whose round trips all go through is never refused, because each request's EXPIRE deletes the counter it created. |
| Gateway.StripPort | services/gateway/main.go:395-398 | The address is cut before its last `:`, and left whole when it has none. |
| Gateway.StripPortOf | services/gateway/main.go:395-398 | `host:port` gives `host`, whatever colons the host itself holds. |
| Gateway.ClientIP | services/gateway/main.go:385-400 | Same header precedence as the limiter, but the peer address falls back without its port. |
| Gateway.ClientIPsAgreeOnHeaders | services/gateway/main.go:385-394 | When a proxy header is set, the gateway and the limiter name the same client. |
| Gateway.ClientIPsDifferOnPort | services/gateway/main.go:395-399 | Without proxy headers, two connections from one host on different ports are one client to the gateway but two counters to the limiter. |
| Gateway.RedirectCode | services/gateway/main.go:263 | The code is the path after `/s/`, or the whole path when it does not start that way. |
| Gateway.HandleRedirect | services/gateway/main.go:262-308 | An empty or malformed code is 400 before any lookup. A lookup error is 500, not found is 404, and found is 301 to the returned URL. A click for that same code and the client's address is dispatched exactly on 301. |
| Gateway.CreateThenRedirect | services/gateway/main.go:262-308 | After a create, following the short URL's path redirects to the original URL. |
| Gateway.HandleGetStats | services/gateway/main.go:351-383 | Only GET is served. An empty or malformed code is 400 before analytics is called. A failed call is 500, and 200 comes only from a successful one. |
| Gateway.Sanitized | services/gateway/main.go:147-149 | Each registration field is sanitised on its own. |
| Gateway.HandleRegister | services/gateway/main.go:130-207 | Only POST, then the body must decode. The field checks refuse with 400 before the database is asked. A failed existence check is 500 "Internal server error" and a taken name is 409. On an unused name, a failed insert is 500 "Failed to create user", a failed token is 500 "User created but failed to generate token", and 200 comes exactly when the user is stored and a token is issued. |
| Gateway.RegisterChecksBeforeDatabase | services/gateway/main.go:151-176 | The database is asked only about a non-empty alphanumeric name of at least 3 bytes with a password of at least 6 bytes and a valid email, lengths counted in UTF-8 bytes as Go's `len` does. |
| Gateway.RegisterOrder | services/gateway/main.go:151-174 | The refusals come in source order, each rung speaking only when every earlier rung passed. |
| Gateway.HandleGetUserURLs | services/gateway/main.go:310-349 | Only GET is served. A missing header or a token that does not validate is 401 before the URL service is asked. A failed call is 500, and a nil list is returned as an empty one. |
| Gateway.BearerOptional | services/gateway/main.go:323 | A token is judged the same with or without the `Bearer ` prefix. |

## Left out

- Logging, gRPC and HTTP plumbing, JSON decoding of requests and encoding of replies, the `main` functions, the percent-escaping of non-ASCII characters that `http.Redirect` applies to the `Location` header, and the CORS, security-header and size-limit middleware are not modelled. They carry no decision logic of the core.
- Concurrency is not modelled. Each operation is one atomic step, so the RWMutex discipline, the race between the custom-alias check and the insert, and the fire-and-forget click goroutine are absent. `Gateway.HandleRedirect` returns the click it would dispatch instead of sending it.
- The clock is a parameter: `time.Now` becomes a creation time, a click instant, or a function from "days ago" to a date. Calendar arithmetic is not modelled.
- Random bytes are a parameter: `crypto/rand` becomes the six bytes handed to `GenerateShortCode`.
- Expiry is not a clock event. Each key carries its expiry as a number of seconds, and the passing of that time is modelled as deleting the key.
- `url.Parse`, `net.ParseIP`, `net.LookupIP` and the `net.IP` class predicates are inputs. They are a parsed-URL record, a host resolution and per-address class flags.
- `ValidateAlphanumeric` and `ValidateEmail` are inputs to the registration ladder, because pkg/validator/validator.go is not part of this model.
- `pkg/database/users.go` (the SQL queries and bcrypt), the JWT calls into `auth`, and `web/static/app.js` are not modelled. User existence, user creation, token issuance and token validation are inputs.
- Only these gateway handlers are modelled: redirect, statistics, registration and the user's URL list. The login handler (services/gateway/main.go:81-128), the create handler (services/gateway/main.go:209-260) and the other routes are outside the modelled core.
- Redis scores are integers here rather than floats, so `int64(result.Score)` is the score itself.
- Outside registration, lengths are counted in characters, not bytes. Truncation to 45 or 500 and the 2048 limit agree with Go only on ASCII text. The registration rules on user name and password length count UTF-8 bytes with `Text.Utf8Len`, as Go's `len` does.
- `Text.ToLower` lower-cases ASCII letters only. No other character lower-cases to a letter of `localhost`, so the localhost test is unaffected.
- Analytics.RecordClick: a failed pipeline is all-or-nothing. Redis may apply part of a pipeline that fails midway, and that partial outcome is not modelled.
- The analytics click buffer is modelled, although nothing ever reads it.
- The "week" key uses the layout `2006-W01`. In that layout `01` is the month, so the key is `W` plus the month, and the model does the same (`Analytics.WeekBucketIsMonth`).
- The rate limiter's window is a whole number of seconds, not a Go `time.Duration`. go-redis sends a positive duration under one second as 1; a zero or negative duration becomes the zero window.
- RateLimit.WindowBound, RateLimit.FreshWindowBound and RateLimit.WindowExact are stated for a positive window only. With a zero window the bound does not hold, and `RateLimit.ZeroWindowNeverLimits` states what happens instead. The gateway builds its one limiter with a one-minute window (services/gateway/main.go:438).
- Counters are unbounded integers. INCR's overflow error past 2^63-1 and `strconv.ParseInt`'s range error are not modelled.
- UrlData.Unmarshal: it accepts only the exact layout `json.Marshal` writes, with no whitespace, the fields in declaration order, the exact field names and no missing or unknown fields. Go's `json.Unmarshal` accepts all of those. The restore therefore takes its decoder as a parameter, and `UrlService.RestoreComplete` and `UrlService.RestartRecoversCreated` ask of it only that it reads back what `Marshal` writes. `UrlData.Unmarshal` is one decoder that meets this.
- UrlService.NewServer: a GET of the restore loop that fails on the network is not a separate parameter. The loop skips such a key, and the model gets the same outcome from a scan parameter that leaves the key out.
- RateLimit.Admit: a failed EXPIRE is ignored, as in the code. The window then never closes, and the model records that only as an unarmed expiry.
- The scan behind the restore loop is a parameter: the keys it returned, in order. `RestoreComplete` assumes the scan saw every durable key, which Redis guarantees for keys present throughout the scan.

=== FILE: analytics.dfy ===
/** The click aggregator of services/analytics/main.go: one click is one batch of counter,
    set and ranking updates in the shared store, and the read calls are roll-ups over it.
    The clock is an input: a calendar hour for the keys and the Unix time for the record. */
module Analytics {

  import opened Results
  import opened Text
  import opened KVStore

  /** A calendar date and an hour of the day, as `time.Now()` reads them. */
  datatype Date = Date(year: nat, month: nat, day: nat)
  datatype Instant = Instant(date: Date, hour: nat)

  // ---------------------------------------------------------------- time stamps

  /** Go layout "2006-01-02". */
  function DateStamp(d: Date): string {
    ZeroPad(d.year, 4) + "-" + ZeroPad(d.month, 2) + "-" + ZeroPad(d.day, 2)
  }

  /** The hour suffix `-%02d` / layout "-15". */
  function HourSuffix(hour: nat): string {
    "-" + ZeroPad(hour, 2)
  }

  /** Go layout "2006-01-02-15". */
  function HourStamp(t: Instant): string {
    DateStamp(t.date) + HourSuffix(t.hour)
  }

  /** Go layout "2006-W01": the `W` is a literal and `01` is the month. */
  function WeekStamp(d: Date): string {
    ZeroPad(d.year, 4) + "-W" + ZeroPad(d.month, 2)
  }

  /** Go layout "2006-01". */
  function MonthStamp(d: Date): string {
    ZeroPad(d.year, 4) + "-" + ZeroPad(d.month, 2)
  }

  // ---------------------------------------------------------------- keys

  function TotalKey(code: string): string { "clicks:total:" + code }
  function UniqueKey(code: string): string { "clicks:unique:" + code }
  function DailyKey(code: string, date: string): string { "clicks:daily:" + code + ":" + date }
  function HourlyKey(code: string, stamp: string): string { "clicks:hourly:" + code + ":" + stamp }
  function ReferersKey(code: string): string { "clicks:referers:" + code }
  const GlobalKey: string := "clicks:global:sorted"
  function GlobalWeekKey(d: Date): string { "clicks:global:week:" + WeekStamp(d) }
  function GlobalMonthKey(d: Date): string { "clicks:global:month:" + MonthStamp(d) }

  const Day: nat := 24 * 60 * 60
  const PerCodeTTL: nat := 30 * Day
  const WeekTTL: nat := 90 * Day
  const MonthTTL: nat := 180 * Day

  /** The character that tells the key families apart: `t`, `u`, `d`, `h`, `r` or `g` for
      the per-code families and the global ones. */
  function Tag(k: string): char {
    if |k| > 7 then k[7] else ' '
  }

  /** Among the global rankings: `s`, `w` or `m`. */
  function GlobalTag(k: string): char {
    if |k| > 14 then k[14] else ' '
  }

  lemma Tags(code: string, date: string, stamp: string, d: Date)
    ensures Tag(TotalKey(code)) == 't' && Tag(UniqueKey(code)) == 'u'
    ensures Tag(DailyKey(code, date)) == 'd' && Tag(HourlyKey(code, stamp)) == 'h'
    ensures Tag(ReferersKey(code)) == 'r'
    ensures Tag(GlobalKey) == 'g' && Tag(GlobalWeekKey(d)) == 'g' && Tag(GlobalMonthKey(d)) == 'g'
    ensures GlobalTag(GlobalKey) == 's' && GlobalTag(GlobalWeekKey(d)) == 'w' && GlobalTag(GlobalMonthKey(d)) == 'm'
  {
    assert DailyKey(code, date) == "clicks:daily:" + (code + ":" + date);
    assert HourlyKey(code, stamp) == "clicks:hourly:" + (code + ":" + stamp);
  }

  /** The hourly keys of one code and one date differ for different hours. */
  lemma HourlyKeysDistinct(code: string, date: string, h1: nat, h2: nat)
    requires h1 < 100 && h2 < 100 && h1 != h2
    ensures HourlyKey(code, date + HourSuffix(h1)) != HourlyKey(code, date + HourSuffix(h2))
  {
    var k1 := HourlyKey(code, date + HourSuffix(h1));
    var k2 := HourlyKey(code, date + HourSuffix(h2));
    ZeroPadTwo(h1);
    ZeroPadTwo(h2);
    var n := |k1| - 2;
    assert k1[n..] == ZeroPad(h1, 2);
    assert k2[n..] == ZeroPad(h2, 2);
    if k1 == k2 {
      ZeroPadInjective(h1, h2, 2);
    }
  }

  /** The "week" ranking is in fact a month ranking: two instants share a week key exactly
      when they fall in the same calendar month. */
  lemma WeekBucketIsMonth(d1: Date, d2: Date)
    requires d1.year < 10000 && d2.year < 10000 && d1.month < 100 && d2.month < 100
    ensures GlobalWeekKey(d1) == GlobalWeekKey(d2) <==> d1.year == d2.year && d1.month == d2.month
  {
    if GlobalWeekKey(d1) == GlobalWeekKey(d2) {
      ZeroPadFour(d1.year);
      ZeroPadFour(d2.year);
      ZeroPadTwo(d1.month);
      ZeroPadTwo(d2.month);
      var k1 := GlobalWeekKey(d1);
      var k2 := GlobalWeekKey(d2);
      assert k1[19..23] == ZeroPad(d1.year, 4) && k2[19..23] == ZeroPad(d2.year, 4);
      assert k1[25..] == ZeroPad(d1.month, 2) && k2[25..] == ZeroPad(d2.month, 2);
      ZeroPadInjective(d1.year, d2.year, 4);
      ZeroPadInjective(d1.month, d2.month, 2);
    }
  }

  /** A date and hour `time.Now()` can produce (years of four digits). */
  predicate ValidDate(d: Date) {
    d.year < 10000 && 1 <= d.month <= 12 && 1 <= d.day <= 31
  }

  predicate ValidInstant(t: Instant) {
    ValidDate(t.date) && t.hour < 24
  }

  /** Different dates get different stamps, all ten characters long. */
  lemma DateStampInjective(d1: Date, d2: Date)
    requires ValidDate(d1) && ValidDate(d2)
    ensures |DateStamp(d1)| == 10 && |DateStamp(d2)| == 10
    ensures DateStamp(d1) == DateStamp(d2) <==> d1 == d2
  {
    ZeroPadFour(d1.year);
    ZeroPadFour(d2.year);
    ZeroPadTwo(d1.month);
    ZeroPadTwo(d2.month);
    ZeroPadTwo(d1.day);
    ZeroPadTwo(d2.day);
    if DateStamp(d1) == DateStamp(d2) {
      var k1 := DateStamp(d1);
      var k2 := DateStamp(d2);
      assert k1[0..4] == ZeroPad(d1.year, 4) && k2[0..4] == ZeroPad(d2.year, 4);
      assert k1[5..7] == ZeroPad(d1.month, 2) && k2[5..7] == ZeroPad(d2.month, 2);
      assert k1[8..] == ZeroPad(d1.day, 2) && k2[8..] == ZeroPad(d2.day, 2);
      ZeroPadInjective(d1.year, d2.year, 4);
      ZeroPadInjective(d1.month, d2.month, 2);
      ZeroPadInjective(d1.day, d2.day, 2);
    }
  }

  /** One code's daily counters of two different dates are different keys. */
  lemma DailyKeysDistinct(code: string, d1: Date, d2: Date)
    requires ValidDate(d1) && ValidDate(d2) && d1 != d2
    ensures DailyKey(code, DateStamp(d1)) != DailyKey(code, DateStamp(d2))
  {
    DateStampInjective(d1, d2);
    var k1 := DailyKey(code, DateStamp(d1));
    var k2 := DailyKey(code, DateStamp(d2));
    assert k1[|k1| - 10..] == DateStamp(d1);
    assert k2[|k2| - 10..] == DateStamp(d2);
  }

  // ---------------------------------------------------------------- record

  datatype ClickRequest = ClickRequest(shortCode: string, ipAddress: string, userAgent: string, referer: string)

  /** The click as the service keeps it: the request's fields cut to their size limits. */
  datatype ClickData = ClickData(shortCode: string, ipAddress: string, userAgent: string, referer: string, timestamp: int)

  const MaxIPLength: nat := 45
  const MaxUserAgentLength: nat := 500
  const MaxRefererLength: nat := 500

  function ClickOf(req: ClickRequest, unix: int): (c: ClickData)
    ensures c.shortCode == req.shortCode && c.timestamp == unix
    ensures |c.ipAddress| <= MaxIPLength && HasPrefix(req.ipAddress, c.ipAddress)
    ensures |c.userAgent| <= MaxUserAgentLength && HasPrefix(req.userAgent, c.userAgent)
    ensures |c.referer| <= MaxRefererLength && HasPrefix(req.referer, c.referer)
    ensures |req.ipAddress| <= MaxIPLength ==> c.ipAddress == req.ipAddress
    ensures |req.userAgent| <= MaxUserAgentLength ==> c.userAgent == req.userAgent
    ensures |req.referer| <= MaxRefererLength ==> c.referer == req.referer
  {
    ClickData(req.shortCode, Truncate(req.ipAddress, MaxIPLength), Truncate(req.userAgent, MaxUserAgentLength),
              Truncate(req.referer, MaxRefererLength), unix)
  }

  /** The keys one click touches besides the all-time ranking. */
  datatype ClickKeys = ClickKeys(total: string, unique: string, daily: string, hourly: string,
                                 referers: string, week: string, month: string)

  function KeysFor(code: string, t: Instant): ClickKeys {
    ClickKeys(TotalKey(code), UniqueKey(code), DailyKey(code, DateStamp(t.date)), HourlyKey(code, HourStamp(t)),
              ReferersKey(code), GlobalWeekKey(t.date), GlobalMonthKey(t.date))
  }

  /** Each key carries its family's tag, so the eight keys of a click are pairwise distinct. */
  ghost predicate WellTagged(ks: ClickKeys) {
    && Tag(ks.total) == 't' && Tag(ks.unique) == 'u' && Tag(ks.daily) == 'd' && Tag(ks.hourly) == 'h'
    && Tag(ks.referers) == 'r' && Tag(ks.week) == 'g' && Tag(ks.month) == 'g'
    && GlobalTag(ks.week) == 'w' && GlobalTag(ks.month) == 'm'
    && Tag(GlobalKey) == 'g' && GlobalTag(GlobalKey) == 's'
  }

  lemma KeysWellTagged(code: string, t: Instant)
    ensures WellTagged(KeysFor(code, t))
  {
    Tags(code, DateStamp(t.date), HourStamp(t), t.date);
  }

  /** The referrer update, queued only for a non-empty (truncated) referrer. */
  function RankReferer(s: Store, ks: ClickKeys, referer: string): Store {
    if referer == "" then s else Expire(ZIncrBy(s, ks.referers, 1, referer), ks.referers, PerCodeTTL)
  }

  /** The pipeline of one click, in the order the source queues its commands: the counters,
      the rankings, then the expiries. A command that meets a key of the wrong type changes
      nothing and the rest still run. The set gets the request's IP as sent; the referrer is
      the truncated one. */
  function Pipeline(s: Store, ks: ClickKeys, code: string, ip: string, referer: string): Store {
    Expiries(Rank(Count(s, ks, ip), ks, code, referer), ks)
  }

  /** The per-code counters and the visitor set. */
  function Count(s: Store, ks: ClickKeys, ip: string): Store {
    var s1 := Incr(s, ks.total).0;
    var s2 := SAdd(s1, ks.unique, ip);
    var s3 := Incr(s2, ks.daily).0;
    Incr(s3, ks.hourly).0
  }

  /** The referrer ranking and the three global rankings. */
  function Rank(s: Store, ks: ClickKeys, code: string, referer: string): Store {
    var s1 := RankReferer(s, ks, referer);
    var s2 := ZIncrBy(s1, GlobalKey, 1, code);
    var s3 := ZIncrBy(s2, ks.week, 1, code);
    ZIncrBy(s3, ks.month, 1, code)
  }

  /** The expiries: 30 days on the per-code keys, 90 on the week ranking, 180 on the month
      ranking; the all-time ranking never expires. */
  function Expiries(s: Store, ks: ClickKeys): Store {
    var s1 := Expire(s, ks.total, PerCodeTTL);
    var s2 := Expire(s1, ks.unique, PerCodeTTL);
    var s3 := Expire(s2, ks.daily, PerCodeTTL);
    var s4 := Expire(s3, ks.hourly, PerCodeTTL);
    var s5 := Expire(s4, ks.week, WeekTTL);
    Expire(s5, ks.month, MonthTTL)
  }

  /** The service: the shared store and its own in-memory list of clicks per code. */
  datatype Service = Service(redis: Store, clicks: map<string, seq<ClickData>>)

  /** The clicks kept in memory for `code`, none before the first. */
  function Buffered(clicks: map<string, seq<ClickData>>, code: string): seq<ClickData> {
    if code in clicks then clicks[code] else []
  }

  /** The in-memory list after one more click: that click's code gets it appended, the other
      codes keep theirs. */
  function Remember(clicks: map<string, seq<ClickData>>, click: ClickData): (r: map<string, seq<ClickData>>)
    ensures r.Keys == clicks.Keys + {click.shortCode}
    ensures Buffered(r, click.shortCode) == Buffered(clicks, click.shortCode) + [click]
    ensures forall c :: c in clicks && c != click.shortCode ==> r[c] == clicks[c]
  {
    clicks[click.shortCode := Buffered(clicks, click.shortCode) + [click]]
  }

  /** `RecordClick`, at the calendar hour `t` and Unix time `unix`: the truncated click is
      remembered in memory, the pipeline is applied when it is delivered (an undelivered
      pipeline changes nothing), and the call reports success either way. */
  function RecordClick(svc: Service, req: ClickRequest, t: Instant, unix: int, delivered: bool): (res: (Service, bool))
    ensures res.1
    ensures res.0.clicks == Remember(svc.clicks, ClickOf(req, unix))
    ensures !delivered ==> res.0.redis == svc.redis
    ensures delivered ==>
      res.0.redis == Pipeline(svc.redis, KeysFor(req.shortCode, t), req.shortCode, req.ipAddress, ClickOf(req, unix).referer)
  {
    var click := ClickOf(req, unix);
    var redis := if delivered then Pipeline(svc.redis, KeysFor(req.shortCode, t), req.shortCode, req.ipAddress, click.referer)
                 else svc.redis;
    (Service(redis, Remember(svc.clicks, click)), true)
  }

  // ---------------------------------------------------------------- the pipeline key by key

  lemma RankRefererFrame(s: Store, ks: ClickKeys, referer: string, j: string)
    requires j != ks.referers
    ensures Agree(RankReferer(s, ks, referer), s, j)
  {
    if referer != "" {
      ZIncrByFrame(s, ks.referers, 1, referer, j);
      ExpireFrame(ZIncrBy(s, ks.referers, 1, referer), ks.referers, PerCodeTTL, j);
    }
  }

  lemma RankRefererLocal(s: Store, t: Store, ks: ClickKeys, referer: string)
    requires Agree(s, t, ks.referers)
    ensures Agree(RankReferer(s, ks, referer), RankReferer(t, ks, referer), ks.referers)
  {
    if referer != "" {
      ZIncrByLocal(s, t, ks.referers, 1, referer);
      ExpireLocal(ZIncrBy(s, ks.referers, 1, referer), ZIncrBy(t, ks.referers, 1, referer), ks.referers, PerCodeTTL);
    }
  }

  lemma CountFrame(s: Store, ks: ClickKeys, ip: string, j: string)
    requires j != ks.total && j != ks.unique && j != ks.daily && j != ks.hourly
    ensures Agree(Count(s, ks, ip), s, j)
  {
    var s1 := Incr(s, ks.total).0;
    var s2 := SAdd(s1, ks.unique, ip);
    var s3 := Incr(s2, ks.daily).0;
    IncrFrame(s, ks.total, j);
    SAddFrame(s1, ks.unique, ip, j);
    IncrFrame(s2, ks.daily, j);
    IncrFrame(s3, ks.hourly, j);
  }

  lemma RankFrame(s: Store, ks: ClickKeys, code: string, referer: string, j: string)
    requires j != ks.referers && j != GlobalKey && j != ks.week && j != ks.month
    ensures Agree(Rank(s, ks, code, referer), s, j)
  {
    var s1 := RankReferer(s, ks, referer);
    var s2 := ZIncrBy(s1, GlobalKey, 1, code);
    var s3 := ZIncrBy(s2, ks.week, 1, code);
    RankRefererFrame(s, ks, referer, j);
    ZIncrByFrame(s1, GlobalKey, 1, code, j);
    ZIncrByFrame(s2, ks.week, 1, code, j);
    ZIncrByFrame(s3, ks.month, 1, code, j);
  }

  lemma ExpiriesFrame(s: Store, ks: ClickKeys, j: string)
    requires j != ks.total && j != ks.unique && j != ks.daily && j != ks.hourly && j != ks.week && j != ks.month
    ensures Agree(Expiries(s, ks), s, j)
  {
    var s1 := Expire(s, ks.total, PerCodeTTL);
    var s2 := Expire(s1, ks.unique, PerCodeTTL);
    var s3 := Expire(s2, ks.daily, PerCodeTTL);
    var s4 := Expire(s3, ks.hourly, PerCodeTTL);
    var s5 := Expire(s4, ks.week, WeekTTL);
    ExpireFrame(s, ks.total, PerCodeTTL, j);
    ExpireFrame(s1, ks.unique, PerCodeTTL, j);
    ExpireFrame(s2, ks.daily, PerCodeTTL, j);
    ExpireFrame(s3, ks.hourly, PerCodeTTL, j);
    ExpireFrame(s4, ks.week, WeekTTL, j);
    ExpireFrame(s5, ks.month, MonthTTL, j);
  }

  lemma CountOnTotal(s: Store, ks: ClickKeys, ip: string)
    requires WellTagged(ks)
    ensures Agree(Count(s, ks, ip), Incr(s, ks.total).0, ks.total)
  {
    var s1 := Incr(s, ks.total).0;
    var s2 := SAdd(s1, ks.unique, ip);
    var s3 := Incr(s2, ks.daily).0;
    SAddFrame(s1, ks.unique, ip, ks.total);
    IncrFrame(s2, ks.daily, ks.total);
    IncrFrame(s3, ks.hourly, ks.total);
  }

  lemma CountOnUnique(s: Store, ks: ClickKeys, ip: string)
    requires WellTagged(ks)
    ensures Agree(Count(s, ks, ip), SAdd(s, ks.unique, ip), ks.unique)
  {
    var s1 := Incr(s, ks.total).0;
    var s2 := SAdd(s1, ks.unique, ip);
    var s3 := Incr(s2, ks.daily).0;
    IncrFrame(s, ks.total, ks.unique);
    SAddLocal(s1, s, ks.unique, ip);
    IncrFrame(s2, ks.daily, ks.unique);
    IncrFrame(s3, ks.hourly, ks.unique);
  }

  lemma CountOnDaily(s: Store, ks: ClickKeys, ip: string)
    requires WellTagged(ks)
    ensures Agree(Count(s, ks, ip), Incr(s, ks.daily).0, ks.daily)
  {
    var s1 := Incr(s, ks.total).0;
    var s2 := SAdd(s1, ks.unique, ip);
    var s3 := Incr(s2, ks.daily).0;
    IncrFrame(s, ks.total, ks.daily);
    SAddFrame(s1, ks.unique, ip, ks.daily);
    IncrLocal(s2, s, ks.daily);
    IncrFrame(s3, ks.hourly, ks.daily);
  }

  lemma CountOnHourly(s: Store, ks: ClickKeys, ip: string)
    requires WellTagged(ks)
    ensures Agree(Count(s, ks, ip), Incr(s, ks.hourly).0, ks.hourly)
  {
    var s1 := Incr(s, ks.total).0;
    var s2 := SAdd(s1, ks.unique, ip);
    var s3 := Incr(s2, ks.daily).0;
    IncrFrame(s, ks.total, ks.hourly);
    SAddFrame(s1, ks.unique, ip, ks.hourly);
    IncrFrame(s2, ks.daily, ks.hourly);
    IncrLocal(s3, s, ks.hourly);
  }

  lemma RankOnReferers(s: Store, ks: ClickKeys, code: string, referer: string)
    requires WellTagged(ks)
    ensures Agree(Rank(s, ks, code, referer), RankReferer(s, ks, referer), ks.referers)
  {
    var s1 := RankReferer(s, ks, referer);
    var s2 := ZIncrBy(s1, GlobalKey, 1, code);
    var s3 := ZIncrBy(s2, ks.week, 1, code);
    ZIncrByFrame(s1, GlobalKey, 1, code, ks.referers);
    ZIncrByFrame(s2, ks.week, 1, code, ks.referers);
    ZIncrByFrame(s3, ks.month, 1, code, ks.referers);
  }

  lemma RankOnGlobal(s: Store, ks: ClickKeys, code: string, referer: string)
    requires WellTagged(ks)
    ensures Agree(Rank(s, ks, code, referer), ZIncrBy(s, GlobalKey, 1, code), GlobalKey)
  {
    var s1 := RankReferer(s, ks, referer);
    var s2 := ZIncrBy(s1, GlobalKey, 1, code);
    var s3 := ZIncrBy(s2, ks.week, 1, code);
    RankRefererFrame(s, ks, referer, GlobalKey);
    ZIncrByLocal(s1, s, GlobalKey, 1, code);
    ZIncrByFrame(s2, ks.week, 1, code, GlobalKey);
    ZIncrByFrame(s3, ks.month, 1, code, GlobalKey);
  }

  lemma RankOnWeek(s: Store, ks: ClickKeys, code: string, referer: string)
    requires WellTagged(ks)
    ensures Agree(Rank(s, ks, code, referer), ZIncrBy(s, ks.week, 1, code), ks.week)
  {
    var s1 := RankReferer(s, ks, referer);
    var s2 := ZIncrBy(s1, GlobalKey, 1, code);
    var s3 := ZIncrBy(s2, ks.week, 1, code);
    RankRefererFrame(s, ks, referer, ks.week);
    ZIncrByFrame(s1, GlobalKey, 1, code, ks.week);
    ZIncrByLocal(s2, s, ks.week, 1, code);
    ZIncrByFrame(s3, ks.month, 1, code, ks.week);
  }

  lemma RankOnMonth(s: Store, ks: ClickKeys, code: string, referer: string)
    requires WellTagged(ks)
    ensures Agree(Rank(s, ks, code, referer), ZIncrBy(s, ks.month, 1, code), ks.month)
  {
    var s1 := RankReferer(s, ks, referer);
    var s2 := ZIncrBy(s1, GlobalKey, 1, code);
    var s3 := ZIncrBy(s2, ks.week, 1, code);
    RankRefererFrame(s, ks, referer, ks.month);
    ZIncrByFrame(s1, GlobalKey, 1, code, ks.month);
    ZIncrByFrame(s2, ks.week, 1, code, ks.month);
    ZIncrByLocal(s3, s, ks.month, 1, code);
  }

  lemma ExpiriesOnTotal(s: Store, ks: ClickKeys)
    requires WellTagged(ks)
    ensures Agree(Expiries(s, ks), Expire(s, ks.total, PerCodeTTL), ks.total)
  {
    var s1 := Expire(s, ks.total, PerCodeTTL);
    var s2 := Expire(s1, ks.unique, PerCodeTTL);
    var s3 := Expire(s2, ks.daily, PerCodeTTL);
    var s4 := Expire(s3, ks.hourly, PerCodeTTL);
    var s5 := Expire(s4, ks.week, WeekTTL);
    ExpireFrame(s1, ks.unique, PerCodeTTL, ks.total);
    ExpireFrame(s2, ks.daily, PerCodeTTL, ks.total);
    ExpireFrame(s3, ks.hourly, PerCodeTTL, ks.total);
    ExpireFrame(s4, ks.week, WeekTTL, ks.total);
    ExpireFrame(s5, ks.month, MonthTTL, ks.total);
  }

  lemma ExpiriesOnUnique(s: Store, ks: ClickKeys)
    requires WellTagged(ks)
    ensures Agree(Expiries(s, ks), Expire(s, ks.unique, PerCodeTTL), ks.unique)
  {
    var s1 := Expire(s, ks.total, PerCodeTTL);
    var s2 := Expire(s1, ks.unique, PerCodeTTL);
    var s3 := Expire(s2, ks.daily, PerCodeTTL);
    var s4 := Expire(s3, ks.hourly, PerCodeTTL);
    var s5 := Expire(s4, ks.week, WeekTTL);
    ExpireFrame(s, ks.total, PerCodeTTL, ks.unique);
    ExpireLocal(s1, s, ks.unique, PerCodeTTL);
    ExpireFrame(s2, ks.daily, PerCodeTTL, ks.unique);
    ExpireFrame(s3, ks.hourly, PerCodeTTL, ks.unique);
    ExpireFrame(s4, ks.week, WeekTTL, ks.unique);
    ExpireFrame(s5, ks.month, MonthTTL, ks.unique);
  }

  lemma ExpiriesOnDaily(s: Store, ks: ClickKeys)
    requires WellTagged(ks)
    ensures Agree(Expiries(s, ks), Expire(s, ks.daily, PerCodeTTL), ks.daily)
  {
    var s1 := Expire(s, ks.total, PerCodeTTL);
    var s2 := Expire(s1, ks.unique, PerCodeTTL);
    var s3 := Expire(s2, ks.daily, PerCodeTTL);
    var s4 := Expire(s3, ks.hourly, PerCodeTTL);
    var s5 := Expire(s4, ks.week, WeekTTL);
    ExpireFrame(s, ks.total, PerCodeTTL, ks.daily);
    ExpireFrame(s1, ks.unique, PerCodeTTL, ks.daily);
    ExpireLocal(s2, s, ks.daily, PerCodeTTL);
    ExpireFrame(s3, ks.hourly, PerCodeTTL, ks.daily);
    ExpireFrame(s4, ks.week, WeekTTL, ks.daily);
    ExpireFrame(s5, ks.month, MonthTTL, ks.daily);
  }

  lemma ExpiriesOnHourly(s: Store, ks: ClickKeys)
    requires WellTagged(ks)
    ensures Agree(Expiries(s, ks), Expire(s, ks.hourly, PerCodeTTL), ks.hourly)
  {
    var s1 := Expire(s, ks.total, PerCodeTTL);
    var s2 := Expire(s1, ks.unique, PerCodeTTL);
    var s3 := Expire(s2, ks.daily, PerCodeTTL);
    var s4 := Expire(s3, ks.hourly, PerCodeTTL);
    var s5 := Expire(s4, ks.week, WeekTTL);
    ExpireFrame(s, ks.total, PerCodeTTL, ks.hourly);
    ExpireFrame(s1, ks.unique, PerCodeTTL, ks.hourly);
    ExpireFrame(s2, ks.daily, PerCodeTTL, ks.hourly);
    ExpireLocal(s3, s, ks.hourly, PerCodeTTL);
    ExpireFrame(s4, ks.week, WeekTTL, ks.hourly);
    ExpireFrame(s5, ks.month, MonthTTL, ks.hourly);
  }

  lemma ExpiriesOnWeek(s: Store, ks: ClickKeys)
    requires WellTagged(ks)
    ensures Agree(Expiries(s, ks), Expire(s, ks.week, WeekTTL), ks.week)
  {
    var s1 := Expire(s, ks.total, PerCodeTTL);
    var s2 := Expire(s1, ks.unique, PerCodeTTL);
    var s3 := Expire(s2, ks.daily, PerCodeTTL);
    var s4 := Expire(s3, ks.hourly, PerCodeTTL);
    var s5 := Expire(s4, ks.week, WeekTTL);
    ExpireFrame(s, ks.total, PerCodeTTL, ks.week);
    ExpireFrame(s1, ks.unique, PerCodeTTL, ks.week);
    ExpireFrame(s2, ks.daily, PerCodeTTL, ks.week);
    ExpireFrame(s3, ks.hourly, PerCodeTTL, ks.week);
    ExpireLocal(s4, s, ks.week, WeekTTL);
    ExpireFrame(s5, ks.month, MonthTTL, ks.week);
  }

  lemma ExpiriesOnMonth(s: Store, ks: ClickKeys)
    requires WellTagged(ks)
    ensures Agree(Expiries(s, ks), Expire(s, ks.month, MonthTTL), ks.month)
  {
    var s1 := Expire(s, ks.total, PerCodeTTL);
    var s2 := Expire(s1, ks.unique, PerCodeTTL);
    var s3 := Expire(s2, ks.daily, PerCodeTTL);
    var s4 := Expire(s3, ks.hourly, PerCodeTTL);
    var s5 := Expire(s4, ks.week, WeekTTL);
    ExpireFrame(s, ks.total, PerCodeTTL, ks.month);
    ExpireFrame(s1, ks.unique, PerCodeTTL, ks.month);
    ExpireFrame(s2, ks.daily, PerCodeTTL, ks.month);
    ExpireFrame(s3, ks.hourly, PerCodeTTL, ks.month);
    ExpireFrame(s4, ks.week, WeekTTL, ks.month);
    ExpireLocal(s5, s, ks.month, MonthTTL);
  }

  /** The pipeline leaves every key it does not address as it was. */
  lemma PipelineFrame(s: Store, ks: ClickKeys, code: string, ip: string, referer: string, j: string)
    requires j != ks.total && j != ks.unique && j != ks.daily && j != ks.hourly
    requires j != ks.referers && j != GlobalKey && j != ks.week && j != ks.month
    ensures Agree(Pipeline(s, ks, code, ip, referer), s, j)
  {
    var c := Count(s, ks, ip);
    CountFrame(s, ks, ip, j);
    RankFrame(c, ks, code, referer, j);
    ExpiriesFrame(Rank(c, ks, code, referer), ks, j);
  }

  /** The total sees its increment and then its 30-day expiry. */
  lemma PipelineOnTotal(s: Store, ks: ClickKeys, code: string, ip: string, referer: string)
    requires WellTagged(ks)
    ensures Agree(Pipeline(s, ks, code, ip, referer), Expire(Incr(s, ks.total).0, ks.total, PerCodeTTL), ks.total)
  {
    var c := Count(s, ks, ip);
    var r := Rank(c, ks, code, referer);
    CountOnTotal(s, ks, ip);
    RankFrame(c, ks, code, referer, ks.total);
    ExpiriesOnTotal(r, ks);
    ExpireLocal(r, Incr(s, ks.total).0, ks.total, PerCodeTTL);
  }

  /** The visitor set gets the IP and then its 30-day expiry. */
  lemma PipelineOnUnique(s: Store, ks: ClickKeys, code: string, ip: string, referer: string)
    requires WellTagged(ks)
    ensures Agree(Pipeline(s, ks, code, ip, referer), Expire(SAdd(s, ks.unique, ip), ks.unique, PerCodeTTL), ks.unique)
  {
    var c := Count(s, ks, ip);
    var r := Rank(c, ks, code, referer);
    CountOnUnique(s, ks, ip);
    RankFrame(c, ks, code, referer, ks.unique);
    ExpiriesOnUnique(r, ks);
    ExpireLocal(r, SAdd(s, ks.unique, ip), ks.unique, PerCodeTTL);
  }

  /** The day's counter sees its increment and then its 30-day expiry. */
  lemma PipelineOnDaily(s: Store, ks: ClickKeys, code: string, ip: string, referer: string)
    requires WellTagged(ks)
    ensures Agree(Pipeline(s, ks, code, ip, referer), Expire(Incr(s, ks.daily).0, ks.daily, PerCodeTTL), ks.daily)
  {
    var c := Count(s, ks, ip);
    var r := Rank(c, ks, code, referer);
    CountOnDaily(s, ks, ip);
    RankFrame(c, ks, code, referer, ks.daily);
    ExpiriesOnDaily(r, ks);
    ExpireLocal(r, Incr(s, ks.daily).0, ks.daily, PerCodeTTL);
  }

  /** The hour's counter sees its increment and then its 30-day expiry. */
  lemma PipelineOnHourly(s: Store, ks: ClickKeys, code: string, ip: string, referer: string)
    requires WellTagged(ks)
    ensures Agree(Pipeline(s, ks, code, ip, referer), Expire(Incr(s, ks.hourly).0, ks.hourly, PerCodeTTL), ks.hourly)
  {
    var c := Count(s, ks, ip);
    var r := Rank(c, ks, code, referer);
    CountOnHourly(s, ks, ip);
    RankFrame(c, ks, code, referer, ks.hourly);
    ExpiriesOnHourly(r, ks);
    ExpireLocal(r, Incr(s, ks.hourly).0, ks.hourly, PerCodeTTL);
  }

  /** The referrer ranking sees only the referrer update. */
  lemma PipelineOnReferers(s: Store, ks: ClickKeys, code: string, ip: string, referer: string)
    requires WellTagged(ks)
    ensures Agree(Pipeline(s, ks, code, ip, referer), RankReferer(s, ks, referer), ks.referers)
  {
    var c := Count(s, ks, ip);
    var r := Rank(c, ks, code, referer);
    CountFrame(s, ks, ip, ks.referers);
    RankOnReferers(c, ks, code, referer);
    RankRefererLocal(c, s, ks, referer);
    ExpiriesFrame(r, ks, ks.referers);
  }

  /** The all-time ranking sees its increment and no expiry. */
  lemma PipelineOnGlobal(s: Store, ks: ClickKeys, code: string, ip: string, referer: string)
    requires WellTagged(ks)
    ensures Agree(Pipeline(s, ks, code, ip, referer), ZIncrBy(s, GlobalKey, 1, code), GlobalKey)
  {
    var c := Count(s, ks, ip);
    var r := Rank(c, ks, code, referer);
    CountFrame(s, ks, ip, GlobalKey);
    RankOnGlobal(c, ks, code, referer);
    ZIncrByLocal(c, s, GlobalKey, 1, code);
    ExpiriesFrame(r, ks, GlobalKey);
  }

  /** The week ranking sees its increment and then its 90-day expiry. */
  lemma PipelineOnWeek(s: Store, ks: ClickKeys, code: string, ip: string, referer: string)
    requires WellTagged(ks)
    ensures Agree(Pipeline(s, ks, code, ip, referer), Expire(ZIncrBy(s, ks.week, 1, code), ks.week, WeekTTL), ks.week)
  {
    var c := Count(s, ks, ip);
    var r := Rank(c, ks, code, referer);
    CountFrame(s, ks, ip, ks.week);
    RankOnWeek(c, ks, code, referer);
    ZIncrByLocal(c, s, ks.week, 1, code);
    ExpiriesOnWeek(r, ks);
    ExpireLocal(r, ZIncrBy(s, ks.week, 1, code), ks.week, WeekTTL);
  }

  /** The month ranking sees its increment and then its 180-day expiry. */
  lemma PipelineOnMonth(s: Store, ks: ClickKeys, code: string, ip: string, referer: string)
    requires WellTagged(ks)
    ensures Agree(Pipeline(s, ks, code, ip, referer), Expire(ZIncrBy(s, ks.month, 1, code), ks.month, MonthTTL), ks.month)
  {
    var c := Count(s, ks, ip);
    var r := Rank(c, ks, code, referer);
    CountFrame(s, ks, ip, ks.month);
    RankOnMonth(c, ks, code, referer);
    ZIncrByLocal(c, s, ks.month, 1, code);
    ExpiriesOnMonth(r, ks);
    ExpireLocal(r, ZIncrBy(s, ks.month, 1, code), ks.month, MonthTTL);
  }

  // ---------------------------------------------------------------- one click, as the readers see it

  /** A delivered click adds one to the code's total, which lives 30 days from this click. */
  lemma ClickCountsTotal(svc: Service, req: ClickRequest, t: Instant, unix: int)
    requires Counts(svc.redis, TotalKey(req.shortCode))
    ensures var r := RecordClick(svc, req, t, unix, true).0.redis;
      && Counts(r, TotalKey(req.shortCode))
      && IntOrZero(r, TotalKey(req.shortCode)) == IntOrZero(svc.redis, TotalKey(req.shortCode)) + 1
      && TotalKey(req.shortCode) in r.ttl && r.ttl[TotalKey(req.shortCode)] == PerCodeTTL
  {
    var s, code := svc.redis, req.shortCode;
    var ks := KeysFor(code, t);
    KeysWellTagged(code, t);
    PipelineOnTotal(s, ks, code, req.ipAddress, ClickOf(req, unix).referer);
    IncrThenExpire(s, ks.total, PerCodeTTL);
    AgreeReads(RecordClick(svc, req, t, unix, true).0.redis, Expire(Incr(s, ks.total).0, ks.total, PerCodeTTL), ks.total);
  }

  /** A delivered click adds one to the counter of its own day. */
  lemma ClickCountsDay(svc: Service, req: ClickRequest, t: Instant, unix: int)
    requires Counts(svc.redis, DailyKey(req.shortCode, DateStamp(t.date)))
    ensures var r := RecordClick(svc, req, t, unix, true).0.redis;
      var k := DailyKey(req.shortCode, DateStamp(t.date));
      && Counts(r, k) && IntOrZero(r, k) == IntOrZero(svc.redis, k) + 1
      && k in r.ttl && r.ttl[k] == PerCodeTTL
  {
    var s, code := svc.redis, req.shortCode;
    var ks := KeysFor(code, t);
    KeysWellTagged(code, t);
    PipelineOnDaily(s, ks, code, req.ipAddress, ClickOf(req, unix).referer);
    IncrThenExpire(s, ks.daily, PerCodeTTL);
    AgreeReads(RecordClick(svc, req, t, unix, true).0.redis, Expire(Incr(s, ks.daily).0, ks.daily, PerCodeTTL), ks.daily);
  }

  /** A delivered click leaves the counters of every other day alone. */
  lemma ClickSparesOtherDays(svc: Service, req: ClickRequest, t: Instant, unix: int, d: Date)
    requires ValidDate(t.date) && ValidDate(d) && d != t.date
    ensures Agree(RecordClick(svc, req, t, unix, true).0.redis, svc.redis, DailyKey(req.shortCode, DateStamp(d)))
  {
    var code := req.shortCode;
    var ks := KeysFor(code, t);
    var k := DailyKey(code, DateStamp(d));
    KeysWellTagged(code, t);
    Tags(code, DateStamp(d), "", t.date);
    DailyKeysDistinct(code, d, t.date);
    PipelineFrame(svc.redis, ks, code, req.ipAddress, ClickOf(req, unix).referer, k);
  }

  /** A delivered click adds one to the counter of its own hour. */
  lemma ClickCountsHour(svc: Service, req: ClickRequest, t: Instant, unix: int)
    requires Counts(svc.redis, HourlyKey(req.shortCode, HourStamp(t)))
    ensures var r := RecordClick(svc, req, t, unix, true).0.redis;
      var k := HourlyKey(req.shortCode, HourStamp(t));
      && Counts(r, k) && IntOrZero(r, k) == IntOrZero(svc.redis, k) + 1
      && k in r.ttl && r.ttl[k] == PerCodeTTL
  {
    var s, code := svc.redis, req.shortCode;
    var ks := KeysFor(code, t);
    KeysWellTagged(code, t);
    PipelineOnHourly(s, ks, code, req.ipAddress, ClickOf(req, unix).referer);
    IncrThenExpire(s, ks.hourly, PerCodeTTL);
    AgreeReads(RecordClick(svc, req, t, unix, true).0.redis, Expire(Incr(s, ks.hourly).0, ks.hourly, PerCodeTTL), ks.hourly);
  }

  /** A delivered click leaves the counters of the other hours of its day alone. */
  lemma ClickSparesOtherHours(svc: Service, req: ClickRequest, t: Instant, unix: int, hour: nat)
    requires ValidInstant(t) && hour < 24 && hour != t.hour
    ensures Agree(RecordClick(svc, req, t, unix, true).0.redis, svc.redis,
                  HourlyKey(req.shortCode, DateStamp(t.date) + HourSuffix(hour)))
  {
    var code := req.shortCode;
    var ks := KeysFor(code, t);
    var k := HourlyKey(code, DateStamp(t.date) + HourSuffix(hour));
    KeysWellTagged(code, t);
    Tags(code, "", DateStamp(t.date) + HourSuffix(hour), t.date);
    HourlyKeysDistinct(code, DateStamp(t.date), hour, t.hour);
    PipelineFrame(svc.redis, ks, code, req.ipAddress, ClickOf(req, unix).referer, k);
  }

  /** A delivered click adds the request's IP, as sent, to the code's visitor set. */
  lemma ClickAddsVisitor(svc: Service, req: ClickRequest, t: Instant, unix: int)
    requires var k := UniqueKey(req.shortCode); k !in svc.redis.data || svc.redis.data[k].Members?
    ensures var r := RecordClick(svc, req, t, unix, true).0.redis;
      var k := UniqueKey(req.shortCode);
      && VisitorsAt(r, k) == VisitorsAt(svc.redis, k) + {req.ipAddress}
      && SCard(r, k) == Ok(|VisitorsAt(svc.redis, k) + {req.ipAddress}|)
      && k in r.ttl && r.ttl[k] == PerCodeTTL
  {
    var s, code := svc.redis, req.shortCode;
    var ks := KeysFor(code, t);
    KeysWellTagged(code, t);
    PipelineOnUnique(s, ks, code, req.ipAddress, ClickOf(req, unix).referer);
    SAddThenExpire(s, ks.unique, req.ipAddress, PerCodeTTL);
    AgreeReads(RecordClick(svc, req, t, unix, true).0.redis, Expire(SAdd(s, ks.unique, req.ipAddress), ks.unique, PerCodeTTL), ks.unique);
  }

  /** A delivered click with a referrer scores it once more in the code's referrer ranking,
      which then lives 30 days; a click without one leaves the ranking and its lifetime alone. */
  lemma ClickRanksReferer(svc: Service, req: ClickRequest, t: Instant, unix: int)
    requires var k := ReferersKey(req.shortCode); k !in svc.redis.data || svc.redis.data[k].Ranking?
    ensures var r := RecordClick(svc, req, t, unix, true).0.redis;
      var k := ReferersKey(req.shortCode);
      ClickOf(req, unix).referer == "" ==> Agree(r, svc.redis, k)
    ensures var r := RecordClick(svc, req, t, unix, true).0.redis;
      var k := ReferersKey(req.shortCode);
      var referer := ClickOf(req, unix).referer;
      referer != "" ==>
        && RankingAt(r, k) == Bump(RankingAt(svc.redis, k), referer, 1)
        && k in r.ttl && r.ttl[k] == PerCodeTTL
  {
    KeysWellTagged(req.shortCode, t);
    PipelineOnReferers(svc.redis, KeysFor(req.shortCode, t), req.shortCode, req.ipAddress, ClickOf(req, unix).referer);
    if ClickOf(req, unix).referer != "" {
      ZIncrByThenExpire(RecordClick(svc, req, t, unix, true).0.redis, svc.redis, ReferersKey(req.shortCode), 1,
                        ClickOf(req, unix).referer, PerCodeTTL);
    }
  }

  /** A delivered click scores its code once more in the all-time ranking, which keeps its
      lifetime (none, normally). */
  lemma ClickRanksAllTime(svc: Service, req: ClickRequest, t: Instant, unix: int)
    requires GlobalKey !in svc.redis.data || svc.redis.data[GlobalKey].Ranking?
    ensures var r := RecordClick(svc, req, t, unix, true).0.redis;
      RankingAt(r, GlobalKey) == Bump(RankingAt(svc.redis, GlobalKey), req.shortCode, 1)
    ensures var r := RecordClick(svc, req, t, unix, true).0.redis;
      (GlobalKey in r.ttl <==> GlobalKey in svc.redis.ttl)
  {
    KeysWellTagged(req.shortCode, t);
    PipelineOnGlobal(svc.redis, KeysFor(req.shortCode, t), req.shortCode, req.ipAddress, ClickOf(req, unix).referer);
    ZIncrByRanking(svc.redis, GlobalKey, 1, req.shortCode);
    AgreeReads(RecordClick(svc, req, t, unix, true).0.redis, ZIncrBy(svc.redis, GlobalKey, 1, req.shortCode), GlobalKey);
  }

  /** A delivered click scores its code once more in the ranking of its "week", which then
      lives 90 days. */
  lemma ClickRanksWeek(svc: Service, req: ClickRequest, t: Instant, unix: int)
    requires var k := GlobalWeekKey(t.date); k !in svc.redis.data || svc.redis.data[k].Ranking?
    ensures var r := RecordClick(svc, req, t, unix, true).0.redis;
      var k := GlobalWeekKey(t.date);
      && RankingAt(r, k) == Bump(RankingAt(svc.redis, k), req.shortCode, 1)
      && k in r.ttl && r.ttl[k] == WeekTTL
  {
    KeysWellTagged(req.shortCode, t);
    PipelineOnWeek(svc.redis, KeysFor(req.shortCode, t), req.shortCode, req.ipAddress, ClickOf(req, unix).referer);
    ZIncrByThenExpire(RecordClick(svc, req, t, unix, true).0.redis, svc.redis, GlobalWeekKey(t.date), 1, req.shortCode, WeekTTL);
  }

  /** A delivered click scores its code once more in the ranking of its month, which then
      lives 180 days. */
  lemma ClickRanksMonth(svc: Service, req: ClickRequest, t: Instant, unix: int)
    requires var k := GlobalMonthKey(t.date); k !in svc.redis.data || svc.redis.data[k].Ranking?
    ensures var r := RecordClick(svc, req, t, unix, true).0.redis;
      var k := GlobalMonthKey(t.date);
      && RankingAt(r, k) == Bump(RankingAt(svc.redis, k), req.shortCode, 1)
      && k in r.ttl && r.ttl[k] == MonthTTL
  {
    KeysWellTagged(req.shortCode, t);
    PipelineOnMonth(svc.redis, KeysFor(req.shortCode, t), req.shortCode, req.ipAddress, ClickOf(req, unix).referer);
    ZIncrByThenExpire(RecordClick(svc, req, t, unix, true).0.redis, svc.redis, GlobalMonthKey(t.date), 1, req.shortCode, MonthTTL);
  }

  // ---------------------------------------------------------------- reading

  datatype DailyClick = DailyClick(date: string, count: int)
  datatype ClickStats = ClickStats(totalClicks: int, uniqueClicks: nat, dailyClicks: seq<DailyClick>)
  datatype HourlyClick = HourlyClick(hour: nat, count: int)

  /** How many days back `GetClickStats` reports, today included. */
  const StatsDays: nat := 7

  /** An integer read of `k`, where `up(k)` says whether its round trip reaches Redis: a
      read that fails for any reason (connection, missing key, wrong type, not a number)
      counts as 0. */
  function ReadInt(s: Store, up: string -> bool, k: string): (n: int)
    ensures up(k) ==> n == IntOrZero(s, k)
    ensures !up(k) ==> n == 0
  {
    if up(k) then IntOrZero(s, k) else 0
  }

  /** `GetClickStats`; `daysAgo(i)` is the calendar date `i` days before the call and `up(k)`
      whether the read of key `k` reaches Redis. Every read that fails, including a missing
      key, counts as 0. */
  function GetClickStats(s: Store, up: string -> bool, code: string, daysAgo: nat -> Date): (st: ClickStats)
    ensures up(TotalKey(code)) ==> st.totalClicks == IntOrZero(s, TotalKey(code))
    ensures !up(TotalKey(code)) ==> st.totalClicks == 0
    ensures UniqueKey(code) !in s.data ==> st.uniqueClicks == 0
    ensures up(UniqueKey(code)) && (UniqueKey(code) !in s.data || s.data[UniqueKey(code)].Members?) ==>
              st.uniqueClicks == |VisitorsAt(s, UniqueKey(code))|
    ensures UniqueKey(code) in s.data && !s.data[UniqueKey(code)].Members? ==> st.uniqueClicks == 0
    ensures !up(UniqueKey(code)) ==> st.uniqueClicks == 0
    ensures |st.dailyClicks| == StatsDays
    ensures forall i :: 0 <= i < StatsDays ==>
              && st.dailyClicks[i].date == DateStamp(daysAgo(i))
              && st.dailyClicks[i].count == ReadInt(s, up, DailyKey(code, DateStamp(daysAgo(i))))
  {
    var daily := seq(StatsDays, i requires 0 <= i => DailyClick(DateStamp(daysAgo(i)), ReadInt(s, up, DailyKey(code, DateStamp(daysAgo(i))))));
    var unique := if up(UniqueKey(code)) then SCard(s, UniqueKey(code)).GetOr(0) else 0;
    ClickStats(ReadInt(s, up, TotalKey(code)), unique, daily)
  }

  /** The date `GetHourlyDistribution` reports on: the one asked for, today when none is. */
  function ReportDate(date: string, today: Date): (d: string)
    ensures date != "" ==> d == date
    ensures date == "" ==> d == DateStamp(today)
  {
    if date == "" then DateStamp(today) else date
  }

  /** `GetHourlyDistribution`: the 24 hourly counters of one date, a failed read counting 0. */
  function GetHourlyDistribution(s: Store, up: string -> bool, code: string, date: string, today: Date): (hours: seq<HourlyClick>)
    ensures |hours| == 24
    ensures forall h :: 0 <= h < 24 ==>
              && hours[h].hour == h
              && hours[h].count == ReadInt(s, up, HourlyKey(code, ReportDate(date, today) + HourSuffix(h)))
  {
    seq(24, h requires 0 <= h => HourlyClick(h, ReadInt(s, up, HourlyKey(code, ReportDate(date, today) + HourSuffix(h)))))
  }

  /** The `limit` of the ranking calls: kept when it is between 1 and 100, 100 otherwise. */
  function ClampLimit(limit: int): (n: nat)
    ensures 1 <= n <= 100
    ensures n == limit <==> 1 <= limit <= 100
    ensures !(1 <= limit <= 100) ==> n == 100
  {
    if limit <= 0 || limit > 100 then 100 else limit
  }

  /** The ranking a `period` names; anything but "week" and "month" means all time. */
  function PeriodKey(period: string, d: Date): (k: string)
    ensures period == "week" ==> k == GlobalWeekKey(d)
    ensures period == "month" ==> k == GlobalMonthKey(d)
    ensures period != "week" && period != "month" ==> k == GlobalKey
  {
    if period == "week" then GlobalWeekKey(d)
    else if period == "month" then GlobalMonthKey(d)
    else GlobalKey
  }

  /** `GetTopURLs`: the `ClampLimit(limit)` best codes of the period's ranking, with their
      click counts; an empty list when the ranking cannot be read, because the read does not
      reach Redis (`up` is false for its key) or the key holds another type. */
  method GetTopURLs(s: Store, up: string -> bool, period: string, limit: int, now: Date) returns (urls: seq<(string, int)>)
    ensures var k := PeriodKey(period, now);
      !up(k) || (k in s.data && !s.data[k].Ranking?) ==> urls == []
    ensures var k := PeriodKey(period, now);
      up(k) && (k !in s.data || s.data[k].Ranking?) ==> IsTop(RankingAt(s, k), ClampLimit(limit), urls)
  {
    var k := PeriodKey(period, now);
    if !up(k) {
      return [];
    }
    var r := ZRevRangeWithScores(s, k, ClampLimit(limit));
    urls := if r.Ok? then r.value else [];
  }

  /** `GetTopReferers`: the `ClampLimit(limit)` most frequent referrers of a code; an empty
      list when the ranking cannot be read, for either reason. */
  method GetTopReferers(s: Store, up: string -> bool, code: string, limit: int) returns (referers: seq<(string, int)>)
    ensures var k := ReferersKey(code);
      !up(k) || (k in s.data && !s.data[k].Ranking?) ==> referers == []
    ensures var k := ReferersKey(code);
      up(k) && (k !in s.data || s.data[k].Ranking?) ==> IsTop(RankingAt(s, k), ClampLimit(limit), referers)
  {
    var k := ReferersKey(code);
    if !up(k) {
      return [];
    }
    var r := ZRevRangeWithScores(s, k, ClampLimit(limit));
    referers := if r.Ok? then r.value else [];
  }

  // ---------------------------------------------------------------- one click, as the reports show it

  /** A delivered click moves the counter of its own day by one and no other day's. */
  lemma ClickMovesOneDay(svc: Service, req: ClickRequest, t: Instant, unix: int, d: Date)
    requires ValidDate(t.date) && ValidDate(d)
    requires Counts(svc.redis, DailyKey(req.shortCode, DateStamp(t.date)))
    ensures var k := DailyKey(req.shortCode, DateStamp(d));
      IntOrZero(RecordClick(svc, req, t, unix, true).0.redis, k) == IntOrZero(svc.redis, k) + (if d == t.date then 1 else 0)
  {
    if d == t.date {
      ClickCountsDay(svc, req, t, unix);
    } else {
      ClickSparesOtherDays(svc, req, t, unix, d);
      AgreeReads(RecordClick(svc, req, t, unix, true).0.redis, svc.redis, DailyKey(req.shortCode, DateStamp(d)));
    }
  }

  /** After a delivered click the stats show one more click in the total and in the entry of
      the click's own day, and the other days as they were. */
  lemma ClickShowsInStats(svc: Service, req: ClickRequest, t: Instant, unix: int, up: string -> bool, daysAgo: nat -> Date)
    requires ValidDate(t.date) && forall i :: 0 <= i < StatsDays ==> ValidDate(daysAgo(i))
    requires Counts(svc.redis, TotalKey(req.shortCode)) && Counts(svc.redis, DailyKey(req.shortCode, DateStamp(t.date)))
    ensures var before := GetClickStats(svc.redis, up, req.shortCode, daysAgo);
      var after := GetClickStats(RecordClick(svc, req, t, unix, true).0.redis, up, req.shortCode, daysAgo);
      && (up(TotalKey(req.shortCode)) ==> after.totalClicks == before.totalClicks + 1)
      && forall i :: 0 <= i < StatsDays && up(DailyKey(req.shortCode, DateStamp(daysAgo(i)))) ==>
           after.dailyClicks[i].count == before.dailyClicks[i].count + (if daysAgo(i) == t.date then 1 else 0)
  {
    ClickCountsTotal(svc, req, t, unix);
    ClickShowsInDays(svc, req, t, unix, up, daysAgo);
  }

  lemma ClickShowsInDays(svc: Service, req: ClickRequest, t: Instant, unix: int, up: string -> bool, daysAgo: nat -> Date)
    requires ValidDate(t.date) && forall i :: 0 <= i < StatsDays ==> ValidDate(daysAgo(i))
    requires Counts(svc.redis, DailyKey(req.shortCode, DateStamp(t.date)))
    ensures var before := GetClickStats(svc.redis, up, req.shortCode, daysAgo);
      var after := GetClickStats(RecordClick(svc, req, t, unix, true).0.redis, up, req.shortCode, daysAgo);
      forall i :: 0 <= i < StatsDays && up(DailyKey(req.shortCode, DateStamp(daysAgo(i)))) ==>
        after.dailyClicks[i].count == before.dailyClicks[i].count + (if daysAgo(i) == t.date then 1 else 0)
  {
    forall i | 0 <= i < StatsDays {
      ClickMovesOneDay(svc, req, t, unix, daysAgo(i));
    }
  }

  /** After a delivered click the hourly report of its day shows one more click in its hour
      and the other hours as they were. */
  lemma ClickShowsInHourly(svc: Service, req: ClickRequest, t: Instant, unix: int, up: string -> bool, today: Date)
    requires ValidInstant(t)
    requires Counts(svc.redis, HourlyKey(req.shortCode, HourStamp(t)))
    ensures var date := DateStamp(t.date);
      var before := GetHourlyDistribution(svc.redis, up, req.shortCode, date, today);
      var after := GetHourlyDistribution(RecordClick(svc, req, t, unix, true).0.redis, up, req.shortCode, date, today);
      forall h :: 0 <= h < 24 && up(HourlyKey(req.shortCode, date + HourSuffix(h))) ==>
        after[h].count == before[h].count + (if h == t.hour then 1 else 0)
  {
    var r := RecordClick(svc, req, t, unix, true).0.redis;
    var date := DateStamp(t.date);
    ZeroPadTwo(t.hour);
    assert date != "" by { DateStampInjective(t.date, t.date); }
    ClickCountsHour(svc, req, t, unix);
    forall h | 0 <= h < 24 && h != t.hour
      ensures IntOrZero(r, HourlyKey(req.shortCode, date + HourSuffix(h)))
           == IntOrZero(svc.redis, HourlyKey(req.shortCode, date + HourSuffix(h)))
    {
      ClickSparesOtherHours(svc, req, t, unix, h);
      AgreeReads(r, svc.redis, HourlyKey(req.shortCode, date + HourSuffix(h)));
    }
  }

  /** What the stats of `code` rest on: a readable total of `n` and a visitor set `visitors`. */
  ghost predicate Tally(s: Store, code: string, n: int, visitors: set<string>) {
    && Counts(s, TotalKey(code)) && IntOrZero(s, TotalKey(code)) == n
    && (UniqueKey(code) !in s.data || s.data[UniqueKey(code)].Members?)
    && VisitorsAt(s, UniqueKey(code)) == visitors
  }

  /** One delivered click moves the tally of its code by one click and its visitor. */
  lemma ClickTally(svc: Service, req: ClickRequest, t: Instant, unix: int, n: int, visitors: set<string>)
    requires Tally(svc.redis, req.shortCode, n, visitors)
    ensures Tally(RecordClick(svc, req, t, unix, true).0.redis, req.shortCode, n + 1, visitors + {req.ipAddress})
  {
    ClickCountsTotal(svc, req, t, unix);
    ClickAddsVisitor(svc, req, t, unix);
  }

  /** A run of delivered clicks, each a request with its calendar hour and Unix time. */
  function Replay(svc: Service, clicks: seq<(ClickRequest, Instant, int)>): Service
    decreases |clicks|
  {
    if clicks == [] then svc
    else Replay(RecordClick(svc, clicks[0].0, clicks[0].1, clicks[0].2, true).0, clicks[1..])
  }

  /** The addresses a run of clicks came from. */
  function Visitors(clicks: seq<(ClickRequest, Instant, int)>): set<string> {
    set i | 0 <= i < |clicks| :: clicks[i].0.ipAddress
  }

  lemma VisitorsCons(clicks: seq<(ClickRequest, Instant, int)>)
    requires clicks != []
    ensures Visitors(clicks) == {clicks[0].0.ipAddress} + Visitors(clicks[1..])
  {
    forall i | 0 <= i < |clicks[1..]| ensures clicks[1..][i] == clicks[i + 1] { }
  }

  /** Over a run of delivered clicks on one code, the total counts every click and the visitor
      set gains every address, however often it repeats. */
  lemma {:induction false} ReplayTally(svc: Service, clicks: seq<(ClickRequest, Instant, int)>, code: string, n: int,
                                       visitors: set<string>)
    requires forall i :: 0 <= i < |clicks| ==> clicks[i].0.shortCode == code
    requires Tally(svc.redis, code, n, visitors)
    ensures Tally(Replay(svc, clicks).redis, code, n + |clicks|, visitors + Visitors(clicks))
    decreases |clicks|
  {
    if clicks != [] {
      var c, rest := clicks[0], clicks[1..];
      var next := RecordClick(svc, c.0, c.1, c.2, true).0;
      ClickTally(svc, c.0, c.1, c.2, n, visitors);
      ReplayTally(next, rest, code, n + 1, visitors + {c.0.ipAddress});
      VisitorsCons(clicks);
      assert (visitors + {c.0.ipAddress}) + Visitors(rest) == visitors + Visitors(clicks);
    }
  }

  /** The stats read a tally back. */
  lemma StatsOfTally(s: Store, code: string, n: int, visitors: set<string>, up: string -> bool, daysAgo: nat -> Date)
    requires Tally(s, code, n, visitors)
    ensures up(TotalKey(code)) ==> GetClickStats(s, up, code, daysAgo).totalClicks == n
    ensures up(UniqueKey(code)) ==> GetClickStats(s, up, code, daysAgo).uniqueClicks == |visitors|
  {
  }

  /** On a code with no clicks yet, the stats after a run of delivered clicks count every
      click once and every address once. */
  lemma ReplayStats(svc: Service, clicks: seq<(ClickRequest, Instant, int)>, code: string, up: string -> bool, daysAgo: nat -> Date)
    requires forall i :: 0 <= i < |clicks| ==> clicks[i].0.shortCode == code
    requires TotalKey(code) !in svc.redis.data && UniqueKey(code) !in svc.redis.data
    ensures up(TotalKey(code)) ==> GetClickStats(Replay(svc, clicks).redis, up, code, daysAgo).totalClicks == |clicks|
    ensures up(UniqueKey(code)) ==> GetClickStats(Replay(svc, clicks).redis, up, code, daysAgo).uniqueClicks == |Visitors(clicks)|
  {
    ReplayTally(svc, clicks, code, 0, {});
    assert {} + Visitors(clicks) == Visitors(clicks);
    StatsOfTally(Replay(svc, clicks).redis, code, |clicks|, Visitors(clicks), up, daysAgo);
  }

  /** Three delivered clicks on a fresh code, the first two from the same address: the stats
      count three clicks and two visitors, as far as their reads reach Redis. */
  lemma RepeatVisitorCountsOnce(svc: Service, clicks: seq<(ClickRequest, Instant, int)>, up: string -> bool, daysAgo: nat -> Date)
    requires |clicks| == 3
    requires forall i :: 0 <= i < |clicks| ==> clicks[i].0.shortCode == clicks[0].0.shortCode
    requires clicks[1].0.ipAddress == clicks[0].0.ipAddress && clicks[2].0.ipAddress != clicks[0].0.ipAddress
    requires TotalKey(clicks[0].0.shortCode) !in svc.redis.data && UniqueKey(clicks[0].0.shortCode) !in svc.redis.data
    ensures var stats := GetClickStats(Replay(svc, clicks).redis, up, clicks[0].0.shortCode, daysAgo);
      && (up(TotalKey(clicks[0].0.shortCode)) ==> stats.totalClicks == 3)
      && (up(UniqueKey(clicks[0].0.shortCode)) ==> stats.uniqueClicks == 2)
  {
    ReplayStats(svc, clicks, clicks[0].0.shortCode, up, daysAgo);
    TwoVisitors(clicks);
  }

  lemma TwoVisitors(clicks: seq<(ClickRequest, Instant, int)>)
    requires |clicks| == 3
    requires clicks[1].0.ipAddress == clicks[0].0.ipAddress && clicks[2].0.ipAddress != clicks[0].0.ipAddress
    ensures |Visitors(clicks)| == 2
  {
    assert Visitors(clicks) == {clicks[0].0.ipAddress, clicks[2].0.ipAddress};
  }
}

=== FILE: base64.dfy ===
/** Base 64 encoding with the URL- and filename-safe alphabet of section 5 of RFC 4648,
    padded with '=' as Go's `base64.URLEncoding` does, and the short-code generator built on it.
    Encoding goes through 6-bit values (64 stands for the pad character), so the bit
    arithmetic and the alphabet are proved apart. */
module Base64 {

  import opened Results
  import Validator

  type Byte = x: nat | x < 256

  /** A 6-bit value, or 64 for the pad character '='. */
  type Symbol = x: nat | x <= 64

  const PadSymbol: Symbol := 64

  /** The alphabet character of a symbol. */
  function SymbolChar(v: Symbol): (c: char)
    ensures v < 64 ==> Validator.IsCodeChar(c)
    ensures SymbolValue(c) == Some(v)
  {
    if v < 26 then ('A' as int + v) as char
    else if v < 52 then ('a' as int + (v - 26)) as char
    else if v < 62 then ('0' as int + (v - 52)) as char
    else if v == 62 then '-'
    else if v == 63 then '_'
    else '='
  }

  /** The symbol of an alphabet character; None for a character outside the alphabet. */
  function SymbolValue(c: char): Option<Symbol> {
    if 'A' <= c <= 'Z' then Some(c as int - 'A' as int)
    else if 'a' <= c <= 'z' then Some(c as int - 'a' as int + 26)
    else if '0' <= c <= '9' then Some(c as int - '0' as int + 52)
    else if c == '-' then Some(62)
    else if c == '_' then Some(63)
    else if c == '=' then Some(PadSymbol)
    else None
  }

  /** The 6-bit groups of a byte string: three bytes make four symbols, and a final one or
      two bytes make two or three symbols followed by pads up to four. */
  function Symbols(bs: seq<Byte>): (vs: seq<Symbol>)
    ensures |vs| == (|bs| + 2) / 3 * 4
    decreases |bs|
  {
    if |bs| == 0 then []
    else if |bs| == 1 then [bs[0] / 4, (bs[0] % 4) * 16, PadSymbol, PadSymbol]
    else if |bs| == 2 then [bs[0] / 4, (bs[0] % 4) * 16 + bs[1] / 16, (bs[1] % 16) * 4, PadSymbol]
    else [bs[0] / 4, (bs[0] % 4) * 16 + bs[1] / 16, (bs[1] % 16) * 4 + bs[2] / 64, bs[2] % 64]
         + Symbols(bs[3..])
  }

  function Spell(vs: seq<Symbol>): (s: string)
    ensures |s| == |vs|
    ensures forall k :: 0 <= k < |vs| ==> s[k] == SymbolChar(vs[k])
  {
    if vs == [] then [] else [SymbolChar(vs[0])] + Spell(vs[1..])
  }

  /** `base64.URLEncoding.EncodeToString`. */
  function Encode(bs: seq<Byte>): (s: string)
    ensures |s| == (|bs| + 2) / 3 * 4
  {
    Spell(Symbols(bs))
  }

  /** The symbols of a string; None when a character is outside the alphabet. */
  function Read(s: string): Option<seq<Symbol>> {
    if s == [] then Some([])
    else match (SymbolValue(s[0]), Read(s[1..]))
      case (Some(v), Some(vs)) => Some([v] + vs)
      case _ => None
  }

  lemma {:induction false} ReadSpell(vs: seq<Symbol>)
    ensures Read(Spell(vs)) == Some(vs)
  {
    if vs != [] {
      var s := Spell(vs);
      assert s[1..] == Spell(vs[1..]);
      ReadSpell(vs[1..]);
      assert vs == [vs[0]] + vs[1..];
    }
  }

  /** Symbols back to bytes, four at a time; only the last group may carry pads ("xx==" is
      one byte, "xxx=" two). Unused low bits of a padded group are ignored, as Go's
      non-strict decoder does. */
  function Join(vs: seq<Symbol>): Option<seq<Byte>>
    decreases |vs|
  {
    if |vs| == 0 then Some([])
    else if |vs| < 4 then None
    else
      var v0: nat, v1: nat, v2: nat, v3: nat := vs[0], vs[1], vs[2], vs[3];
      if v0 == PadSymbol || v1 == PadSymbol then None
      else if |vs| == 4 && v2 == PadSymbol && v3 == PadSymbol then Some([v0 * 4 + v1 / 16])
      else if |vs| == 4 && v2 != PadSymbol && v3 == PadSymbol then
        Some([v0 * 4 + v1 / 16, (v1 % 16) * 16 + v2 / 4])
      else if v2 == PadSymbol || v3 == PadSymbol then None
      else match Join(vs[4..])
        case Some(rest) => Some([v0 * 4 + v1 / 16, (v1 % 16) * 16 + v2 / 4, (v2 % 4) * 64 + v3] + rest)
        case None => None
  }

  /** The decoder for `Encode`'s output. */
  function Decode(s: string): Option<seq<Byte>> {
    match Read(s)
    case Some(vs) => Join(vs)
    case None => None
  }

  lemma Split16(x: nat, lo: nat)
    requires lo < 16
    ensures (x * 16 + lo) / 16 == x && (x * 16 + lo) % 16 == lo
  {
  }

  lemma Split4(x: nat, lo: nat)
    requires lo < 4
    ensures (x * 4 + lo) / 4 == x && (x * 4 + lo) % 4 == lo
  {
  }

  /** A final single byte: "xx==". */
  lemma {:induction false} JoinOneByte(bs: seq<Byte>)
    requires |bs| == 1
    ensures Join(Symbols(bs)) == Some(bs)
  {
    var vs := Symbols(bs);
    var v0: nat, v1: nat := vs[0], vs[1];
    assert Join(vs) == Some([v0 * 4 + v1 / 16]);
    assert v0 * 4 + v1 / 16 == bs[0];
    assert bs == [bs[0]];
  }

  lemma JoinPadded(vs: seq<Symbol>)
    requires |vs| == 4 && vs[0] < 64 && vs[1] < 64 && vs[2] < 64 && vs[3] == PadSymbol
    ensures var v0: nat, v1: nat, v2: nat := vs[0], vs[1], vs[2];
            Join(vs) == Some([v0 * 4 + v1 / 16, (v1 % 16) * 16 + v2 / 4])
  {
  }

  /** The bit arithmetic of a final pair of bytes: the three symbols give the bytes back. */
  lemma PairBits(b0: Byte, b1: Byte)
    ensures var v1: nat, v2: nat := (b0 % 4) * 16 + b1 / 16, (b1 % 16) * 4;
            && v1 < 64 && v2 < 64
            && (b0 / 4) * 4 + v1 / 16 == b0 && (v1 % 16) * 16 + v2 / 4 == b1
  {
    Split16(b0 % 4, b1 / 16);
    Split4(b1 % 16, 0);
  }

  /** The symbols of a final pair of bytes join back to the pair. */
  lemma JoinPairSymbols(b0: Byte, b1: Byte)
    ensures Join([b0 / 4, (b0 % 4) * 16 + b1 / 16, (b1 % 16) * 4, PadSymbol]) == Some([b0, b1])
  {
    PairBits(b0, b1);
    JoinPadded([b0 / 4, (b0 % 4) * 16 + b1 / 16, (b1 % 16) * 4, PadSymbol]);
  }

  /** A final pair of bytes: "xxx=". */
  lemma {:induction false} JoinTwoBytes(bs: seq<Byte>)
    requires |bs| == 2
    ensures Join(Symbols(bs)) == Some(bs)
  {
    assert bs == [bs[0], bs[1]];
    assert Symbols(bs) == [bs[0] / 4, (bs[0] % 4) * 16 + bs[1] / 16, (bs[1] % 16) * 4, PadSymbol];
    JoinPairSymbols(bs[0], bs[1]);
  }

  lemma {:induction false} JoinSymbols(bs: seq<Byte>)
    ensures Join(Symbols(bs)) == Some(bs)
    decreases |bs|
  {
    if |bs| == 1 {
      JoinOneByte(bs);
    } else if |bs| == 2 {
      JoinTwoBytes(bs);
    } else if |bs| >= 3 {
      var vs := Symbols(bs);
      assert vs[4..] == Symbols(bs[3..]);
      JoinSymbols(bs[3..]);
      Split16(bs[0] % 4, bs[1] / 16);
      Split4(bs[1] % 16, bs[2] / 64);
      assert bs == [bs[0], bs[1], bs[2]] + bs[3..];
    }
  }

  /** Decoding what was encoded gives the bytes back, for every length. */
  lemma DecodeEncode(bs: seq<Byte>)
    ensures Decode(Encode(bs)) == Some(bs)
  {
    ReadSpell(Symbols(bs));
    JoinSymbols(bs);
  }

  /** The encoding of six bytes is the two three-byte groups, with no padding. */
  lemma SixBytes(bs: seq<Byte>)
    requires |bs| == 6
    ensures Symbols(bs) ==
      [bs[0] / 4, (bs[0] % 4) * 16 + bs[1] / 16, (bs[1] % 16) * 4 + bs[2] / 64, bs[2] % 64,
       bs[3] / 4, (bs[3] % 4) * 16 + bs[4] / 16, (bs[4] % 16) * 4 + bs[5] / 64, bs[5] % 64]
  {
    var t := bs[3..];
    assert Symbols(t[3..]) == [];
    assert Symbols(t) == [t[0] / 4, (t[0] % 4) * 16 + t[1] / 16, (t[1] % 16) * 4 + t[2] / 64, t[2] % 64];
  }

  /** `generateShortCode`: the first six characters of the encoding of six random bytes. The
      bytes are the caller's input here (they come from `crypto/rand` in the service). */
  function GenerateShortCode(random: seq<Byte>): (code: string)
    requires |random| == 6
    ensures |code| == 6
    ensures Validator.ValidateShortCode(code).Ok?
  {
    SixBytes(random);
    Encode(random)[..6]
  }

  /** The generated code is fixed by the first 36 bits of the random input: inputs that agree
      on the first four bytes and the top four bits of the fifth give the same code, so two
      different draws can collide. */
  lemma GeneratedCodeUses36Bits(x: seq<Byte>, y: seq<Byte>)
    requires |x| == 6 && |y| == 6
    requires x[..4] == y[..4] && x[4] / 16 == y[4] / 16
    ensures GenerateShortCode(x) == GenerateShortCode(y)
  {
    SixBytes(x);
    SixBytes(y);
    assert x[0] == y[0] && x[1] == y[1] && x[2] == y[2] && x[3] == y[3];
    assert Symbols(x)[..6] == Symbols(y)[..6];
    assert Encode(x)[..6] == Spell(Symbols(x)[..6]);
    assert Encode(y)[..6] == Spell(Symbols(y)[..6]);
  }
}

=== FILE: gateway.dfy ===
/** The HTTP gateway's own decisions: which client address it reports, and the order in
    which its handlers refuse a request before calling the URL service, the analytics service
    or the user database. The answers of those calls are inputs. */
module Gateway {

  import opened Results
  import opened Text
  import opened Http
  import Validator
  import RateLimit
  import Analytics
  import UrlService

  // ---------------------------------------------------------------- client address

  /** The address without its port: everything before the last ':' (an address without one is
      kept whole). */
  function StripPort(addr: string): (host: string)
    ensures ':' !in addr ==> host == addr
    ensures ':' in addr ==> && |host| < |addr| && addr[..|host|] == host
                            && addr[|host|] == ':' && ':' !in addr[|host| + 1..]
  {
    var idx := LastIndexOf(addr, ':');
    if idx != -1 then addr[..idx] else addr
  }

  /** `host:port` gives back `host`, whatever colons the host itself holds. */
  lemma StripPortOf(host: string, port: string)
    requires ':' !in port
    ensures StripPort(host + ":" + port) == host
  {
    var addr := host + ":" + port;
    assert addr[|host|] == ':';
    assert addr[|host| + 1..] == port;
    assert addr[..|host|] == host;
  }

  /** The gateway's `getClientIP`: the headers are read as the rate limiter reads them, but the
      connection's address loses its port. */
  function ClientIP(p: Peer): (ip: string)
    ensures p.forwardedFor != [] ==> ip == FirstForwarded(p.forwardedFor)
    ensures p.forwardedFor == [] && p.realIP != [] ==> ip == p.realIP
    ensures p.forwardedFor == [] && p.realIP == [] ==> ip == StripPort(p.remoteAddr)
  {
    if p.forwardedFor != [] then FirstForwarded(p.forwardedFor)
    else if p.realIP != [] then p.realIP
    else StripPort(p.remoteAddr)
  }

  /** The two copies agree whenever either header is present. */
  lemma ClientIPsAgreeOnHeaders(p: Peer)
    requires p.forwardedFor != [] || p.realIP != []
    ensures ClientIP(p) == RateLimit.ClientIP(p)
  {
  }

  /** Without proxy headers they differ: the limiter keeps the port, so two connections from
      one host on different ports count against different limiter keys, while the gateway
      reports the same client for both. */
  lemma ClientIPsDifferOnPort(host: string, port1: string, port2: string)
    requires ':' !in port1 && ':' !in port2 && port1 != port2
    ensures ClientIP(Peer([], [], host + ":" + port1)) == ClientIP(Peer([], [], host + ":" + port2)) == host
    ensures RateLimit.RateLimitKey(RateLimit.ClientIP(Peer([], [], host + ":" + port1)))
            != RateLimit.RateLimitKey(RateLimit.ClientIP(Peer([], [], host + ":" + port2)))
  {
    StripPortOf(host, port1);
    StripPortOf(host, port2);
    var a1 := host + ":" + port1;
    var a2 := host + ":" + port2;
    if RateLimit.RateLimitKey(a1) == RateLimit.RateLimitKey(a2) {
      RateLimit.RateLimitKeyInjective(a1, a2);
    }
  }

  // ---------------------------------------------------------------- redirect

  /** What `GetOriginalURL` answered over gRPC: a transport error, or the service's reply. */
  datatype LookupAnswer = LookupFailed | Answer(originalURL: string, found: bool)

  /** The reply (`location` only for 301), the code the URL service was asked about, and the
      click handed to the analytics service. */
  datatype RedirectResult = RedirectResult(status: int, message: string, location: string,
                                           lookedUp: Option<string>, click: Option<Analytics.ClickRequest>)

  /** The code a `/s/<code>` path names. */
  function RedirectCode(path: string): (code: string)
    ensures HasPrefix(path, "/s/") ==> "/s/" + code == path
    ensures !HasPrefix(path, "/s/") ==> code == path
  {
    TrimPrefix(path, "/s/")
  }

  /** `handleRedirect`: an empty or malformed code is refused before the URL service is asked;
      then a transport error is 500, an unknown code 404, and a known one a permanent redirect
      that also sends one click for that code. `location` is the target before `http.Redirect`
      writes it into the header, where non-ASCII characters are percent-escaped. */
  function HandleRedirect(path: string, p: Peer, userAgent: string, referer: string,
                          lookup: string -> LookupAnswer): (r: RedirectResult)
    ensures var code := RedirectCode(path);
            Validator.ValidateShortCode(code).Err? ==>
              r.status == StatusBadRequest && r.lookedUp == None && r.click == None
    ensures RedirectCode(path) == [] ==> r.message == "Short code required"
    ensures var code := RedirectCode(path);
            Validator.ValidateShortCode(code).Ok? ==>
              && r.lookedUp == Some(code)
              && (r.status == StatusInternalServerError <==> lookup(code).LookupFailed?)
              && (r.status == StatusNotFound <==> lookup(code).Answer? && !lookup(code).found)
    ensures r.status == StatusMovedPermanently <==>
              Validator.ValidateShortCode(RedirectCode(path)).Ok?
              && lookup(RedirectCode(path)).Answer? && lookup(RedirectCode(path)).found
    ensures r.click.Some? <==> r.status == StatusMovedPermanently
    ensures r.status == StatusMovedPermanently ==>
              && r.location == lookup(RedirectCode(path)).originalURL
              && r.click == Some(Analytics.ClickRequest(RedirectCode(path), ClientIP(p), userAgent, referer))
  {
    var code := RedirectCode(path);
    if code == [] then RedirectResult(StatusBadRequest, "Short code required", [], None, None)
    else if Validator.ValidateShortCode(code).Err? then RedirectResult(StatusBadRequest, "Invalid short code", [], None, None)
    else match lookup(code)
      case LookupFailed => RedirectResult(StatusInternalServerError, "Internal server error", [], Some(code), None)
      case Answer(url, found) =>
        if !found then RedirectResult(StatusNotFound, "Short URL not found", [], Some(code), None)
        else RedirectResult(StatusMovedPermanently, [], url,
                            Some(code), Some(Analytics.ClickRequest(code, ClientIP(p), userAgent, referer)))
  }

  /** The URL service's answer as the gateway sees it when the call goes through. */
  function Served(s: UrlService.Server, code: string): LookupAnswer {
    var resp := UrlService.GetOriginalURL(s, code, true, true).1;
    Answer(resp.originalURL, resp.found)
  }

  /** End to end: once a short URL is created, following its path through the gateway
      redirects to the original URL and records a click under the new code. */
  lemma CreateThenRedirect(s: UrlService.Server, req: UrlService.CreateRequest, env: UrlService.CreateEnv,
                           p: Peer, userAgent: string, referer: string)
    requires |env.random| == 6
    requires UrlService.CacheCoherent(s)
    requires env.cacheOk || UrlService.ChosenCode(req, env) !in s.storage
    requires UrlService.CreateShortURL(s, req, env).1.Ok?
    ensures var (s1, res) := UrlService.CreateShortURL(s, req, env);
            var code := res.value.shortCode;
            var r := HandleRedirect("/s/" + code, p, userAgent, referer, c => Served(s1, c));
            && r.status == StatusMovedPermanently
            && r.location == req.originalURL
            && r.click == Some(Analytics.ClickRequest(code, ClientIP(p), userAgent, referer))
  {
    var (s1, res) := UrlService.CreateShortURL(s, req, env);
    var code := res.value.shortCode;
    assert HasPrefix("/s/" + code, "/s/");
    assert RedirectCode("/s/" + code) == code;
    UrlService.CreateThenLookup(s, req, env, false, true, true);
  }

  // ---------------------------------------------------------------- stats

  /** A handler's reply and whether it went on to call the service behind it. */
  datatype Reply = Reply(status: int, message: string, called: Option<string>)

  const StatusOK: int := 200

  /** `handleGetStats`: only GET; the `code` query parameter must be present and well formed
      before the analytics service is asked; a failed call is 500. */
  function HandleGetStats(verb: string, code: string, statsOk: string -> bool): (r: Reply)
    ensures verb != "GET" ==> r == Reply(StatusMethodNotAllowed, "Method not allowed", None)
    ensures r.called.Some? <==> verb == "GET" && Validator.ValidateShortCode(code).Ok?
    ensures r.called.Some? ==> r.called == Some(code)
    ensures verb == "GET" && Validator.ValidateShortCode(code).Err? ==> r.status == StatusBadRequest
    ensures r.status == StatusOK <==> r.called.Some? && statsOk(code)
    ensures r.called.Some? && !statsOk(code) ==> r.status == StatusInternalServerError
  {
    if verb != "GET" then Reply(StatusMethodNotAllowed, "Method not allowed", None)
    else if code == [] then Reply(StatusBadRequest, "Short code required", None)
    else if Validator.ValidateShortCode(code).Err? then Reply(StatusBadRequest, "Invalid short code", None)
    else if !statsOk(code) then Reply(StatusInternalServerError, "Failed to get stats", Some(code))
    else Reply(StatusOK, [], Some(code))
  }

  // ---------------------------------------------------------------- register

  /** The JSON body of a registration. */
  datatype Credentials = Credentials(username: string, password: string, email: string)

  /** What the checks outside this model answer: `ValidateAlphanumeric(_, 50)` and
      `ValidateEmail` (pkg/validator/validator.go is not part of this model), the user
      database and the token issuer. */
  datatype RegisterEnv = RegisterEnv(alphanumeric: string -> bool, validEmail: string -> bool,
                                     userExists: string -> Result<bool, ()>, createOk: bool, token: Option<string>)

  const StatusConflict: int := 409

  /** The registration checks, in the order they are made, on the sanitised fields: the first
      one that fails names the refusal. */
  function RegisterRefusal(c: Credentials, env: RegisterEnv): Option<string> {
    if c.username == [] || c.password == [] then Some("Username and password are required")
    else if !env.alphanumeric(c.username) then Some("Invalid username format")
    else if Utf8Len(c.username) < 3 then Some("Username must be at least 3 characters")
    else if Utf8Len(c.password) < 6 then Some("Password must be at least 6 characters")
    else if !env.validEmail(c.email) then Some("Invalid email format")
    else None
  }

  /** The fields after `SanitizeInput`. */
  function Sanitized(c: Credentials): (d: Credentials)
    ensures d.username == Validator.SanitizeInput(c.username)
    ensures d.password == Validator.SanitizeInput(c.password)
    ensures d.email == Validator.SanitizeInput(c.email)
  {
    Credentials(Validator.SanitizeInput(c.username), Validator.SanitizeInput(c.password), Validator.SanitizeInput(c.email))
  }

  /** `handleRegister`: only POST; an undecodable body is 400; the field checks refuse with
      400 before the database is asked anything; then a failed lookup is 500, a taken name 409,
      and a failed insert or token 500. `called` is the user name the database was asked
      about. */
  function HandleRegister(verb: string, body: Option<Credentials>, env: RegisterEnv): (r: Reply)
    ensures verb != "POST" ==> r == Reply(StatusMethodNotAllowed, "Method not allowed", None)
    ensures verb == "POST" && body.None? ==> r == Reply(StatusBadRequest, "Invalid request", None)
    ensures verb == "POST" && body.Some? && RegisterRefusal(Sanitized(body.value), env).Some? ==>
              r == Reply(StatusBadRequest, RegisterRefusal(Sanitized(body.value), env).value, None)
    ensures r.called.Some? <==> verb == "POST" && body.Some? && RegisterRefusal(Sanitized(body.value), env).None?
    ensures r.called.Some? ==> r.called == Some(Validator.SanitizeInput(body.value.username))
    ensures r.status == StatusConflict <==> r.called.Some? && env.userExists(r.called.value) == Ok(true)
    ensures r.called.Some? && env.userExists(r.called.value).Err? ==>
              r == Reply(StatusInternalServerError, "Internal server error", r.called)
    ensures r.called.Some? && env.userExists(r.called.value) == Ok(false) && !env.createOk ==>
              r == Reply(StatusInternalServerError, "Failed to create user", r.called)
    ensures r.called.Some? && env.userExists(r.called.value) == Ok(false) && env.createOk && env.token.None? ==>
              r == Reply(StatusInternalServerError, "User created but failed to generate token", r.called)
    ensures r.status == StatusOK <==>
              r.called.Some? && env.userExists(r.called.value) == Ok(false) && env.createOk && env.token.Some?
  {
    if verb != "POST" then Reply(StatusMethodNotAllowed, "Method not allowed", None)
    else if body.None? then Reply(StatusBadRequest, "Invalid request", None)
    else
      var c := Sanitized(body.value);
      match RegisterRefusal(c, env)
      case Some(why) => Reply(StatusBadRequest, why, None)
      case None =>
        match env.userExists(c.username)
        case Err(_) => Reply(StatusInternalServerError, "Internal server error", Some(c.username))
        case Ok(true) => Reply(StatusConflict, "Username already taken", Some(c.username))
        case Ok(false) =>
          if !env.createOk then Reply(StatusInternalServerError, "Failed to create user", Some(c.username))
          else if env.token.None? then Reply(StatusInternalServerError, "User created but failed to generate token", Some(c.username))
          else Reply(StatusOK, "User created successfully", Some(c.username))
  }

  /** A registration reaches the database only with a non-empty alphanumeric user name of at
      least three bytes, a password of at least six bytes and a valid email, all counted after
      sanitising. */
  lemma RegisterChecksBeforeDatabase(verb: string, body: Option<Credentials>, env: RegisterEnv)
    requires HandleRegister(verb, body, env).called.Some?
    ensures var c := Sanitized(body.value);
            && c.username != [] && env.alphanumeric(c.username) && Utf8Len(c.username) >= 3
            && Utf8Len(c.password) >= 6 && env.validEmail(c.email)
  {
  }

  /** The rungs come in source order: a password that is empty, too short, or paired with a
      bad email is reported as such only when every earlier check passed. */
  lemma RegisterOrder(c: Credentials, env: RegisterEnv)
    ensures (c.username == [] || c.password == []) ==>
              RegisterRefusal(c, env) == Some("Username and password are required")
    ensures c.username != [] && c.password != [] && !env.alphanumeric(c.username) ==>
              RegisterRefusal(c, env) == Some("Invalid username format")
    ensures RegisterRefusal(c, env) == Some("Username must be at least 3 characters") <==>
              c.username != [] && c.password != [] && env.alphanumeric(c.username) && Utf8Len(c.username) < 3
    ensures RegisterRefusal(c, env) == Some("Password must be at least 6 characters") <==>
              c.username != [] && c.password != [] && env.alphanumeric(c.username) && Utf8Len(c.username) >= 3
              && Utf8Len(c.password) < 6
    ensures RegisterRefusal(c, env) == Some("Invalid email format") <==>
              c.username != [] && env.alphanumeric(c.username) && Utf8Len(c.username) >= 3 && Utf8Len(c.password) >= 6
              && !env.validEmail(c.email)
  {
  }

  // ---------------------------------------------------------------- user URLs

  /** `handleGetUserURLs`: only GET; a missing `Authorization` header or an invalid token is
      401; the token may carry a `Bearer ` prefix; a failed call is 500; a nil list (`None`)
      is answered as an empty one. `validate` stands for the token check, `list` for the URL
      service's reply (`None` for a transport error). */
  datatype UserURLsResult = UserURLsResult(status: int, message: string, urls: seq<UrlService.URLInfo>, asked: Option<string>)

  function HandleGetUserURLs(verb: string, authorization: string, validate: string -> Option<string>,
                             list: string -> Option<Option<seq<UrlService.URLInfo>>>): (r: UserURLsResult)
    ensures verb != "GET" ==> r.status == StatusMethodNotAllowed && r.asked == None
    ensures verb == "GET" && authorization == [] ==> r.status == StatusUnauthorized && r.asked == None
    ensures r.asked.Some? <==>
              verb == "GET" && authorization != [] && validate(TrimPrefix(authorization, "Bearer ")).Some?
    ensures r.asked.Some? ==> r.asked == validate(TrimPrefix(authorization, "Bearer "))
    ensures r.asked.Some? && list(r.asked.value).Some? ==>
              && r.status == StatusOK
              && r.urls == (match list(r.asked.value).value case None => [] case Some(u) => u)
    ensures verb == "GET" && authorization != [] && r.asked.None? ==> r.status == StatusUnauthorized
    ensures r.asked.Some? && list(r.asked.value).None? ==> r.status == StatusInternalServerError
    ensures r.status != StatusOK ==> r.urls == []
  {
    if verb != "GET" then UserURLsResult(StatusMethodNotAllowed, "Method not allowed", [], None)
    else if authorization == [] then UserURLsResult(StatusUnauthorized, "Authorization header required", [], None)
    else match validate(TrimPrefix(authorization, "Bearer "))
      case None => UserURLsResult(StatusUnauthorized, "Invalid token", [], None)
      case Some(user) =>
        match list(user)
        case None => UserURLsResult(StatusInternalServerError, "Failed to get URLs", [], Some(user))
        case Some(None) => UserURLsResult(StatusOK, [], [], Some(user))
        case Some(Some(urls)) => UserURLsResult(StatusOK, [], urls, Some(user))
  }

  /** The `Bearer ` prefix is optional: a bare token is checked the same way. */
  lemma BearerOptional(verb: string, token: string, validate: string -> Option<string>,
                       list: string -> Option<Option<seq<UrlService.URLInfo>>>)
    requires token != [] && !HasPrefix(token, "Bearer ")
    ensures HandleGetUserURLs(verb, "Bearer " + token, validate, list) == HandleGetUserURLs(verb, token, validate, list)
  {
    assert HasPrefix("Bearer " + token, "Bearer ");
  }
}

=== FILE: http.dfy ===
/** What the HTTP layer contributes to the decisions: status codes, and the parts of a request
    from which the client address is taken. */
module Http {

  import opened Text

  const StatusMovedPermanently: int := 301
  const StatusBadRequest: int := 400
  const StatusUnauthorized: int := 401
  const StatusNotFound: int := 404
  const StatusMethodNotAllowed: int := 405
  const StatusTooManyRequests: int := 429
  const StatusInternalServerError: int := 500

  /** The `X-Forwarded-For` and `X-Real-IP` header values (empty when absent) and the peer
      address of the connection, as `host:port`. */
  datatype Peer = Peer(forwardedFor: string, realIP: string, remoteAddr: string)

  /** The client named by a non-empty `X-Forwarded-For` (`client, proxy1, proxy2`): the text
      before the first comma, with surrounding whitespace trimmed. */
  function FirstForwarded(xff: string): (ip: string)
    ensures ',' !in ip
    ensures |ip| <= |xff|
    ensures ip == [] || (!IsSpace(ip[0]) && !IsSpace(ip[|ip| - 1]))
    ensures ',' !in xff ==> ip == TrimSpace(xff)
  {
    var idx := IndexOf(xff, ',');
    if idx != -1 then TrimSpace(xff[..idx]) else TrimSpace(xff)
  }

  /** A list of addresses gives its first element, whatever the proxies appended. */
  lemma FirstForwardedOfList(first: string, rest: string)
    requires ',' !in first
    ensures FirstForwarded(first + "," + rest) == TrimSpace(first)
  {
    var xff := first + "," + rest;
    var idx := IndexOf(xff, ',');
    assert xff[|first|] == ',';
    assert xff[..|first|] == first;
    assert xff[..idx] == first;
  }
}

=== FILE: kvstore.dfy ===
/** The external key/value store (Redis) as a value: one keyspace of typed values with
    per-key time-to-live, and the commands the services issue against it. A command that
    finds a key of the wrong type fails and changes nothing, as Redis does. */
module KVStore {

  import opened Results
  import opened Text

  /** A Redis value: a string (`Str`, or `Counter` for one holding an integer), a set, or a
      sorted set with integer scores. */
  datatype Value =
    | Str(text: string)
    | Counter(n: int)
    | Members(items: set<string>)
    | Ranking(scores: map<string, int>)

  /** The keyspace and the time-to-live, in seconds, of the keys that have one. */
  datatype Store = Store(data: map<string, Value>, ttl: map<string, nat>)

  datatype StoreError = Nil | WrongType | NotInteger

  const EmptyStore := Store(map[], map[])

  /** Keys other than `k` hold what they held and keep their time-to-live. */
  ghost predicate SameExcept(s: Store, t: Store, k: string) {
    && (forall j :: j != k ==> (j in s.data <==> j in t.data))
    && (forall j :: j != k && j in s.data ==> t.data[j] == s.data[j])
    && (forall j :: j != k ==> (j in s.ttl <==> j in t.ttl))
    && (forall j :: j != k && j in s.ttl ==> t.ttl[j] == s.ttl[j])
  }

  /** `s` and `t` hold the same thing under `k`, with the same time-to-live. */
  ghost predicate Agree(s: Store, t: Store, k: string) {
    && (k in s.data <==> k in t.data)
    && (k in s.data ==> t.data[k] == s.data[k])
    && (k in s.ttl <==> k in t.ttl)
    && (k in s.ttl ==> t.ttl[k] == s.ttl[k])
  }

  /** GET. A counter reads as its decimal spelling. */
  function Get(s: Store, k: string): (r: Result<string, StoreError>)
    ensures k !in s.data ==> r == Err(Nil)
    ensures r.Ok? <==> k in s.data && (s.data[k].Str? || s.data[k].Counter?)
    ensures k in s.data && s.data[k].Str? ==> r == Ok(s.data[k].text)
  {
    if k !in s.data then Err(Nil)
    else match s.data[k]
      case Str(t) => Ok(t)
      case Counter(n) => Ok(Decimal(n))
      case _ => Err(WrongType)
  }

  /** GET followed by go-redis's `Int64()`, which reads the reply with `strconv.ParseInt`:
      the integer a string key holds, in any spelling Go accepts. */
  function GetInt(s: Store, k: string): (r: Result<int, StoreError>)
    ensures k !in s.data ==> r == Err(Nil)
    ensures k in s.data && s.data[k].Counter? ==> r == Ok(s.data[k].n)
    ensures k in s.data && s.data[k].Str? && ParseGoInt(s.data[k].text).Some? ==>
              r == Ok(ParseGoInt(s.data[k].text).value)
    ensures k in s.data && s.data[k].Str? && ParseGoInt(s.data[k].text).None? ==> r == Err(NotInteger)
    ensures r.Ok? ==> k in s.data && (s.data[k].Str? || s.data[k].Counter?)
    ensures k in s.data && !s.data[k].Str? && !s.data[k].Counter? ==> r == Err(WrongType)
  {
    if k !in s.data then Err(Nil)
    else match s.data[k]
      case Counter(n) => Ok(n)
      case Str(t) => (match ParseGoInt(t) case Some(v) => Ok(v) case None => Err(NotInteger))
      case _ => Err(WrongType)
  }

  /** What the read paths of the services do with a failed integer read: count it as 0. */
  function IntOrZero(s: Store, k: string): (n: int)
    ensures k !in s.data ==> n == 0
    ensures GetInt(s, k).Ok? ==> n == GetInt(s, k).value
    ensures GetInt(s, k).Err? ==> n == 0
  {
    GetInt(s, k).GetOr(0)
  }

  /** SET with an expiry in seconds; 0 means none, and a plain SET drops any earlier expiry. */
  function Set(s: Store, k: string, v: string, ttl: nat): (t: Store)
    ensures k in t.data && t.data[k] == Str(v)
    ensures ttl > 0 ==> k in t.ttl && t.ttl[k] == ttl
    ensures ttl == 0 ==> k !in t.ttl
    ensures SameExcept(s, t, k)
  {
    Store(s.data[k := Str(v)], if ttl > 0 then s.ttl[k := ttl] else s.ttl - {k})
  }

  /** DEL, and also what the passing of a key's time-to-live does to it. */
  function Del(s: Store, k: string): (t: Store)
    ensures k !in t.data && k !in t.ttl
    ensures SameExcept(s, t, k)
  {
    Store(s.data - {k}, s.ttl - {k})
  }

  /** The integer INCR finds under `k`: 0 for a missing key, and a string only in the
      canonical spelling Redis itself writes (no `+`, no leading zero, no `-0`). */
  function IncrBase(s: Store, k: string): (r: Result<int, StoreError>)
    ensures k !in s.data ==> r == Ok(0)
    ensures k in s.data && s.data[k].Counter? ==> r == Ok(s.data[k].n)
    ensures k in s.data && s.data[k].Str? && ParseCanonical(s.data[k].text).Some? ==>
              r == Ok(ParseCanonical(s.data[k].text).value)
    ensures k in s.data && s.data[k].Str? && ParseCanonical(s.data[k].text).None? ==> r == Err(NotInteger)
    ensures k in s.data && !s.data[k].Str? && !s.data[k].Counter? ==> r == Err(WrongType)
  {
    if k !in s.data then Ok(0)
    else match s.data[k]
      case Counter(n) => Ok(n)
      case Str(t) => (match ParseCanonical(t) case Some(v) => Ok(v) case None => Err(NotInteger))
      case _ => Err(WrongType)
  }

  /** Whatever INCR accepts reads back through `GetInt` as the same integer. */
  lemma IncrBaseRead(s: Store, k: string)
    requires k in s.data && IncrBase(s, k).Ok?
    ensures GetInt(s, k) == IncrBase(s, k)
  {
  }

  /** INCR: a missing key counts from 0; the time-to-live is kept. */
  function Incr(s: Store, k: string): (res: (Store, Result<int, StoreError>))
    ensures k !in s.data ==> res.1 == Ok(1)
    ensures k in s.data && s.data[k].Counter? ==> res.1 == Ok(s.data[k].n + 1)
    ensures k in s.data && s.data[k].Str? && ParseCanonical(s.data[k].text).None? ==> res.1 == Err(NotInteger)
    ensures k in s.data && !s.data[k].Str? && !s.data[k].Counter? ==> res.1 == Err(WrongType)
    ensures res.1.Ok? ==> k in res.0.data && res.0.data[k] == Counter(res.1.value)
    ensures res.1.Ok? ==> IncrBase(s, k).Ok? && res.1.value == IncrBase(s, k).value + 1
    ensures res.1.Err? ==> res.0 == s
    ensures res.0.ttl == s.ttl
  {
    match IncrBase(s, k)
    case Ok(n) => (Store(s.data[k := Counter(n + 1)], s.ttl), Ok(n + 1))
    case Err(e) => (s, Err(e))
  }

  /** EXPIRE with a timeout in seconds: a key that exists gets that time-to-live, or is
      deleted when the timeout is not positive (go-redis sends a zero duration as 0); a
      missing key is left missing. */
  function Expire(s: Store, k: string, seconds: nat): (t: Store)
    ensures k !in s.data ==> t == s
    ensures k in s.data && seconds > 0 ==> t.data == s.data && k in t.ttl && t.ttl[k] == seconds
    ensures k in s.data && seconds == 0 ==> k !in t.data && k !in t.ttl
    ensures seconds == 0 ==> k !in t.data
  {
    if k !in s.data then s
    else if seconds == 0 then Del(s, k)
    else Store(s.data, s.ttl[k := seconds])
  }

  /** SADD of one member. */
  function SAdd(s: Store, k: string, m: string): (t: Store)
    ensures k !in s.data ==> k in t.data && t.data[k] == Members({m})
    ensures k in s.data && s.data[k].Members? ==> k in t.data && t.data[k] == Members(s.data[k].items + {m})
    ensures k in s.data && !s.data[k].Members? ==> t == s
    ensures t.ttl == s.ttl
  {
    if k !in s.data then Store(s.data[k := Members({m})], s.ttl)
    else match s.data[k]
      case Members(items) => Store(s.data[k := Members(items + {m})], s.ttl)
      case _ => s
  }

  /** SCARD: a missing key is the empty set. */
  function SCard(s: Store, k: string): (r: Result<nat, StoreError>)
    ensures k !in s.data ==> r == Ok(0)
    ensures k in s.data && s.data[k].Members? ==> r == Ok(|s.data[k].items|)
    ensures k in s.data && !s.data[k].Members? ==> r == Err(WrongType)
  {
    if k !in s.data then Ok(0)
    else match s.data[k]
      case Members(items) => Ok(|items|)
      case _ => Err(WrongType)
  }

  /** The score of `m` in a score map, 0 when it has none. */
  function ScoreOf(scores: map<string, int>, m: string): int {
    if m in scores then scores[m] else 0
  }

  /** `scores` with the score of `m` moved by `delta`, from 0 when it had none. */
  function Bump(scores: map<string, int>, m: string, delta: int): map<string, int> {
    scores[m := ScoreOf(scores, m) + delta]
  }

  /** ZINCRBY: a missing key or member starts from 0. */
  function ZIncrBy(s: Store, k: string, delta: int, m: string): (t: Store)
    ensures k !in s.data ==> k in t.data && t.data[k] == Ranking(map[m := delta])
    ensures k in s.data && s.data[k].Ranking? ==>
              k in t.data && t.data[k] == Ranking(Bump(s.data[k].scores, m, delta))
    ensures k in s.data && !s.data[k].Ranking? ==> t == s
    ensures t.ttl == s.ttl
  {
    if k !in s.data then Store(s.data[k := Ranking(map[m := delta])], s.ttl)
    else match s.data[k]
      case Ranking(scores) => Store(s.data[k := Ranking(Bump(scores, m, delta))], s.ttl)
      case _ => s
  }

  /** The scores held under `k`, empty for a missing key. */
  function RankingAt(s: Store, k: string): map<string, int> {
    if k in s.data && s.data[k].Ranking? then s.data[k].scores else map[]
  }

  // ---------------------------------------------------------------- sorted-set order

  /** Byte-wise (here: character-wise) lexicographic order, the order Redis uses between
      members with equal scores. */
  predicate LexLess(a: string, b: string) {
    if a == [] then b != []
    else if b == [] then false
    else if a[0] != b[0] then a[0] < b[0]
    else LexLess(a[1..], b[1..])
  }

  lemma {:induction false} LexIrreflexive(a: string)
    ensures !LexLess(a, a)
  {
    if a != [] {
      LexIrreflexive(a[1..]);
    }
  }

  lemma {:induction false} LexTransitive(a: string, b: string, c: string)
    requires LexLess(a, b) && LexLess(b, c)
    ensures LexLess(a, c)
  {
    if a != [] && b != [] && c != [] && a[0] == b[0] && b[0] == c[0] {
      LexTransitive(a[1..], b[1..], c[1..]);
    }
  }

  lemma {:induction false} LexTotal(a: string, b: string)
    requires a != b
    ensures LexLess(a, b) || LexLess(b, a)
  {
    if a != [] && b != [] && a[0] == b[0] {
      assert a == [a[0]] + a[1..] && b == [b[0]] + b[1..];
      LexTotal(a[1..], b[1..]);
    }
  }

  /** `x` comes before `y` in ZREVRANGE order: higher score first, and among equal scores the
      lexicographically greater member first. */
  predicate RanksAbove(x: (string, int), y: (string, int)) {
    x.1 > y.1 || (x.1 == y.1 && LexLess(y.0, x.0))
  }

  lemma RanksAboveTransitive(x: (string, int), y: (string, int), z: (string, int))
    requires RanksAbove(x, y) && RanksAbove(y, z)
    ensures RanksAbove(x, z)
  {
    if x.1 == y.1 && y.1 == z.1 {
      LexTransitive(z.0, y.0, x.0);
    }
  }

  lemma RanksAboveIrreflexive(x: (string, int))
    ensures !RanksAbove(x, x)
  {
    LexIrreflexive(x.0);
  }

  function Names(r: seq<(string, int)>): set<string> {
    set i | 0 <= i < |r| :: r[i].0
  }

  /** The member of `pool` that ranks highest under `scores`. */
  method PickBest(scores: map<string, int>, pool: set<string>) returns (best: string)
    requires pool != {} && pool <= scores.Keys
    ensures best in pool
    ensures forall m :: m in pool && m != best ==> RanksAbove((best, scores[best]), (m, scores[m]))
  {
    best :| best in pool;
    var todo := pool - {best};
    while todo != {}
      invariant todo <= pool && best in pool && best !in todo
      invariant forall m :: m in pool - todo && m != best ==> RanksAbove((best, scores[best]), (m, scores[m]))
      decreases todo
    {
      var m :| m in todo;
      if m != best && RanksAbove((m, scores[m]), (best, scores[best])) {
        forall j | j in pool - todo && j != best
          ensures RanksAbove((m, scores[m]), (j, scores[j]))
        {
          RanksAboveTransitive((m, scores[m]), (best, scores[best]), (j, scores[j]));
        }
        best := m;
      } else if m != best {
        LexTotal(m, best);
      }
      todo := todo - {m};
    }
  }

  lemma NamesAppend(r: seq<(string, int)>, e: (string, int))
    ensures Names(r + [e]) == Names(r) + {e.0}
  {
    var r' := r + [e];
    assert forall i :: 0 <= i < |r| ==> r'[i] == r[i];
    assert r'[|r|] == e;
  }

  /** What the selection loop of `TopEntries` keeps: `r` holds correctly scored entries in
      strictly descending order, each above every member still in `rest`, and `rest` is
      everything not yet taken. */
  ghost predicate Selected(scores: map<string, int>, r: seq<(string, int)>, rest: set<string>) {
    && rest == scores.Keys - Names(r)
    && |r| + |rest| == |scores|
    && (forall i :: 0 <= i < |r| ==> r[i].0 in scores && r[i].1 == scores[r[i].0])
    && (forall i, j :: 0 <= i < j < |r| ==> RanksAbove(r[i], r[j]))
    && (forall i, m :: 0 <= i < |r| && m in rest ==> RanksAbove(r[i], (m, scores[m])))
  }

  lemma SelectStep(scores: map<string, int>, r: seq<(string, int)>, rest: set<string>, best: string)
    requires Selected(scores, r, rest)
    requires best in rest
    requires forall m :: m in rest && m != best ==> RanksAbove((best, scores[best]), (m, scores[m]))
    ensures Selected(scores, r + [(best, scores[best])], rest - {best})
  {
    var e := (best, scores[best]);
    var r' := r + [e];
    NamesAppend(r, e);
    assert rest - {best} == scores.Keys - Names(r');
    forall i, j | 0 <= i < j < |r'|
      ensures RanksAbove(r'[i], r'[j])
    {
      if j < |r| {
        assert r'[i] == r[i] && r'[j] == r[j];
      } else {
        assert r'[i] == r[i] && r'[j] == e;
      }
    }
    forall i, m | 0 <= i < |r'| && m in rest - {best}
      ensures RanksAbove(r'[i], (m, scores[m]))
    {
      if i < |r| {
        assert r'[i] == r[i];
      }
    }
  }

  /** `r` is what ZREVRANGE 0 count-1 WITHSCORES answers on `scores`: as many entries as
      asked for or as there are, each with its score, in strictly descending order, and none
      left out that ranks above one listed. */
  ghost predicate IsTop(scores: map<string, int>, count: nat, r: seq<(string, int)>) {
    && |r| == (if count < |scores| then count else |scores|)
    && (forall i :: 0 <= i < |r| ==> r[i].0 in scores && r[i].1 == scores[r[i].0])
    && (forall i, j :: 0 <= i < j < |r| ==> RanksAbove(r[i], r[j]))
    && (forall i, m :: 0 <= i < |r| && m in scores && m !in Names(r) ==> RanksAbove(r[i], (m, scores[m])))
  }

  /** The first `count` entries of a sorted set in ZREVRANGE order. */
  method TopEntries(scores: map<string, int>, count: nat) returns (r: seq<(string, int)>)
    ensures IsTop(scores, count, r)
  {
    r := [];
    var rest := scores.Keys;
    while |r| < count && rest != {}
      invariant Selected(scores, r, rest)
      invariant |r| <= count
      decreases rest
    {
      var best := PickBest(scores, rest);
      SelectStep(scores, r, rest, best);
      r := r + [(best, scores[best])];
      rest := rest - {best};
    }
  }

  lemma RanksAboveAsymmetric(x: (string, int), y: (string, int))
    requires RanksAbove(x, y)
    ensures !RanksAbove(y, x)
  {
    if RanksAbove(y, x) {
      RanksAboveTransitive(x, y, x);
      RanksAboveIrreflexive(x);
    }
  }

  /** Where two answers first differ, the entry of the first ranks below the entry of the
      second. */
  lemma TopFirstDifference(scores: map<string, int>, count: nat, r1: seq<(string, int)>, r2: seq<(string, int)>, i: nat)
    requires IsTop(scores, count, r1) && IsTop(scores, count, r2)
    requires i < |r1| && r1[..i] == r2[..i] && r1[i].0 != r2[i].0
    ensures RanksAbove(r2[i], r1[i])
  {
    assert i < |r2|;
    if r1[i].0 in Names(r2) {
      var j :| 0 <= j < |r2| && r2[j].0 == r1[i].0;
      if j < i {
        assert r1[j] == r2[j];
        RanksAboveIrreflexive(r1[i]);
        assert false;
      }
      assert r2[j] == r1[i];
    }
  }

  /** The answer of ZREVRANGE is determined: two sequences that both meet `IsTop` are equal. */
  lemma {:induction false} TopUnique(scores: map<string, int>, count: nat, r1: seq<(string, int)>, r2: seq<(string, int)>, n: nat)
    requires IsTop(scores, count, r1) && IsTop(scores, count, r2) && n <= |r1|
    ensures r1[..n] == r2[..n]
  {
    if n > 0 {
      TopUnique(scores, count, r1, r2, n - 1);
      var i := n - 1;
      if r1[i].0 != r2[i].0 {
        TopFirstDifference(scores, count, r1, r2, i);
        TopFirstDifference(scores, count, r2, r1, i);
        RanksAboveAsymmetric(r1[i], r2[i]);
      }
      assert r1[i] == r2[i];
      assert r1[..n] == r1[..i] + [r1[i]] && r2[..n] == r2[..i] + [r2[i]];
    }
  }

  /** So there is one right answer. */
  lemma TopDetermined(scores: map<string, int>, count: nat, r1: seq<(string, int)>, r2: seq<(string, int)>)
    requires IsTop(scores, count, r1) && IsTop(scores, count, r2)
    ensures r1 == r2
  {
    TopUnique(scores, count, r1, r2, |r1|);
    assert r1 == r1[..|r1|] && r2 == r2[..|r2|];
  }

  /** ZREVRANGE key 0 count-1 WITHSCORES. */
  method ZRevRangeWithScores(s: Store, k: string, count: nat) returns (r: Result<seq<(string, int)>, StoreError>)
    ensures k !in s.data ==> r == Ok([])
    ensures r.Err? <==> k in s.data && !s.data[k].Ranking?
    ensures r.Err? ==> r == Err(WrongType)
    ensures r.Ok? ==> IsTop(RankingAt(s, k), count, r.value)
  {
    if k !in s.data {
      return Ok([]);
    }
    match s.data[k]
    case Ranking(scores) =>
      var top := TopEntries(scores, count);
      return Ok(top);
    case _ =>
      return Err(WrongType);
  }

  // ---------------------------------------------------------------- locality

  /** A command leaves every other key as it was. */
  lemma IncrFrame(s: Store, k: string, j: string)
    requires j != k
    ensures Agree(Incr(s, k).0, s, j)
  {
  }

  lemma SAddFrame(s: Store, k: string, m: string, j: string)
    requires j != k
    ensures Agree(SAdd(s, k, m), s, j)
  {
  }

  lemma ZIncrByFrame(s: Store, k: string, delta: int, m: string, j: string)
    requires j != k
    ensures Agree(ZIncrBy(s, k, delta, m), s, j)
  {
  }

  lemma ExpireFrame(s: Store, k: string, seconds: nat, j: string)
    requires j != k
    ensures Agree(Expire(s, k, seconds), s, j)
  {
  }

  /** A command's effect on its key depends only on what the key held before. */
  lemma IncrLocal(s: Store, t: Store, k: string)
    requires Agree(s, t, k)
    ensures Agree(Incr(s, k).0, Incr(t, k).0, k) && Incr(s, k).1 == Incr(t, k).1
  {
  }

  lemma SAddLocal(s: Store, t: Store, k: string, m: string)
    requires Agree(s, t, k)
    ensures Agree(SAdd(s, k, m), SAdd(t, k, m), k)
  {
  }

  lemma ZIncrByLocal(s: Store, t: Store, k: string, delta: int, m: string)
    requires Agree(s, t, k)
    ensures Agree(ZIncrBy(s, k, delta, m), ZIncrBy(t, k, delta, m), k)
  {
  }

  lemma ExpireLocal(s: Store, t: Store, k: string, seconds: nat)
    requires Agree(s, t, k)
    ensures Agree(Expire(s, k, seconds), Expire(t, k, seconds), k)
  {
  }

  /** Reads see only what their key holds. */
  lemma AgreeReads(s: Store, t: Store, k: string)
    requires Agree(s, t, k)
    ensures GetInt(s, k) == GetInt(t, k) && IntOrZero(s, k) == IntOrZero(t, k)
    ensures SCard(s, k) == SCard(t, k) && VisitorsAt(s, k) == VisitorsAt(t, k)
    ensures RankingAt(s, k) == RankingAt(t, k)
  {
  }

  // ---------------------------------------------------------------- a command and its expiry

  /** `k` is missing or holds an integer in a spelling INCR accepts, so INCR on it
      succeeds. */
  ghost predicate Counts(s: Store, k: string) {
    IncrBase(s, k).Ok?
  }

  /** The members of the set under `k`, none for a missing key. */
  function VisitorsAt(s: Store, k: string): set<string> {
    if k in s.data && s.data[k].Members? then s.data[k].items else {}
  }

  /** INCR then EXPIRE: the count read back grows by one and the key gets the new lifetime;
      on a key that does not hold an integer the value stays as it was; a zero lifetime
      deletes the key whatever it held. */
  lemma IncrThenExpire(s: Store, k: string, seconds: nat)
    ensures Counts(s, k) ==> Counts(Expire(Incr(s, k).0, k, seconds), k)
    ensures Counts(s, k) && seconds > 0 ==> IntOrZero(Expire(Incr(s, k).0, k, seconds), k) == IntOrZero(s, k) + 1
    ensures Counts(s, k) && seconds > 0 ==> Expire(Incr(s, k).0, k, seconds).ttl == s.ttl[k := seconds]
    ensures !Counts(s, k) && seconds > 0 ==> Expire(Incr(s, k).0, k, seconds).data == s.data
    ensures seconds == 0 ==> k !in Expire(Incr(s, k).0, k, seconds).data
  {
    if k in s.data && Counts(s, k) {
      IncrBaseRead(s, k);
    }
  }

  /** SADD then EXPIRE: the set gains the member and the key gets the new lifetime; SCARD
      counts the grown set. A zero lifetime deletes the set instead. */
  lemma SAddThenExpire(s: Store, k: string, m: string, seconds: nat)
    requires k !in s.data || s.data[k].Members?
    ensures seconds > 0 ==> VisitorsAt(Expire(SAdd(s, k, m), k, seconds), k) == VisitorsAt(s, k) + {m}
    ensures seconds > 0 ==> SCard(Expire(SAdd(s, k, m), k, seconds), k) == Ok(|VisitorsAt(s, k) + {m}|)
    ensures seconds > 0 ==> Expire(SAdd(s, k, m), k, seconds).ttl == s.ttl[k := seconds]
    ensures seconds == 0 ==> VisitorsAt(Expire(SAdd(s, k, m), k, seconds), k) == {}
  {
  }

  /** ZINCRBY on a sorted set (or a missing key) moves only that member's score. */
  lemma ZIncrByRanking(s: Store, k: string, delta: int, m: string)
    requires k !in s.data || s.data[k].Ranking?
    ensures RankingAt(ZIncrBy(s, k, delta, m), k) == Bump(RankingAt(s, k), m, delta)
  {
  }

  /** A store that agrees on `k` with ZINCRBY then EXPIRE applied to `s`: the member's score
      has moved by `delta` and the key has the new lifetime (a zero lifetime deletes it). */
  lemma ZIncrByThenExpire(r: Store, s: Store, k: string, delta: int, m: string, seconds: nat)
    requires k !in s.data || s.data[k].Ranking?
    requires Agree(r, Expire(ZIncrBy(s, k, delta, m), k, seconds), k)
    ensures seconds > 0 ==> RankingAt(r, k) == Bump(RankingAt(s, k), m, delta)
    ensures seconds > 0 ==> k in r.ttl && r.ttl[k] == seconds
    ensures seconds == 0 ==> k !in r.data && RankingAt(r, k) == map[]
  {
    ZIncrByRanking(s, k, delta, m);
    AgreeReads(r, Expire(ZIncrBy(s, k, delta, m), k, seconds), k);
  }

  /** The keys a SCAN with pattern `prefix*` can return. */
  function KeysWithPrefix(s: Store, prefix: string): set<string> {
    set k | k in s.data && HasPrefix(k, prefix)
  }
}

=== FILE: ratelimit.dfy ===
/** The fixed-window rate limiter: one counter per client address, armed with the window's
    lifetime on the first request, and a request is passed on while the counter stays within
    the ceiling. */
module RateLimit {

  import opened Results
  import opened Text
  import opened KVStore
  import opened Http

  /** The limiter's settings: the ceiling per window and the window length in seconds. */
  datatype Limiter = Limiter(maxRequests: int, window: nat)

  /** The limiter's copy of `getClientIP`: `X-Forwarded-For`, then `X-Real-IP`, then the
      connection's address exactly as given (port included). */
  function ClientIP(p: Peer): (ip: string)
    ensures p.forwardedFor != [] ==> ip == FirstForwarded(p.forwardedFor) && ',' !in ip
    ensures p.forwardedFor == [] && p.realIP != [] ==> ip == p.realIP
    ensures p.forwardedFor == [] && p.realIP == [] ==> ip == p.remoteAddr
  {
    if p.forwardedFor != [] then FirstForwarded(p.forwardedFor)
    else if p.realIP != [] then p.realIP
    else p.remoteAddr
  }

  const KeyPrefix := "rate_limit:"

  /** The counter's key. */
  function RateLimitKey(ip: string): (k: string)
    ensures HasPrefix(k, KeyPrefix) && TrimPrefix(k, KeyPrefix) == ip
  {
    KeyPrefix + ip
  }

  /** Distinct clients count against distinct counters. */
  lemma RateLimitKeyInjective(a: string, b: string)
    requires RateLimitKey(a) == RateLimitKey(b)
    ensures a == b
  {
    assert a == RateLimitKey(a)[|KeyPrefix|..];
    assert b == RateLimitKey(b)[|KeyPrefix|..];
  }

  /** What the middleware does with the request. */
  datatype Outcome =
    | Failed                                    // 500 and no rate-limit headers
    | Limited(limit: string, remaining: string) // 429 with both headers
    | Passed(limit: string, remaining: string)  // both headers set, then the wrapped handler runs

  /** The status the middleware writes itself; the wrapped handler decides it on `Passed`. */
  function StatusOf(o: Outcome): (r: Option<int>)
    ensures r == None <==> o.Passed?
    ensures o.Failed? ==> r == Some(StatusInternalServerError)
    ensures o.Limited? ==> r == Some(StatusTooManyRequests)
  {
    match o
    case Failed => Some(StatusInternalServerError)
    case Limited(_, _) => Some(StatusTooManyRequests)
    case Passed(_, _) => None
  }

  /** The count this request brings the client's counter to, when INCR succeeds. */
  function Count(s: Store, ip: string): int {
    IntOrZero(s, RateLimitKey(ip)) + 1
  }

  /** This request brings the counter to 1 and its EXPIRE reaches Redis. */
  predicate Arms(s: Store, ip: string, expireOk: bool) {
    Count(s, ip) == 1 && expireOk
  }

  /** The middleware for one request from `ip`. `incrOk` and `expireOk` say whether the
      INCR and EXPIRE round trips reach Redis; a failed EXPIRE is ignored. */
  function Admit(l: Limiter, s: Store, ip: string, incrOk: bool, expireOk: bool): (res: (Store, Outcome))
    // Fail closed: without a counter the request is refused and nothing is written.
    ensures res.1.Failed? <==> !incrOk || !Counts(s, RateLimitKey(ip))
    ensures res.1.Failed? ==> res.0 == s
    // Passed on exactly while the new count is within the ceiling.
    ensures res.1.Passed? <==> incrOk && Counts(s, RateLimitKey(ip)) && Count(s, ip) <= l.maxRequests
    ensures res.1.Limited? ==> res.1 == Limited(Decimal(l.maxRequests), "0")
    ensures res.1.Passed? ==> res.1 == Passed(Decimal(l.maxRequests), Decimal(l.maxRequests - Count(s, ip)))
    // The counter moves by one and keeps counting.
    ensures !res.1.Failed? ==> Counts(res.0, RateLimitKey(ip))
    ensures !res.1.Failed? && !(Arms(s, ip, expireOk) && l.window == 0) ==>
              IntOrZero(res.0, RateLimitKey(ip)) == Count(s, ip)
    // The window is armed exactly by the request that brings the count to 1; a zero
    // window deletes the counter it has just set.
    ensures !res.1.Failed? && Arms(s, ip, expireOk) && l.window > 0 ==>
              res.0.ttl == s.ttl[RateLimitKey(ip) := l.window]
    ensures !res.1.Failed? && Arms(s, ip, expireOk) && l.window == 0 ==>
              RateLimitKey(ip) !in res.0.data && IntOrZero(res.0, RateLimitKey(ip)) == 0
    ensures !res.1.Failed? && !Arms(s, ip, expireOk) ==> res.0.ttl == s.ttl
  {
    var key := RateLimitKey(ip);
    if !incrOk then (s, Failed)
    else
      var (s1, r) := Incr(s, key);
      match r
      case Err(_) => (s, Failed)
      case Ok(count) =>
        var s2 := if count == 1 && expireOk then Expire(s1, key, l.window) else s1;
        if count > l.maxRequests then (s2, Limited(Decimal(l.maxRequests), "0"))
        else (s2, Passed(Decimal(l.maxRequests), Decimal(l.maxRequests - count)))
  }

  /** Other clients' counters, and every other key, are left alone. */
  lemma AdmitFrame(l: Limiter, s: Store, ip: string, incrOk: bool, expireOk: bool, j: string)
    requires j != RateLimitKey(ip)
    ensures Agree(Admit(l, s, ip, incrOk, expireOk).0, s, j)
  {
    IncrFrame(s, RateLimitKey(ip), j);
    ExpireFrame(Incr(s, RateLimitKey(ip)).0, RateLimitKey(ip), l.window, j);
  }

  /** The `X-RateLimit-Remaining` header of a passed request reads back as a number from 0 to
      one below the ceiling, as long as the counter never went below zero. */
  lemma RemainingInRange(l: Limiter, s: Store, ip: string, incrOk: bool, expireOk: bool)
    requires IntOrZero(s, RateLimitKey(ip)) >= 0
    requires Admit(l, s, ip, incrOk, expireOk).1.Passed?
    ensures var n := ParseDecimal(Admit(l, s, ip, incrOk, expireOk).1.remaining);
            n.Some? && 0 <= n.value <= l.maxRequests - 1
  {
    DecimalRoundTrip(l.maxRequests - Count(s, ip));
  }

  /** A sequence of requests from one client inside one window (no expiry in between): each
      step says whether its INCR and EXPIRE reach Redis. Gives the final store and how many
      requests were passed on. */
  function Run(l: Limiter, s: Store, ip: string, steps: seq<(bool, bool)>): (Store, nat)
    decreases |steps|
  {
    if steps == [] then (s, 0)
    else
      var (t, o) := Admit(l, s, ip, steps[0].0, steps[0].1);
      var (u, n) := Run(l, t, ip, steps[1..]);
      (u, n + (if o.Passed? then 1 else 0))
  }

  /** How many more requests a counter at `c` lets through. */
  function Room(c: int, maxRequests: int): (n: nat)
    ensures n + c >= maxRequests
    ensures c < maxRequests ==> n + c == maxRequests
    ensures c >= maxRequests ==> n == 0
  {
    if c < maxRequests then maxRequests - c else 0
  }

  function Min(a: nat, b: nat): nat {
    if a <= b then a else b
  }

  /** Within one window at most `maxRequests - c` requests are passed on, `c` being where the
      counter stood, however the round trips fare. */
  lemma {:induction false} WindowBound(l: Limiter, s: Store, ip: string, steps: seq<(bool, bool)>)
    requires l.window > 0
    ensures Run(l, s, ip, steps).1 <= Room(IntOrZero(s, RateLimitKey(ip)), l.maxRequests)
    decreases |steps|
  {
    if steps != [] {
      var (t, o) := Admit(l, s, ip, steps[0].0, steps[0].1);
      WindowBound(l, t, ip, steps[1..]);
    }
  }

  /** A fresh window passes on at most `maxRequests` requests. */
  lemma FreshWindowBound(l: Limiter, s: Store, ip: string, steps: seq<(bool, bool)>)
    requires l.window > 0
    requires RateLimitKey(ip) !in s.data
    ensures Run(l, s, ip, steps).1 <= (if l.maxRequests > 0 then l.maxRequests else 0)
  {
    WindowBound(l, s, ip, steps);
  }

  /** When every INCR reaches Redis and the counter is usable, exactly the first
      `maxRequests - c` requests are passed on: the bound is met, not just respected. */
  lemma {:induction false} WindowExact(l: Limiter, s: Store, ip: string, steps: seq<(bool, bool)>)
    requires l.window > 0
    requires Counts(s, RateLimitKey(ip))
    requires forall i :: 0 <= i < |steps| ==> steps[i].0
    ensures Run(l, s, ip, steps).1 == Min(|steps|, Room(IntOrZero(s, RateLimitKey(ip)), l.maxRequests))
    decreases |steps|
  {
    if steps != [] {
      var (t, o) := Admit(l, s, ip, steps[0].0, steps[0].1);
      WindowExact(l, t, ip, steps[1..]);
    }
  }

  /** Once the window's key expires the client starts over: the first request after it is
      passed on whenever the ceiling is at least one, and re-arms the window. */
  lemma ExpiryResetsWindow(l: Limiter, s: Store, ip: string, expireOk: bool)
    requires l.maxRequests >= 1
    ensures var (t, o) := Admit(l, Del(s, RateLimitKey(ip)), ip, true, expireOk);
            && o.Passed?
            && (l.window > 0 || !expireOk ==> IntOrZero(t, RateLimitKey(ip)) == 1)
            && (l.window > 0 && expireOk ==> RateLimitKey(ip) in t.ttl && t.ttl[RateLimitKey(ip)] == l.window)
            && (l.window == 0 && expireOk ==> RateLimitKey(ip) !in t.data)
  {
  }

  /** With a zero window (`NewRateLimiter` accepts any duration) every EXPIRE deletes the
      counter the same request created, so a client whose round trips all reach Redis is
      never limited by a ceiling of at least one. */
  lemma {:induction false} ZeroWindowNeverLimits(l: Limiter, s: Store, ip: string, steps: seq<(bool, bool)>)
    requires l.window == 0 && l.maxRequests >= 1
    requires RateLimitKey(ip) !in s.data
    requires forall i :: 0 <= i < |steps| ==> steps[i] == (true, true)
    ensures Run(l, s, ip, steps).1 == |steps|
    ensures RateLimitKey(ip) !in Run(l, s, ip, steps).0.data
    decreases |steps|
  {
    if steps != [] {
      var (t, o) := Admit(l, s, ip, true, true);
      assert steps[0] == (true, true);
      assert Count(s, ip) == 1;
      ZeroWindowNeverLimits(l, t, ip, steps[1..]);
    }
  }
}

=== FILE: results.dfy ===
/** Failure-carrying datatypes shared by every module of the model. */
module Results {

  /** A value that may be absent: Go's `nil` pointer or a missing map entry. */
  datatype Option<+T> = None | Some(value: T) {
    function GetOr(default: T): T {
      match this
      case Some(v) => v
      case None => default
    }
  }

  /** The result of a Go call that returns `(value, error)`. */
  datatype Result<+T, +E> = Ok(value: T) | Err(error: E) {
    function GetOr(default: T): T {
      match this
      case Ok(v) => v
      case Err(_) => default
    }
  }
}

=== FILE: text.dfy ===
/** The parts of Go's `strings`, `strconv` and `fmt` packages that the services use,
    over strings as sequences of Unicode scalar values. */
module Text {

  import opened Results

  /** Go's `unicode.IsSpace`: the Latin-1 spaces plus the Unicode White_Space runes. */
  predicate IsSpace(c: char) {
    || ('\U{0009}' <= c <= '\U{000D}') || c == ' ' || c == '\U{0085}' || c == '\U{00A0}'
    || c == '\U{1680}' || ('\U{2000}' <= c <= '\U{200A}') || c == '\U{2028}' || c == '\U{2029}'
    || c == '\U{202F}' || c == '\U{205F}' || c == '\U{3000}'
  }

  predicate AllSpace(s: string) {
    forall k :: 0 <= k < |s| ==> IsSpace(s[k])
  }

  /** Number of whitespace characters at the front of `s`. */
  function LeadingSpace(s: string): (n: nat)
    ensures n <= |s|
    ensures AllSpace(s[..n])
    ensures n < |s| ==> !IsSpace(s[n])
  {
    if |s| > 0 && IsSpace(s[0]) then
      var n := 1 + LeadingSpace(s[1..]);
      assert s[..n] == [s[0]] + s[1..][..n - 1];
      n
    else 0
  }

  /** Number of whitespace characters at the back of `s`. */
  function TrailingSpace(s: string): (n: nat)
    ensures n <= |s|
    ensures AllSpace(s[|s| - n..])
    ensures n < |s| ==> !IsSpace(s[|s| - n - 1])
  {
    if |s| > 0 && IsSpace(s[|s| - 1]) then
      var n := 1 + TrailingSpace(s[..|s| - 1]);
      assert s[|s| - n..] == s[..|s| - 1][|s| - n..] + [s[|s| - 1]];
      n
    else 0
  }

  /** Go's `strings.TrimSpace`: the slice of `s` between its leading and trailing whitespace. */
  function TrimSpace(s: string): (r: string)
    ensures |r| <= |s|
    ensures r == [] || (!IsSpace(r[0]) && !IsSpace(r[|r| - 1]))
    ensures forall k :: 0 <= k < |r| ==> r[k] in s
    ensures exists i, j {:trigger s[i..j]} :: 0 <= i <= j <= |s| && r == s[i..j] && AllSpace(s[..i]) && AllSpace(s[j..])
  {
    var i := LeadingSpace(s);
    var t := s[i..];
    var j := TrailingSpace(t);
    var r := t[..|t| - j];
    assert r == s[i..|s| - j];
    assert s[|s| - j..] == t[|t| - j..];
    assert r != [] ==> r[0] == s[i];
    assert forall k :: 0 <= k < |r| ==> r[k] == s[i + k];
    r
  }

  /** Trimming a string that has no whitespace at either end changes nothing. */
  lemma TrimSpaceOfTrimmed(s: string)
    requires s == [] || (!IsSpace(s[0]) && !IsSpace(s[|s| - 1]))
    ensures TrimSpace(s) == s
  {
  }

  /** Go's `strings.ReplaceAll(s, [c], "")`: every occurrence of `c` removed, nothing else touched. */
  function RemoveAll(s: string, c: char): (r: string)
    ensures c !in r
    ensures multiset(r) == multiset(s)[c := 0]
  {
    if s == [] then []
    else
      var rest := RemoveAll(s[1..], c);
      assert s == [s[0]] + s[1..];
      if s[0] == c then rest else [s[0]] + rest
  }

  /** Removing a character that does not occur is the identity. */
  lemma {:induction false} RemoveAbsent(s: string, c: char)
    requires c !in s
    ensures RemoveAll(s, c) == s
  {
    if s != [] {
      assert c !in s[1..];
      RemoveAbsent(s[1..], c);
    }
  }

  /** Go's `strings.Index(s, [c])`: the first position of `c`, or -1. */
  function IndexOf(s: string, c: char): (i: int)
    ensures -1 <= i < |s|
    ensures i == -1 <==> c !in s
    ensures i >= 0 ==> s[i] == c && c !in s[..i]
  {
    if s == [] then -1
    else if s[0] == c then 0
    else
      var j := IndexOf(s[1..], c);
      if j == -1 then -1
      else
        assert s[..j + 1] == [s[0]] + s[1..][..j];
        j + 1
  }

  /** Go's `strings.LastIndex(s, [c])`: the last position of `c`, or -1. */
  function LastIndexOf(s: string, c: char): (i: int)
    ensures -1 <= i < |s|
    ensures i == -1 <==> c !in s
    ensures i >= 0 ==> s[i] == c && c !in s[i + 1..]
  {
    if s == [] then -1
    else if s[|s| - 1] == c then |s| - 1
    else
      var j := LastIndexOf(s[..|s| - 1], c);
      assert s == s[..|s| - 1] + [s[|s| - 1]];
      if j == -1 then -1
      else
        assert s[j + 1..] == s[..|s| - 1][j + 1..] + [s[|s| - 1]];
        j
  }

  predicate HasPrefix(s: string, p: string) {
    |p| <= |s| && s[..|p|] == p
  }

  predicate HasSuffix(s: string, p: string) {
    |p| <= |s| && s[|s| - |p|..] == p
  }

  /** Go's `strings.TrimPrefix`: `s` without `p` when `s` starts with `p`, else `s` itself. */
  function TrimPrefix(s: string, p: string): (r: string)
    ensures HasPrefix(s, p) ==> p + r == s
    ensures !HasPrefix(s, p) ==> r == s
  {
    if HasPrefix(s, p) then
      assert s == s[..|p|] + s[|p|..];
      s[|p|..]
    else s
  }

  lemma PrefixOfConcat(p: string, rest: string)
    ensures HasPrefix(p + rest, p)
    ensures TrimPrefix(p + rest, p) == rest
  {
    assert (p + rest)[..|p|] == p;
    assert (p + rest)[|p|..] == rest;
  }

  /** ASCII letters folded to lower case, every other character kept. */
  function LowerChar(c: char): char {
    if 'A' <= c <= 'Z' then (c as int + 32) as char else c
  }

  /** Go's `strings.ToLower`, restricted to the ASCII letters (see README). */
  function ToLower(s: string): (r: string)
    ensures |r| == |s|
    ensures forall k :: 0 <= k < |s| ==> r[k] == LowerChar(s[k])
  {
    if s == [] then [] else [LowerChar(s[0])] + ToLower(s[1..])
  }

  lemma ToLowerConcat(a: string, b: string)
    ensures ToLower(a + b) == ToLower(a) + ToLower(b)
  {
    assert forall k :: 0 <= k < |a + b| ==> ToLower(a + b)[k] == (ToLower(a) + ToLower(b))[k];
  }

  /** Go's `s[:min(len(s), n)]`: the longest prefix of `s` no longer than `n`. */
  function Truncate(s: string, n: nat): (r: string)
    ensures |r| <= n && |r| <= |s|
    ensures HasPrefix(s, r)
    ensures |s| <= n ==> r == s
  {
    if |s| <= n then s else s[..n]
  }

  // ---------------------------------------------------------------- decimals

  predicate IsDigit(c: char) {
    '0' <= c <= '9'
  }

  function Digit(d: nat): (c: char)
    requires d < 10
    ensures IsDigit(c)
  {
    ('0' as int + d) as char
  }

  function DigitValue(c: char): (d: nat)
    requires IsDigit(c)
    ensures d < 10 && Digit(d) == c
  {
    c as int - '0' as int
  }

  predicate AllDigits(s: string) {
    forall k :: 0 <= k < |s| ==> IsDigit(s[k])
  }

  /** The shortest decimal spelling of `n` (what `%d` prints for a non-negative value). */
  function NatDigits(n: nat): (r: string)
    ensures |r| >= 1 && AllDigits(r)
    decreases n
  {
    if n < 10 then [Digit(n)] else NatDigits(n / 10) + [Digit(n % 10)]
  }

  /** The value of a string of decimal digits. */
  function ParseNat(s: string): nat
    requires AllDigits(s)
  {
    if s == [] then 0 else ParseNat(s[..|s| - 1]) * 10 + DigitValue(s[|s| - 1])
  }

  lemma {:induction false} ParseNatDigits(n: nat)
    ensures ParseNat(NatDigits(n)) == n
    decreases n
  {
    if n >= 10 {
      var s := NatDigits(n);
      assert s[..|s| - 1] == NatDigits(n / 10);
      ParseNatDigits(n / 10);
    }
  }

  /** `%d` / `strconv.FormatInt(n, 10)`: an optional minus sign then the digits of |n|. */
  function Decimal(n: int): (r: string)
    ensures |r| >= 1
    ensures n >= 0 ==> AllDigits(r)
    ensures n < 0 ==> r[0] == '-' && AllDigits(r[1..])
  {
    if n >= 0 then NatDigits(n) else "-" + NatDigits(-n)
  }

  /** Reads back what `Decimal` writes: an optional minus sign followed by at least one digit. */
  function ParseDecimal(s: string): Option<int> {
    if |s| >= 2 && s[0] == '-' && AllDigits(s[1..]) then Some(-(ParseNat(s[1..]) as int))
    else if |s| >= 1 && AllDigits(s) then Some(ParseNat(s))
    else None
  }

  lemma DecimalRoundTrip(n: int)
    ensures ParseDecimal(Decimal(n)) == Some(n)
  {
    if n >= 0 {
      ParseNatDigits(n);
    } else {
      assert Decimal(n)[1..] == NatDigits(-n);
      ParseNatDigits(-n);
    }
  }

  /** Go's `strconv.ParseInt(s, 10, 64)` within range: an optional sign, `+` or `-`, then at
      least one digit; leading zeros and `-0` are read, underscores and spaces are not. */
  function ParseGoInt(s: string): (r: Option<int>)
    ensures ParseDecimal(s).Some? ==> r == ParseDecimal(s)
    ensures |s| >= 2 && s[0] == '+' && AllDigits(s[1..]) ==> r == Some(ParseNat(s[1..]))
    ensures r.Some? ==> s != [] && (IsDigit(s[0]) || s[0] == '+' || s[0] == '-')
  {
    if |s| >= 2 && s[0] == '+' && AllDigits(s[1..]) then Some(ParseNat(s[1..]))
    else ParseDecimal(s)
  }

  /** Redis's strict integer reading (INCR and INCRBY on a string value): only the canonical
      spelling `Decimal` writes, so no sign `+`, no leading zero and no `-0`. */
  function ParseCanonical(s: string): (r: Option<int>)
    ensures r.Some? ==> Decimal(r.value) == s
    ensures r.Some? ==> ParseDecimal(s) == r
  {
    match ParseDecimal(s)
    case Some(n) => if Decimal(n) == s then Some(n) else None
    case None => None
  }

  /** Every canonical spelling is read back, so `ParseCanonical` is exactly the inverse of
      `Decimal`. */
  lemma CanonicalRoundTrip(n: int)
    ensures ParseCanonical(Decimal(n)) == Some(n)
  {
    DecimalRoundTrip(n);
  }

  /** The integer grammar of JSON (section 6 of RFC 8259) as `encoding/json` decodes it into
      an `int64`: an optional minus sign and no leading zero; `-0` reads as 0. */
  function ParseJsonInt(s: string): (r: Option<int>)
    ensures s == "-0" ==> r == Some(0)
    ensures s != "-0" ==> r == ParseCanonical(s)
  {
    if s == "-0" then Some(0) else ParseCanonical(s)
  }

  /** `Decimal` never writes a negative zero, so the JSON reading of it is the canonical one. */
  lemma DecimalNotMinusZero(n: int)
    ensures Decimal(n) != "-0"
  {
    if n < 0 {
      ParseNatDigits(-n);
      assert Decimal(n)[1..] == NatDigits(-n);
      assert "-0"[1..] == "0" && ParseNat("0") == 0 by { assert "0"[..0] == []; }
    } else {
      assert IsDigit(Decimal(n)[0]);
    }
  }

  /** How many bytes the UTF-8 encoding of `c` takes. */
  function Utf8Size(c: char): (n: nat)
    ensures 1 <= n <= 4
    ensures n == 1 <==> c as int < 0x80
  {
    if c as int < 0x80 then 1
    else if c as int < 0x800 then 2
    else if c as int < 0x10000 then 3
    else 4
  }

  /** Go's `len` on a string: the length of its UTF-8 encoding in bytes. */
  function Utf8Len(s: string): (n: nat)
    ensures |s| <= n <= 4 * |s|
    decreases |s|
  {
    if s == [] then 0 else Utf8Size(s[0]) + Utf8Len(s[1..])
  }

  /** On ASCII text, bytes and characters agree. */
  lemma {:induction false} Utf8LenAscii(s: string)
    requires forall i :: 0 <= i < |s| ==> s[i] as int < 0x80
    ensures Utf8Len(s) == |s|
    decreases |s|
  {
    if s != [] {
      Utf8LenAscii(s[1..]);
    }
  }

  /** Beyond ASCII they part: three accented letters are six bytes. */
  lemma Utf8LenAccented()
    ensures |"ééé"| == 3 && Utf8Len("ééé") == 6
  {
    assert "ééé"[1..] == "éé";
    assert "éé"[1..] == "é";
    assert "é"[1..] == [];
  }

  /** Where the three readings part ways. */
  lemma IntegerSpellings()
    ensures ParseGoInt("+5") == Some(5) && ParseCanonical("+5") == None
    ensures ParseGoInt("007") == Some(7) && ParseCanonical("007") == None
    ensures ParseGoInt("-0") == Some(0) && ParseCanonical("-0") == None
    ensures ParseJsonInt("-0") == Some(0) && ParseJsonInt("007") == None
  {
    assert "5"[..0] == [];
    assert "07"[..1] == "0";
    assert "007"[..2] == "00";
    assert "00"[..1] == "0";
    assert "0"[..0] == [];
    assert Decimal(5) == "5";
    assert Decimal(7) == "7";
    assert Decimal(0) == "0";
  }

  /** `n` in decimal, left-padded with zeros to at least `width` characters, as Go's
      `%02d` and the time layouts `2006`, `01`, `02` and `15` print non-negative fields. */
  function ZeroPad(n: nat, width: nat): (r: string)
    ensures |r| >= width && AllDigits(r)
  {
    var d := NatDigits(n);
    if |d| >= width then d else seq(width - |d|, _ => '0') + d
  }

  /** Two-digit fields print as exactly their tens and units digits. */
  lemma ZeroPadTwo(n: nat)
    requires n < 100
    ensures ZeroPad(n, 2) == [Digit(n / 10), Digit(n % 10)]
  {
    if n >= 10 {
      assert NatDigits(n / 10) == [Digit(n / 10)];
    }
  }

  /** Leading zeros do not change the value of a digit string. */
  lemma {:induction false} ParseNatLeadingZeros(z: nat, d: string)
    requires AllDigits(d)
    ensures AllDigits(seq(z, _ => '0') + d)
    ensures ParseNat(seq(z, _ => '0') + d) == ParseNat(d)
    decreases z + |d|
  {
    var zs: string := seq(z, _ => '0');
    var s := zs + d;
    if d != [] {
      assert s[..|s| - 1] == zs + d[..|d| - 1];
      ParseNatLeadingZeros(z, d[..|d| - 1]);
    } else if z > 0 {
      assert s[..|s| - 1] == seq(z - 1, _ => '0') + d;
      ParseNatLeadingZeros(z - 1, d);
    }
  }

  /** A zero-padded field reads back as its value. */
  lemma ZeroPadValue(n: nat, width: nat)
    ensures ParseNat(ZeroPad(n, width)) == n
  {
    ParseNatDigits(n);
    var d := NatDigits(n);
    if |d| < width {
      ParseNatLeadingZeros(width - |d|, d);
    }
  }

  /** Distinct values print differently at any width. */
  lemma ZeroPadInjective(a: nat, b: nat, width: nat)
    requires ZeroPad(a, width) == ZeroPad(b, width)
    ensures a == b
  {
    ZeroPadValue(a, width);
    ZeroPadValue(b, width);
  }

  function Pow10(k: nat): (p: nat)
    ensures p >= 1
  {
    if k == 0 then 1 else 10 * Pow10(k - 1)
  }

  /** A value below 10^k has at most k digits. */
  lemma {:induction false} NatDigitsBound(n: nat, k: nat)
    requires 1 <= k && n < Pow10(k)
    ensures |NatDigits(n)| <= k
    decreases k
  {
    if n >= 10 {
      if k == 1 {
        assert false;
      }
      NatDigitsBound(n / 10, k - 1);
    }
  }

  /** Four-digit fields (the year of layout "2006") print as exactly four characters. */
  lemma ZeroPadFour(n: nat)
    requires n < 10000
    ensures |ZeroPad(n, 4)| == 4
  {
    NatDigitsBound(n, 4);
  }
}

=== FILE: urldata.dfy ===
/** The alias record of services/urlservice/main.go (`URLData`) and its durable form: the JSON
    object `json.Marshal` writes for it, and a decoder that reads that form back. */
module UrlData {

  import opened Results
  import opened Text

  /** One alias: the code, its target, its owner and its creation time in Unix seconds. */
  datatype URLData = URLData(shortCode: string, originalURL: string, userID: string, createdAt: int)

  // ---------------------------------------------------------------- JSON strings

  function HexValue(c: char): Option<nat> {
    if '0' <= c <= '9' then Some(c as int - '0' as int)
    else if 'a' <= c <= 'f' then Some(c as int - 'a' as int + 10)
    else if 'A' <= c <= 'F' then Some(c as int - 'A' as int + 10)
    else None
  }

  function HexChar(d: nat): (c: char)
    requires d < 16
    ensures HexValue(c) == Some(d)
  {
    if d < 10 then ('0' as int + d) as char else ('a' as int + (d - 10)) as char
  }

  /** `\u` followed by the four lower-case hex digits of `v`. */
  function UnicodeEscape(v: nat): string
    requires v < 0x10000
  {
    ['\\', 'u', HexChar(v / 4096), HexChar((v / 256) % 16), HexChar((v / 16) % 16), HexChar(v % 16)]
  }

  /** How Go's JSON encoder (with HTML escaping, as `json.Marshal` uses it) writes one
      character inside a string literal. The short forms `\b` and `\f` are what
      `encoding/json` writes from Go 1.22 on; earlier releases wrote `\u0008` and `\u000c`. */
  function EscapeChar(c: char): string {
    if c == '"' then "\\\""
    else if c == '\\' then "\\\\"
    else if c == '\n' then "\\n"
    else if c == '\r' then "\\r"
    else if c == '\t' then "\\t"
    else if c == '\U{0008}' then "\\b"
    else if c == '\U{000C}' then "\\f"
    else if c < ' ' || c == '<' || c == '>' || c == '&' || c == '\U{2028}' || c == '\U{2029}' then
      UnicodeEscape(c as int)
    else [c]
  }

  /** The body of a JSON string literal for `s` (without the quotes). */
  function Escape(s: string): string {
    if s == [] then [] else EscapeChar(s[0]) + Escape(s[1..])
  }

  /** The value of four hex digits. */
  function Hex4(s: string): Option<nat>
    requires |s| == 4
  {
    match (HexValue(s[0]), HexValue(s[1]), HexValue(s[2]), HexValue(s[3]))
    case (Some(a), Some(b), Some(c), Some(d)) => Some(((a * 16 + b) * 16 + c) * 16 + d)
    case _ => None
  }

  /** The character a backslash escape stands for, and how many characters the escape takes
      after the backslash. Escapes naming a surrogate half are refused. */
  function Unescape(s: string): Option<(char, nat)>
    requires |s| >= 1
  {
    match s[0]
    case '"' => Some(('"', 1))
    case '\\' => Some(('\\', 1))
    case '/' => Some(('/', 1))
    case 'b' => Some(('\U{0008}', 1))
    case 'f' => Some(('\U{000C}', 1))
    case 'n' => Some(('\n', 1))
    case 'r' => Some(('\r', 1))
    case 't' => Some(('\t', 1))
    case 'u' =>
      if |s| < 5 then None
      else (match Hex4(s[1..5])
            case Some(v) => if 0xD800 <= v < 0xE000 then None else Some((v as char, 5))
            case None => None)
    case _ => None
  }

  /** Reads the body of a string literal up to its closing quote: the decoded string and what
      follows the quote. Raw control characters are refused, as JSON requires. */
  function ParseString(s: string): Option<(string, string)>
    decreases |s|
  {
    if s == [] then None
    else if s[0] == '"' then Some(([], s[1..]))
    else if s[0] < ' ' then None
    else if s[0] == '\\' then
      if |s| < 2 then None
      else match Unescape(s[1..])
        case None => None
        case Some((c, n)) =>
          if 1 + n > |s| then None
          else match ParseString(s[1 + n..])
            case None => None
            case Some((body, rest)) => Some(([c] + body, rest))
    else match ParseString(s[1..])
      case None => None
      case Some((body, rest)) => Some(([s[0]] + body, rest))
  }

  /** Four base-16 digits put back together. */
  lemma HexDigits(v: nat)
    requires v < 0x10000
    ensures ((v / 4096 * 16 + (v / 256) % 16) * 16 + (v / 16) % 16) * 16 + v % 16 == v
  {
    var q1 := v / 16;
    var q2 := q1 / 16;
    assert v / 256 == q2;
    assert v / 4096 == q2 / 16;
    assert q2 == q2 / 16 * 16 + q2 % 16;
    assert q1 == q2 * 16 + q1 % 16;
    assert v == q1 * 16 + v % 16;
  }

  lemma HexRoundTrip(v: nat)
    requires v < 0x10000
    ensures Hex4(UnicodeEscape(v)[2..]) == Some(v)
  {
    var e := UnicodeEscape(v);
    assert e[2..] == [HexChar(v / 4096), HexChar((v / 256) % 16), HexChar((v / 16) % 16), HexChar(v % 16)];
    HexDigits(v);
  }

  /** One escaped character is read back as itself, and parsing continues right after it. */
  lemma ParseEscapedChar(c: char, t: string)
    ensures ParseString(EscapeChar(c) + t) ==
      match ParseString(t)
      case None => None
      case Some((body, rest)) => Some(([c] + body, rest))
  {
    var e := EscapeChar(c);
    var s := e + t;
    if |e| == 6 {
      HexRoundTrip(c as int);
      assert s[1..][1..5] == e[2..];
      assert s[6..] == t;
    } else if |e| == 2 {
      assert s[2..] == t;
    } else {
      assert s[1..] == t;
    }
  }

  lemma {:induction false} ParseEscape(x: string, rest: string)
    ensures ParseString(Escape(x) + "\"" + rest) == Some((x, rest))
  {
    if x == [] {
      assert Escape(x) + "\"" + rest == "\"" + rest;
    } else {
      assert Escape(x) + "\"" + rest == EscapeChar(x[0]) + (Escape(x[1..]) + "\"" + rest);
      ParseEscapedChar(x[0], Escape(x[1..]) + "\"" + rest);
      ParseEscape(x[1..], rest);
      assert [x[0]] + x[1..] == x;
    }
  }

  // ---------------------------------------------------------------- the record

  /** The literal text around the field values. Each string value is followed by its closing
      quote, so the separators start at the comma. */
  const OpenCode: string := "{\"ShortCode\":\""
  const SepURL: string := ",\"OriginalURL\":\""
  const SepUser: string := ",\"UserID\":\""
  const SepTime: string := ",\"CreatedAt\":"

  /** `json.Marshal(urlData)`: the four fields in declaration order, no whitespace. */
  function Marshal(d: URLData): (r: string)
    ensures HasPrefix(r, OpenCode)
    ensures |r| >= 1 && r[|r| - 1] == '}'
  {
    OpenCode + (Escape(d.shortCode) + ("\"" + (SepURL + (Escape(d.originalURL) + ("\"" + (SepUser
      + (Escape(d.userID) + ("\"" + (SepTime + (Decimal(d.createdAt) + "}"))))))))))
  }

  /** `s` without the literal `lit` at its front, if it starts with it. */
  function Expect(s: string, lit: string): Option<string> {
    if HasPrefix(s, lit) then Some(s[|lit|..]) else None
  }

  /** A quoted string field: the literal before the value (ending in the opening quote), the
      escaped body and the closing quote; the value and what follows. */
  function Field(s: string, lit: string): Option<(string, string)> {
    match Expect(s, lit)
    case None => None
    case Some(t) => ParseString(t)
  }

  /** The closing number field: a JSON integer, then the closing brace as the last
      character. */
  function Number(s: string): (r: Option<int>)
    ensures r.Some? ==> |s| >= 2 && s[|s| - 1] == '}' && ParseJsonInt(s[..|s| - 1]) == r
  {
    if |s| == 0 || s[|s| - 1] != '}' then None else ParseJsonInt(s[..|s| - 1])
  }

  /** Reads the form `Marshal` writes back into a record; anything else is refused, as is
      text with other spacing, another field order or missing or extra fields. */
  function Unmarshal(p: string): (r: Option<URLData>)
    ensures r.Some? ==> HasPrefix(p, OpenCode)
    ensures r.Some? ==> Field(p, OpenCode).Some? && Field(p, OpenCode).value.0 == r.value.shortCode
  {
    match Field(p, OpenCode)
    case None => None
    case Some((code, r1)) =>
      match Field(r1, SepURL)
      case None => None
      case Some((url, r2)) =>
        match Field(r2, SepUser)
        case None => None
        case Some((user, r3)) =>
          match Expect(r3, SepTime)
          case None => None
          case Some(num) =>
            match Number(num)
            case None => None
            case Some(t) => Some(URLData(code, url, user, t))
  }

  lemma ExpectConcat(lit: string, rest: string)
    ensures Expect(lit + rest, lit) == Some(rest)
  {
    PrefixOfConcat(lit, rest);
  }

  lemma FieldRoundTrip(lit: string, x: string, rest: string)
    ensures Field(lit + (Escape(x) + ("\"" + rest)), lit) == Some((x, rest))
  {
    ExpectConcat(lit, Escape(x) + ("\"" + rest));
    assert Escape(x) + ("\"" + rest) == Escape(x) + "\"" + rest;
    ParseEscape(x, rest);
  }

  lemma NumberRoundTrip(n: int)
    ensures Number(Decimal(n) + "}") == Some(n)
  {
    var t := Decimal(n) + "}";
    assert t[..|t| - 1] == Decimal(n);
    CanonicalRoundTrip(n);
    DecimalNotMinusZero(n);
  }

  /** The durable form of a record decodes to the same record. */
  lemma UnmarshalMarshal(d: URLData)
    ensures Unmarshal(Marshal(d)) == Some(d)
  {
    var tail := Decimal(d.createdAt) + "}";
    var r3 := SepTime + tail;
    var r2 := SepUser + (Escape(d.userID) + ("\"" + r3));
    var r1 := SepURL + (Escape(d.originalURL) + ("\"" + r2));
    FieldRoundTrip(OpenCode, d.shortCode, r1);
    FieldRoundTrip(SepURL, d.originalURL, r2);
    FieldRoundTrip(SepUser, d.userID, r3);
    ExpectConcat(SepTime, tail);
    NumberRoundTrip(d.createdAt);
  }
}

=== FILE: urlservice.dfy ===
/** The alias store of services/urlservice/main.go: an in-process index from short code to
    record, a durable copy of each record under `urldata:<code>` and a 24-hour cache of each
    target under `url:<code>`, both in the shared store. Every operation is one atomic step
    from a server state to the next; the random bytes, the clock and the success of each
    best-effort store write are inputs. */
module UrlService {

  import opened Results
  import opened Text
  import opened KVStore
  import opened UrlData
  import Validator
  import Base64

  /** The service: the index, the store it shares, and the base of the short URLs it hands out. */
  datatype Server = Server(storage: map<string, URLData>, redis: Store, baseURL: string)

  const DevBaseURL: string := "http://localhost:8080"

  /** The base URL chosen from the `DOMAIN_NAME` setting. */
  function BaseURL(domain: string): (b: string)
    ensures domain != "" && domain != "localhost" ==> b == "https://" + domain
    ensures domain == "" || domain == "localhost" ==> b == DevBaseURL
  {
    if domain != "" && domain != "localhost" then "https://" + domain else DevBaseURL
  }

  function DurableKey(code: string): string {
    "urldata:" + code
  }

  function CacheKey(code: string): string {
    "url:" + code
  }

  /** 24 hours, in seconds. */
  const CacheTTL: nat := 24 * 60 * 60

  function ShortURL(baseURL: string, code: string): string {
    baseURL + "/s/" + code
  }

  lemma DurableKeyInjective(a: string, b: string)
    requires DurableKey(a) == DurableKey(b)
    ensures a == b
  {
    assert a == DurableKey(a)[8..] && b == DurableKey(b)[8..];
  }

  lemma CacheKeyInjective(a: string, b: string)
    requires CacheKey(a) == CacheKey(b)
    ensures a == b
  {
    assert a == CacheKey(a)[4..] && b == CacheKey(b)[4..];
  }

  lemma CacheKeyNotDurable(a: string, b: string)
    ensures CacheKey(a) != DurableKey(b)
  {
    assert CacheKey(a)[3] == "url:"[3];
    assert DurableKey(b)[3] == "urldata:"[3];
  }

  // ---------------------------------------------------------------- restore on start-up

  /** `json.Unmarshal` into a `URLData`: the record a payload decodes to, if it decodes. The
      decoder is a parameter; all the model asks of it is that it reads back what `Marshal`
      writes (`InvertsMarshal`), which `UrlData.Unmarshal` does. */
  type Decoder = string -> Option<URLData>

  ghost predicate InvertsMarshal(decode: Decoder) {
    forall d :: decode(Marshal(d)) == Some(d)
  }

  /** The strict decoder of the `UrlData` module is one such decoder, so the hypothesis can
      be met. */
  lemma StrictDecoderInverts()
    ensures InvertsMarshal(Unmarshal)
  {
    forall d: URLData ensures Unmarshal(Marshal(d)) == Some(d) {
      UnmarshalMarshal(d);
    }
  }

  /** The record a durable key yields: the GET must succeed and the payload must decode. */
  function Loaded(redis: Store, decode: Decoder, key: string): (r: Option<URLData>)
    ensures Get(redis, key).Err? ==> r.None?
    ensures Get(redis, key).Ok? ==> r == decode(Get(redis, key).value)
  {
    match Get(redis, key)
    case Err(_) => None
    case Ok(payload) => decode(payload)
  }

  /** Every entry of the index sits under its own code. */
  ghost predicate KeyedByCode(storage: map<string, URLData>) {
    forall c :: c in storage ==> storage[c].shortCode == c
  }

  /** The restore loop over the keys the scan returned, in scan order, with `load` giving the
      record each key yields: a key that yields none is skipped, any other record is put in
      the index under the code it holds. */
  function Restore(storage: map<string, URLData>, load: string -> Option<URLData>, keys: seq<string>): (r: map<string, URLData>)
    requires KeyedByCode(storage)
    ensures KeyedByCode(r)
    ensures storage.Keys <= r.Keys
    ensures forall k :: k in keys && load(k).Some? ==> load(k).value.shortCode in r
    ensures forall c :: c in r ==> (c in storage && r[c] == storage[c]) || exists k :: k in keys && load(k) == Some(r[c])
    decreases |keys|
  {
    if keys == [] then storage
    else
      var next := match load(keys[0])
        case None => storage
        case Some(d) => storage[d.shortCode := d];
      var r := Restore(next, load, keys[1..]);
      assert forall k :: k in keys ==> k == keys[0] || k in keys[1..];
      r
  }

  /** Restoring two runs of keys one after the other is restoring their concatenation. */
  lemma {:induction false} RestoreAppend(storage: map<string, URLData>, load: string -> Option<URLData>,
                                         a: seq<string>, b: seq<string>)
    requires KeyedByCode(storage)
    ensures Restore(storage, load, a + b) == Restore(Restore(storage, load, a), load, b)
    decreases |a|
  {
    if a == [] {
      assert a + b == b;
    } else {
      assert (a + b)[0] == a[0];
      assert (a + b)[1..] == a[1..] + b;
      var next := match load(a[0])
        case None => storage
        case Some(d) => storage[d.shortCode := d];
      RestoreAppend(next, load, a[1..], b);
    }
  }

  /** The index assignment overwrites: a key read after every other holds its code's entry,
      whatever record the index or an earlier key put there. */
  lemma RestoreLaterKeyWins(storage: map<string, URLData>, load: string -> Option<URLData>,
                            keys: seq<string>, k: string)
    requires KeyedByCode(storage)
    requires load(k).Some?
    ensures load(k).value.shortCode in Restore(storage, load, keys + [k])
    ensures Restore(storage, load, keys + [k])[load(k).value.shortCode] == load(k).value
  {
    RestoreAppend(storage, load, keys, [k]);
    assert [k][1..] == [];
  }

  /** `NewURLServiceServer`: the base URL from the domain setting and the index rebuilt from
      the durable records the scan of `urldata:*` returned, each decoded with `decode`. */
  function NewServer(domain: string, redis: Store, scan: seq<string>, decode: Decoder): (s: Server)
    ensures s.redis == redis && s.baseURL == BaseURL(domain)
    ensures KeyedByCode(s.storage)
  {
    Server(Restore(map[], k => Loaded(redis, decode, k), scan), redis, BaseURL(domain))
  }

  /** Every durable record in the store sits under the key of its own code. */
  ghost predicate DurableWellFormed(redis: Store, decode: Decoder) {
    forall k :: k in redis.data && HasPrefix(k, "urldata:") ==>
      Loaded(redis, decode, k).Some? && DurableKey(Loaded(redis, decode, k).value.shortCode) == k
  }

  /** The scan returned exactly the durable keys, each at least once. */
  ghost predicate ScansDurable(redis: Store, scan: seq<string>) {
    forall k :: k in scan <==> k in redis.data && HasPrefix(k, "urldata:")
  }

  /** Over a complete scan of well-formed durable records, the restored index holds exactly
      the records of the durable keys. */
  lemma RestoreComplete(domain: string, redis: Store, scan: seq<string>, decode: Decoder)
    requires DurableWellFormed(redis, decode) && ScansDurable(redis, scan)
    ensures var st := NewServer(domain, redis, scan, decode).storage;
            forall c :: c in st <==> DurableKey(c) in redis.data
    ensures var st := NewServer(domain, redis, scan, decode).storage;
            forall c :: c in st ==> Loaded(redis, decode, DurableKey(c)) == Some(st[c])
  {
    var load := k => Loaded(redis, decode, k);
    var st := Restore(map[], load, scan);
    assert st == NewServer(domain, redis, scan, decode).storage;
    forall c | c in st
      ensures DurableKey(c) in redis.data && Loaded(redis, decode, DurableKey(c)) == Some(st[c])
    {
      var k :| k in scan && load(k) == Some(st[c]);
      assert DurableKey(st[c].shortCode) == k;
    }
    forall c | DurableKey(c) in redis.data
      ensures c in st
    {
      var k := DurableKey(c);
      PrefixOfConcat("urldata:", c);
      assert k in scan && load(k).Some?;
      DurableKeyInjective(Loaded(redis, decode, k).value.shortCode, c);
    }
  }

  // ---------------------------------------------------------------- create

  datatype CreateRequest = CreateRequest(originalURL: string, userID: string, customAlias: string)

  /** What the outside world contributes to one create call: `url.Parse`'s result and the
      resolver's answer for the URL, the six bytes `crypto/rand` fills, the clock, and whether
      each of the two best-effort store writes went through. */
  datatype CreateEnv = CreateEnv(parsed: Option<Validator.ParsedURL>, resolution: Validator.HostResolution,
                                 random: seq<Base64.Byte>, now: int, persistOk: bool, cacheOk: bool)

  datatype CreateResponse = CreateResponse(shortCode: string, shortURL: string, originalURL: string, createdAt: int)

  datatype CreateError =
    | InvalidURL(urlError: Validator.URLError)
    | InvalidAlias(codeError: Validator.CodeError)
    | AliasExists

  /** The code a create call settles on before the conflict check. */
  function ChosenCode(req: CreateRequest, env: CreateEnv): string
    requires |env.random| == 6
  {
    if req.customAlias != "" then req.customAlias else Base64.GenerateShortCode(env.random)
  }

  /** The two best-effort writes: the durable record (no expiry) and the cache entry (24h). */
  function PersistAndCache(redis: Store, d: URLData, persistOk: bool, cacheOk: bool): Store {
    var r1 := if persistOk then Set(redis, DurableKey(d.shortCode), Marshal(d), 0) else redis;
    if cacheOk then Set(r1, CacheKey(d.shortCode), d.originalURL, CacheTTL) else r1
  }

  /** `CreateShortURL`. The URL is validated first, then a custom alias is validated and
      checked against the index; a generated code is not checked. On success the index maps the
      code to the new record, the durable and cache writes happen when they go through, and
      the response carries the short URL. On any error nothing changes. */
  function CreateShortURL(s: Server, req: CreateRequest, env: CreateEnv): (res: (Server, Result<CreateResponse, CreateError>))
    requires |env.random| == 6
    ensures res.1.Err? ==> res.0 == s
    ensures Validator.ValidateURL(req.originalURL, env.parsed, env.resolution).Err? ==>
              res.1 == Err(InvalidURL(Validator.ValidateURL(req.originalURL, env.parsed, env.resolution).error))
    ensures Validator.ValidateURL(req.originalURL, env.parsed, env.resolution).Ok? && req.customAlias != ""
            && Validator.ValidateShortCode(req.customAlias).Err?
            ==> res.1.Err? && res.1.error.InvalidAlias?
    ensures Validator.ValidateURL(req.originalURL, env.parsed, env.resolution).Ok? && req.customAlias != ""
            && Validator.ValidateShortCode(req.customAlias).Ok? && req.customAlias in s.storage
            ==> res.1 == Err(AliasExists)
    ensures res.1.Ok? <==> Validator.ValidateURL(req.originalURL, env.parsed, env.resolution).Ok?
                           && (req.customAlias != "" ==>
                                 Validator.ValidateShortCode(req.customAlias).Ok? && req.customAlias !in s.storage)
    ensures res.1.Ok? ==>
              var code := res.1.value.shortCode;
              var d := URLData(code, req.originalURL, req.userID, env.now);
              && code == ChosenCode(req, env)
              && Validator.ValidateShortCode(code).Ok?
              && res.0.storage == s.storage[code := d]
              && res.0.baseURL == s.baseURL
              && res.0.redis == PersistAndCache(s.redis, d, env.persistOk, env.cacheOk)
              && res.1.value == CreateResponse(code, ShortURL(s.baseURL, code), req.originalURL, env.now)
  {
    var urlCheck := Validator.ValidateURL(req.originalURL, env.parsed, env.resolution);
    if urlCheck.Err? then (s, Err(InvalidURL(urlCheck.error)))
    else if req.customAlias != "" && Validator.ValidateShortCode(req.customAlias).Err? then
      (s, Err(InvalidAlias(Validator.ValidateShortCode(req.customAlias).error)))
    else if req.customAlias != "" && req.customAlias in s.storage then (s, Err(AliasExists))
    else
      var code := ChosenCode(req, env);
      var d := URLData(code, req.originalURL, req.userID, env.now);
      var s' := Server(s.storage[code := d], PersistAndCache(s.redis, d, env.persistOk, env.cacheOk), s.baseURL);
      (s', Ok(CreateResponse(code, ShortURL(s.baseURL, code), req.originalURL, env.now)))
  }

  // ---------------------------------------------------------------- lookup

  datatype LookupResponse = LookupResponse(originalURL: string, found: bool)

  /** `GetOriginalURL`, cache-aside: a cache hit is answered without looking at the index; on a
      miss (or a failed cache read) the index decides, and a hit there is written back to the
      cache when that write goes through. The code is not validated here. */
  function GetOriginalURL(s: Server, code: string, cacheReadOk: bool, cacheWriteOk: bool): (res: (Server, LookupResponse))
    ensures cacheReadOk && Get(s.redis, CacheKey(code)).Ok? ==>
              res == (s, LookupResponse(Get(s.redis, CacheKey(code)).value, true))
    ensures (!cacheReadOk || Get(s.redis, CacheKey(code)).Err?) && code !in s.storage ==>
              res == (s, LookupResponse("", false))
    ensures (!cacheReadOk || Get(s.redis, CacheKey(code)).Err?) && code in s.storage ==>
              && res.1 == LookupResponse(s.storage[code].originalURL, true)
              && res.0.storage == s.storage && res.0.baseURL == s.baseURL
              && res.0.redis == (if cacheWriteOk then Set(s.redis, CacheKey(code), s.storage[code].originalURL, CacheTTL)
                                 else s.redis)
  {
    var cached := if cacheReadOk then Get(s.redis, CacheKey(code)) else Err(Nil);
    if cached.Ok? then (s, LookupResponse(cached.value, true))
    else if code !in s.storage then (s, LookupResponse("", false))
    else
      var url := s.storage[code].originalURL;
      var redis' := if cacheWriteOk then Set(s.redis, CacheKey(code), url, CacheTTL) else s.redis;
      (Server(s.storage, redis', s.baseURL), LookupResponse(url, true))
  }

  /** The cache is advisory: every cache entry holds the index's target for its code. */
  ghost predicate CacheCoherent(s: Server) {
    forall c :: CacheKey(c) in s.redis.data ==> c in s.storage && s.redis.data[CacheKey(c)] == Str(s.storage[c].originalURL)
  }

  /** Every cache entry in the store holds the target of the durable record of its code. */
  ghost predicate CacheMatchesDurable(redis: Store, decode: Decoder) {
    forall c :: CacheKey(c) in redis.data ==>
      && DurableKey(c) in redis.data
      && Loaded(redis, decode, DurableKey(c)).Some?
      && redis.data[CacheKey(c)] == Str(Loaded(redis, decode, DurableKey(c)).value.originalURL)
  }

  /** A server started over well-formed durable records and a complete scan has a coherent
      cache exactly when every cache entry left in the store agrees with its durable record,
      as the entries this service writes do; a store without cache entries qualifies. */
  lemma StartCoherent(domain: string, redis: Store, scan: seq<string>, decode: Decoder)
    requires DurableWellFormed(redis, decode) && ScansDurable(redis, scan)
    ensures CacheCoherent(NewServer(domain, redis, scan, decode)) <==> CacheMatchesDurable(redis, decode)
  {
    var s := NewServer(domain, redis, scan, decode);
    RestoreComplete(domain, redis, scan, decode);
    if CacheCoherent(s) {
      forall c | CacheKey(c) in redis.data
        ensures DurableKey(c) in redis.data && Loaded(redis, decode, DurableKey(c)) == Some(s.storage[c])
      {
      }
    }
    if CacheMatchesDurable(redis, decode) {
      forall c | CacheKey(c) in s.redis.data
        ensures c in s.storage && s.redis.data[CacheKey(c)] == Str(s.storage[c].originalURL)
      {
      }
    }
  }

  /** With a coherent cache the answer of a lookup is the index's, whatever the cache holds and
      whether or not its reads and writes go through. */
  lemma LookupAnswersFromIndex(s: Server, code: string, cacheReadOk: bool, cacheWriteOk: bool)
    requires CacheCoherent(s)
    ensures GetOriginalURL(s, code, cacheReadOk, cacheWriteOk).1 ==
      if code in s.storage then LookupResponse(s.storage[code].originalURL, true) else LookupResponse("", false)
    ensures CacheCoherent(GetOriginalURL(s, code, cacheReadOk, cacheWriteOk).0)
  {
    var s' := GetOriginalURL(s, code, cacheReadOk, cacheWriteOk).0;
    forall c | CacheKey(c) in s'.redis.data
      ensures c in s'.storage && s'.redis.data[CacheKey(c)] == Str(s'.storage[c].originalURL)
    {
      if CacheKey(c) == CacheKey(code) {
        CacheKeyInjective(c, code);
      }
    }
  }

  /** Self-healing: a cache miss that the index answers puts the target back in the cache, so
      the next cache read alone gives the same URL. */
  lemma CacheRepopulated(s: Server, code: string)
    requires Get(s.redis, CacheKey(code)).Err? && code in s.storage
    ensures var (s', resp) := GetOriginalURL(s, code, true, true);
            && resp == LookupResponse(s.storage[code].originalURL, true)
            && Get(s'.redis, CacheKey(code)) == Ok(resp.originalURL)
            && s'.redis.ttl[CacheKey(code)] == CacheTTL
            && GetOriginalURL(s', code, true, true) == (s', resp)
  {
  }

  /** The passing of a cache entry's 24 hours. */
  function ExpireCacheEntry(s: Server, code: string): (s': Server)
    ensures CacheKey(code) !in s'.redis.data
    ensures s'.storage == s.storage
  {
    Server(s.storage, Del(s.redis, CacheKey(code)), s.baseURL)
  }

  lemma ExpiryKeepsCoherence(s: Server, code: string)
    requires CacheCoherent(s)
    ensures CacheCoherent(ExpireCacheEntry(s, code))
  {
  }

  /** The two store writes of a create keep the cache coherent with the updated index, unless
      the code was already indexed and the cache write failed. */
  lemma WritesKeepCoherence(s: Server, d: URLData, persistOk: bool, cacheOk: bool)
    requires CacheCoherent(s)
    requires cacheOk || d.shortCode !in s.storage
    ensures CacheCoherent(Server(s.storage[d.shortCode := d], PersistAndCache(s.redis, d, persistOk, cacheOk), s.baseURL))
  {
    var s' := Server(s.storage[d.shortCode := d], PersistAndCache(s.redis, d, persistOk, cacheOk), s.baseURL);
    forall c | CacheKey(c) in s'.redis.data
      ensures c in s'.storage && s'.redis.data[CacheKey(c)] == Str(s'.storage[c].originalURL)
    {
      CacheKeyNotDurable(c, d.shortCode);
      if CacheKey(c) == CacheKey(d.shortCode) {
        CacheKeyInjective(c, d.shortCode);
      }
    }
  }

  /** Create keeps the cache coherent, except when a generated code lands on an existing
      entry and the cache write fails: then the old target stays cached. */
  lemma CreateKeepsCoherence(s: Server, req: CreateRequest, env: CreateEnv)
    requires |env.random| == 6
    requires CacheCoherent(s)
    requires env.cacheOk || ChosenCode(req, env) !in s.storage
    ensures CacheCoherent(CreateShortURL(s, req, env).0)
  {
    var res := CreateShortURL(s, req, env).1;
    if res.Ok? {
      var d := URLData(res.value.shortCode, req.originalURL, req.userID, env.now);
      WritesKeepCoherence(s, d, env.persistOk, env.cacheOk);
    }
  }

  /** Create followed by lookup gives back the URL, whether the cache entry is there, has
      expired or was never written, and whether the cache read goes through. */
  lemma CreateThenLookup(s: Server, req: CreateRequest, env: CreateEnv, expire: bool, cacheReadOk: bool, cacheWriteOk: bool)
    requires |env.random| == 6
    requires CacheCoherent(s)
    requires env.cacheOk || ChosenCode(req, env) !in s.storage
    requires CreateShortURL(s, req, env).1.Ok?
    ensures var (s1, res) := CreateShortURL(s, req, env);
            var code := res.value.shortCode;
            var s2 := if expire then ExpireCacheEntry(s1, code) else s1;
            GetOriginalURL(s2, code, cacheReadOk, cacheWriteOk).1 == LookupResponse(req.originalURL, true)
  {
    var (s1, res) := CreateShortURL(s, req, env);
    var code := res.value.shortCode;
    CreateKeepsCoherence(s, req, env);
    var s2 := if expire then ExpireCacheEntry(s1, code) else s1;
    if expire {
      ExpiryKeepsCoherence(s1, code);
    }
    LookupAnswersFromIndex(s2, code, cacheReadOk, cacheWriteOk);
  }

  /** No uniqueness check is made for a generated code: if it is already in the index, the
      create succeeds and the earlier record (possibly another user's) is replaced. */
  lemma GeneratedCollisionOverwrites(s: Server, req: CreateRequest, env: CreateEnv)
    requires |env.random| == 6
    requires req.customAlias == ""
    requires Validator.ValidateURL(req.originalURL, env.parsed, env.resolution).Ok?
    requires Base64.GenerateShortCode(env.random) in s.storage
    ensures var (s', res) := CreateShortURL(s, req, env);
            var code := Base64.GenerateShortCode(env.random);
            && res.Ok? && res.value.shortCode == code
            && s'.storage[code] == URLData(code, req.originalURL, req.userID, env.now)
            && |s'.storage| == |s.storage|
  {
    var code := Base64.GenerateShortCode(env.random);
    assert CreateShortURL(s, req, env).0.storage.Keys == s.storage.Keys;
  }

  /** A generated collision with a failed cache write: the old target stays cached, so a
      lookup returns it instead of the URL just shortened, although the index holds the new one. */
  lemma StaleTargetAfterCollision(s: Server, req: CreateRequest, env: CreateEnv)
    requires |env.random| == 6
    requires req.customAlias == "" && !env.cacheOk
    requires Validator.ValidateURL(req.originalURL, env.parsed, env.resolution).Ok?
    requires Get(s.redis, CacheKey(Base64.GenerateShortCode(env.random))).Ok?
    ensures var (s', res) := CreateShortURL(s, req, env);
            var code := Base64.GenerateShortCode(env.random);
            && res.Ok?
            && s'.storage[code].originalURL == req.originalURL
            && GetOriginalURL(s', code, true, true).1 == LookupResponse(Get(s.redis, CacheKey(code)).value, true)
  {
    var code := Base64.GenerateShortCode(env.random);
    var d := URLData(code, req.originalURL, req.userID, env.now);
    CacheKeyNotDurable(code, code);
    assert Get(PersistAndCache(s.redis, d, env.persistOk, false), CacheKey(code)) == Get(s.redis, CacheKey(code));
  }

  // ---------------------------------------------------------------- restart

  /** Writing a record under its own durable key keeps the durable records well formed. */
  lemma DurableWriteKeepsWellFormed(redis: Store, decode: Decoder, d: URLData)
    requires InvertsMarshal(decode)
    requires DurableWellFormed(redis, decode)
    ensures DurableWellFormed(Set(redis, DurableKey(d.shortCode), Marshal(d), 0), decode)
  {
    var r1 := Set(redis, DurableKey(d.shortCode), Marshal(d), 0);
    assert decode(Marshal(d)) == Some(d);
    forall k | k in r1.data && HasPrefix(k, "urldata:")
      ensures Loaded(r1, decode, k).Some? && DurableKey(Loaded(r1, decode, k).value.shortCode) == k
    {
      if k != DurableKey(d.shortCode) {
        assert Loaded(r1, decode, k) == Loaded(redis, decode, k);
      }
    }
  }

  /** A cache write never touches a durable key. */
  lemma CacheWriteKeepsWellFormed(redis: Store, decode: Decoder, code: string, url: string)
    requires DurableWellFormed(redis, decode)
    ensures DurableWellFormed(Set(redis, CacheKey(code), url, CacheTTL), decode)
  {
    var r2 := Set(redis, CacheKey(code), url, CacheTTL);
    forall k | k in r2.data && HasPrefix(k, "urldata:")
      ensures Loaded(r2, decode, k).Some? && DurableKey(Loaded(r2, decode, k).value.shortCode) == k
    {
      assert k != CacheKey(code) by {
        assert k[..8] == "urldata:";
        CacheKeyNotDurable(code, k[8..]);
        assert k == DurableKey(k[8..]);
      }
      assert Loaded(r2, decode, k) == Loaded(redis, decode, k);
    }
  }

  /** Create keeps every durable record under the key of its own code. */
  lemma CreateKeepsDurableWellFormed(s: Server, req: CreateRequest, env: CreateEnv, decode: Decoder)
    requires |env.random| == 6
    requires InvertsMarshal(decode)
    requires DurableWellFormed(s.redis, decode)
    ensures DurableWellFormed(CreateShortURL(s, req, env).0.redis, decode)
  {
    var (s', res) := CreateShortURL(s, req, env);
    if res.Ok? {
      var d := URLData(res.value.shortCode, req.originalURL, req.userID, env.now);
      var r1 := if env.persistOk then Set(s.redis, DurableKey(d.shortCode), Marshal(d), 0) else s.redis;
      if env.persistOk {
        DurableWriteKeepsWellFormed(s.redis, decode, d);
      }
      if env.cacheOk {
        CacheWriteKeepsWellFormed(r1, decode, d.shortCode, d.originalURL);
      }
    }
  }

  /** Restart recovery: after a create whose durable write went through, a fresh server
      rebuilt from a complete scan of the store finds the record, and its lookup returns the
      URL once the cache entry is gone. */
  lemma RestartRecoversCreated(s: Server, req: CreateRequest, env: CreateEnv, domain: string, scan: seq<string>,
                               decode: Decoder, cacheReadOk: bool, cacheWriteOk: bool)
    requires |env.random| == 6
    requires InvertsMarshal(decode)
    requires DurableWellFormed(s.redis, decode)
    requires env.persistOk
    requires CreateShortURL(s, req, env).1.Ok?
    requires ScansDurable(CreateShortURL(s, req, env).0.redis, scan)
    ensures var (s1, res) := CreateShortURL(s, req, env);
            var code := res.value.shortCode;
            var rebuilt := NewServer(domain, s1.redis, scan, decode);
            && code in rebuilt.storage
            && rebuilt.storage[code] == s1.storage[code]
            && GetOriginalURL(ExpireCacheEntry(rebuilt, code), code, cacheReadOk, cacheWriteOk).1
               == LookupResponse(req.originalURL, true)
  {
    var (s1, res) := CreateShortURL(s, req, env);
    var code := res.value.shortCode;
    var d := URLData(code, req.originalURL, req.userID, env.now);
    CreateKeepsDurableWellFormed(s, req, env, decode);
    RestoreComplete(domain, s1.redis, scan, decode);
    assert decode(Marshal(d)) == Some(d);
    var r1 := Set(s.redis, DurableKey(code), Marshal(d), 0);
    CacheKeyNotDurable(code, code);
    assert Loaded(s1.redis, decode, DurableKey(code)) == Some(d);
  }

  // ---------------------------------------------------------------- listing

  datatype URLInfo = URLInfo(shortCode: string, shortURL: string, originalURL: string, createdAt: int, clicks: int)

  function InfoOf(baseURL: string, d: URLData): URLInfo {
    URLInfo(d.shortCode, ShortURL(baseURL, d.shortCode), d.originalURL, d.createdAt, 0)
  }

  /** The codes of the index entries owned by `user`. */
  function Owned(storage: map<string, URLData>, user: string): set<string> {
    set c | c in storage && storage[c].userID == user
  }

  /** Taking one more code off the walk adds it to the codes met if `user` owns it. */
  lemma OwnedStep(storage: map<string, URLData>, user: string, todo: set<string>, c: string)
    requires c in todo && todo <= storage.Keys
    ensures storage[c].userID == user ==> Owned(storage, user) - (todo - {c}) == (Owned(storage, user) - todo) + {c}
    ensures storage[c].userID != user ==> Owned(storage, user) - (todo - {c}) == Owned(storage, user) - todo
    ensures c !in Owned(storage, user) - todo
  {
  }

  /** The walk over the index behind `GetUserURLs`: every code owned by `user`, each once, in
      the order the walk meets them. */
  method OwnedCodes(storage: map<string, URLData>, user: string) returns (codes: seq<string>)
    ensures |codes| == |Owned(storage, user)|
    ensures forall i :: 0 <= i < |codes| ==> codes[i] in Owned(storage, user)
    ensures forall c :: c in Owned(storage, user) ==> c in codes
  {
    codes := [];
    var todo := storage.Keys;
    while todo != {}
      invariant todo <= storage.Keys
      invariant |codes| == |Owned(storage, user) - todo|
      invariant forall i :: 0 <= i < |codes| ==> codes[i] in Owned(storage, user) - todo
      invariant forall c :: c in Owned(storage, user) - todo ==> c in codes
      decreases todo
    {
      var c :| c in todo;
      OwnedStep(storage, user, todo, c);
      if storage[c].userID == user {
        codes := codes + [c];
      }
      todo := todo - {c};
    }
    assert Owned(storage, user) - todo == Owned(storage, user);
  }

  /** `GetUserURLs`: one entry per index record owned by `user`, in the index's (unspecified)
      iteration order, click counts left at 0; an empty list when the user owns nothing. */
  method GetUserURLs(s: Server, user: string) returns (urls: seq<URLInfo>)
    ensures |urls| == |Owned(s.storage, user)|
    ensures forall c :: c in Owned(s.storage, user) ==> InfoOf(s.baseURL, s.storage[c]) in urls
    ensures forall i :: 0 <= i < |urls| ==>
              exists c :: c in Owned(s.storage, user) && urls[i] == InfoOf(s.baseURL, s.storage[c])
    ensures forall i :: 0 <= i < |urls| ==> urls[i].clicks == 0
  {
    var codes := OwnedCodes(s.storage, user);
    urls := seq(|codes|, i requires 0 <= i < |codes| => InfoOf(s.baseURL, s.storage[codes[i]]));
    forall c | c in Owned(s.storage, user)
      ensures InfoOf(s.baseURL, s.storage[c]) in urls
    {
      var i :| 0 <= i < |codes| && codes[i] == c;
      assert urls[i] == InfoOf(s.baseURL, s.storage[c]);
    }
  }
}

=== FILE: validator.dfy ===
/** The input checks of pkg/validator/url.go: short-code format, XSS-character stripping and
    the URL gate in front of alias creation. `url.Parse`, `net.ParseIP`, `net.LookupIP` and the
    `net.IP` classification predicates are not modelled; their outcomes are inputs. */
module Validator {

  import opened Results
  import opened Text

  // ---------------------------------------------------------------- short codes

  /** The character class `[a-zA-Z0-9_-]` of the short-code pattern. */
  predicate IsCodeChar(c: char) {
    ('a' <= c <= 'z') || ('A' <= c <= 'Z') || ('0' <= c <= '9') || c == '_' || c == '-'
  }

  predicate AllCodeChars(s: string) {
    forall k :: 0 <= k < |s| ==> IsCodeChar(s[k])
  }

  /** How many characters at the front of `s` the class `[a-zA-Z0-9_-]` consumes. */
  function ClassRun(s: string): (n: nat)
    ensures n <= |s|
    ensures AllCodeChars(s[..n])
    ensures n < |s| ==> !IsCodeChar(s[n])
  {
    if s != [] && IsCodeChar(s[0]) then
      var n := 1 + ClassRun(s[1..]);
      assert s[..n] == [s[0]] + s[1..][..n - 1];
      n
    else 0
  }

  /** The anchored pattern `^[a-zA-Z0-9_-]{3,10}$`: the class must consume the whole string,
      which must be 3 to 10 characters long. */
  predicate MatchesCodePattern(code: string) {
    ClassRun(code) == |code| && 3 <= |code| <= 10
  }

  datatype CodeError = EmptyCode | BadCodeFormat

  /** `ValidateShortCode`: an empty code has its own error; otherwise the pattern decides. */
  function ValidateShortCode(code: string): (r: Result<(), CodeError>)
    ensures r.Ok? <==> 3 <= |code| <= 10 && AllCodeChars(code)
    ensures code == [] ==> r == Err(EmptyCode)
    ensures code != [] && r.Err? ==> r == Err(BadCodeFormat)
  {
    if code == [] then Err(EmptyCode)
    else if !MatchesCodePattern(code) then Err(BadCodeFormat)
    else Ok(())
  }

  // ---------------------------------------------------------------- sanitising

  /** The four `strings.ReplaceAll` calls, in source order. */
  function StripUnsafe(s: string): (r: string)
    ensures '<' !in r && '>' !in r && '"' !in r && '\'' !in r
    ensures multiset(r) == multiset(s)['<' := 0]['>' := 0]['"' := 0]['\'' := 0]
  {
    var a := RemoveAll(s, '<');
    var b := RemoveAll(a, '>');
    var c := RemoveAll(b, '"');
    var d := RemoveAll(c, '\'');
    assert '<' !in d by { assert multiset(d)['<'] == 0; }
    assert '>' !in d by { assert multiset(d)['>'] == 0; }
    assert '"' !in d by { assert multiset(d)['"'] == 0; }
    d
  }

  /** `SanitizeInput`: unsafe characters removed, then surrounding whitespace trimmed. */
  function SanitizeInput(input: string): (r: string)
    ensures '<' !in r && '>' !in r && '"' !in r && '\'' !in r
    ensures r == [] || (!IsSpace(r[0]) && !IsSpace(r[|r| - 1]))
    ensures |r| <= |input|
  {
    var t := StripUnsafe(input);
    StripShrinks(input);
    TrimSpace(t)
  }

  lemma StripShrinks(s: string)
    ensures |StripUnsafe(s)| <= |s|
  {
    var t := StripUnsafe(s);
    assert multiset(t) <= multiset(s);
    assert |multiset(t)| <= |multiset(s)|;
  }

  /** What is left after sanitising is a slice of the stripped input, and everything cut
      from its two ends is whitespace. */
  lemma SanitizeIsTrimmedStrip(input: string)
    ensures var t := StripUnsafe(input);
            exists i, j {:trigger t[i..j]} :: 0 <= i <= j <= |t| && SanitizeInput(input) == t[i..j]
              && AllSpace(t[..i]) && AllSpace(t[j..])
  {
    var t := StripUnsafe(input);
    assert SanitizeInput(input) == TrimSpace(t);
  }

  /** Sanitising twice is sanitising once. */
  lemma SanitizeIdempotent(input: string)
    ensures SanitizeInput(SanitizeInput(input)) == SanitizeInput(input)
  {
    var r := SanitizeInput(input);
    RemoveAbsent(r, '<');
    RemoveAbsent(r, '>');
    RemoveAbsent(r, '"');
    RemoveAbsent(r, '\'');
    assert StripUnsafe(r) == r;
    TrimSpaceOfTrimmed(r);
  }

  // ---------------------------------------------------------------- URLs

  /** The fields of `url.Parse`'s result that the checks read: `Scheme`, `Host` (which may
      carry a port) and `Hostname()`. */
  datatype ParsedURL = ParsedURL(scheme: string, host: string, hostname: string)

  /** What the standard library's `net.IP` predicates say about one address. */
  datatype IPFlags = IPFlags(loopback: bool, private: bool, linkLocalUnicast: bool,
                             multicast: bool, unspecified: bool)

  /** What `checkSSRF` learns about a host name: `net.ParseIP` accepted it as a literal
      address, or `net.LookupIP` failed, or `net.LookupIP` resolved it to some addresses. */
  datatype HostResolution = LiteralIP(ip: IPFlags) | LookupFailed | Resolved(ips: seq<IPFlags>)

  datatype URLError =
    | EmptyURL | URLTooLong | BadURLFormat | BadScheme | MissingHost
    | LocalhostURL | LoopbackIP | PrivateIP | LinkLocalIP | MulticastIP | UnspecifiedIP

  const MaxURLLength := 2048

  /** `isPrivateIP`: the first of the five classes that holds names the error. */
  function IsPrivateIP(ip: IPFlags): (r: Result<(), URLError>)
    ensures r.Ok? <==> !ip.loopback && !ip.private && !ip.linkLocalUnicast && !ip.multicast && !ip.unspecified
    ensures ip.loopback ==> r == Err(LoopbackIP)
    ensures !ip.loopback && ip.private ==> r == Err(PrivateIP)
    ensures !ip.loopback && !ip.private && ip.linkLocalUnicast ==> r == Err(LinkLocalIP)
    ensures !ip.loopback && !ip.private && !ip.linkLocalUnicast && ip.multicast ==> r == Err(MulticastIP)
    ensures !ip.loopback && !ip.private && !ip.linkLocalUnicast && !ip.multicast && ip.unspecified ==> r == Err(UnspecifiedIP)
  {
    if ip.loopback then Err(LoopbackIP)
    else if ip.private then Err(PrivateIP)
    else if ip.linkLocalUnicast then Err(LinkLocalIP)
    else if ip.multicast then Err(MulticastIP)
    else if ip.unspecified then Err(UnspecifiedIP)
    else Ok(())
  }

  /** The loop over resolved addresses: the verdict on the first rejected address, if any. */
  function CheckResolved(ips: seq<IPFlags>): (r: Result<(), URLError>)
    ensures r.Ok? <==> forall k :: 0 <= k < |ips| ==> IsPrivateIP(ips[k]).Ok?
    ensures r.Err? ==> exists k :: 0 <= k < |ips| && IsPrivateIP(ips[k]) == r
                         && forall m :: 0 <= m < k ==> IsPrivateIP(ips[m]).Ok?
  {
    if ips == [] then Ok(())
    else if IsPrivateIP(ips[0]).Err? then IsPrivateIP(ips[0])
    else
      var r := CheckResolved(ips[1..]);
      if r.Err? then
        var k :| 0 <= k < |ips[1..]| && IsPrivateIP(ips[1..][k]) == r
                 && forall m :: 0 <= m < k ==> IsPrivateIP(ips[1..][m]).Ok?;
        assert IsPrivateIP(ips[k + 1]) == r;
        r
      else r
  }

  /** The localhost test of `checkSSRF`, after lower-casing the host. */
  predicate IsLocalhostName(host: string) {
    var lower := ToLower(host);
    lower == "localhost" || HasSuffix(lower, ".localhost")
  }

  /** `checkSSRF`: localhost names are refused before any address is looked at; a name that
      does not resolve is let through. */
  function CheckSSRF(host: string, res: HostResolution): (r: Result<(), URLError>)
    ensures IsLocalhostName(host) ==> r == Err(LocalhostURL)
    ensures !IsLocalhostName(host) && res.LookupFailed? ==> r.Ok?
    ensures !IsLocalhostName(host) && res.LiteralIP? ==> r == IsPrivateIP(res.ip)
    ensures !IsLocalhostName(host) && res.Resolved? ==> r == CheckResolved(res.ips)
    ensures r.Ok? ==> !IsLocalhostName(host)
  {
    if IsLocalhostName(host) then Err(LocalhostURL)
    else match res
      case LiteralIP(ip) => IsPrivateIP(ip)
      case LookupFailed => Ok(())
      case Resolved(ips) => CheckResolved(ips)
  }

  /** `ValidateURL`: the length checks come before parsing, the scheme and host checks after,
      and the SSRF check last. `parsed` is `url.Parse(s)` (None when it fails) and `res` is what
      the resolver says about the parsed host name. */
  function ValidateURL(s: string, parsed: Option<ParsedURL>, res: HostResolution): (r: Result<(), URLError>)
    ensures s == [] ==> r == Err(EmptyURL)
    ensures |s| > MaxURLLength ==> r == Err(URLTooLong)
    ensures 1 <= |s| <= MaxURLLength && parsed.None? ==> r == Err(BadURLFormat)
    ensures r.Ok? ==> 1 <= |s| <= MaxURLLength && parsed.Some?
                      && (parsed.value.scheme == "http" || parsed.value.scheme == "https")
                      && parsed.value.host != [] && !IsLocalhostName(parsed.value.hostname)
    ensures 1 <= |s| <= MaxURLLength && parsed.Some? && parsed.value.scheme != "http" && parsed.value.scheme != "https"
            ==> r == Err(BadScheme)
    ensures (1 <= |s| <= MaxURLLength && parsed.Some? && parsed.value.host == []
             && (parsed.value.scheme == "http" || parsed.value.scheme == "https"))
            ==> r == Err(MissingHost)
    ensures (1 <= |s| <= MaxURLLength && parsed.Some? && parsed.value.host != []
             && (parsed.value.scheme == "http" || parsed.value.scheme == "https"))
            ==> r == CheckSSRF(parsed.value.hostname, res)
  {
    if s == [] then Err(EmptyURL)
    else if |s| > MaxURLLength then Err(URLTooLong)
    else match parsed
      case None => Err(BadURLFormat)
      case Some(u) =>
        if u.scheme != "http" && u.scheme != "https" then Err(BadScheme)
        else if u.host == [] then Err(MissingHost)
        else CheckSSRF(u.hostname, res)
  }

  /** The localhost test ignores letter case. */
  lemma LocalhostAnyCase(res: HostResolution)
    ensures CheckSSRF("LocalHost", res) == Err(LocalhostURL)
  {
    assert ToLower("LocalHost") == "localhost";
  }

  /** Every subdomain of localhost is refused, whatever the case of its letters. */
  lemma LocalhostSubdomain(sub: string, res: HostResolution)
    ensures CheckSSRF(sub + ".LOCALHOST", res) == Err(LocalhostURL)
  {
    ToLowerConcat(sub, ".LOCALHOST");
    assert ToLower(".LOCALHOST") == ".localhost";
    var l := ToLower(sub + ".LOCALHOST");
    assert l[|l| - 10..] == ".localhost";
  }
}
